=== FILE: README.md ===
# Fund-load velocity checks and batched ledger, modelled in Dafny

The system reads fund-load records (a transaction id, a customer id, a UTC
timestamp and a dollar amount). It checks each record against per-customer
velocity limits and appends the accepted ones to an append-only "blockchain"
ledger that seals its pending buffer into blocks. The repository holds
several drafts side by side, and the model follows each of them:

- **Prime-tier oracle** (`Primes`). The sieve of Eratosthenes
  `generate_prime_set` is an imperative method over an array of flags, with
  loop invariants. `is_prime` is membership of the decimal text of a number
  in the resulting set.
- **Transaction normaliser.** The id, customer-id, amount and timestamp
  patterns are in `Formats`, with decimal text in `Text`. The
  `fund_load_project` variant is `Transactions`: it keeps the id as an
  integer and the date/time as slices of the input. The `fund-load-project`
  variant is `DatedTransactions`: it keeps the id as text and the date-time
  as a parsed value. `TransactionFields` holds the shared field checks and
  the first half of `from_dict`. Errors are a `Result` whose error names the
  first failing check.
- **Chain-scan validator** (`ChainValidator`, `validator_refactor.py`). It
  sums and counts the customer's same-date records, and sums the
  Monday-to-Sunday calendar week, over the sealed blocks and the pending
  buffer.
- **Carried-state validator** (`CarriedValidator`, `validator.py`).
  - It reads the customer's latest stored daily/weekly figures from the
    chain and carries them forward on the same date, or in the same ISO week
    number of the same calendar year.
  - It records the new figures on the accepted record.
- **Rolling-window validator** (`Store`, `WindowValidator`).
  - The time-series store holds records keyed by transaction id and answers
    closed, newest-first range queries by customer and epoch second.
  - The validator stores each record before judging it.
  - The daily window runs from UTC midnight up to the record's instant. The
    weekly window covers the 604800 seconds before it.
  - Monday-dated loads count twice in window totals.
- **Ledgers.** `Ledger` holds the common block sealing. `TimedLedger` is the
  `fund_load_project` ledger: it seals on a size or elapsed-time threshold
  and only after the validator accepts. `SizeLedger` is the
  `fund-load-project` ledger: it seals on size only and never rejects.
- **Pipeline** (`Pipeline`). It runs the processing order of `main.py`:
  store, then validate, then add to the ledger only when accepted.

Amounts are integer cents: the limits 9999, 5000 and 20000 dollars become
999900, 500000 and 2000000. All limits are strict: a total equal to a limit
is accepted. Dates use the proleptic Gregorian day number (0001-01-01 is day
1, a Monday). Epoch seconds are computed as UTC. Every `datetime.now()` is an
explicit `now` parameter.

Where the code's evident intent and its behaviour part, the model follows
the behaviour:
- **No genesis block.** The constructor means to start an empty chain with a
  genesis block: it calls `create_block(previous_hash="1", ...)` when no
  chain was loaded (`fund_load_project/src/blockchain.py:50-51`, with the
  comment "Genesis block" at `fund-load-project/src/blockchain.py:53`). But
  `create_block` returns `None` on an empty pending buffer, so that call
  creates nothing (`TimedLedger.NoGenesisBlock`, `Ledger.Init`).
- **Prime tier in the chain-scan validator.** It rejects when at least one
  same-date record already exists (`daily_count >= 1`).
- **Carried-state week.** The carried-state validator compares the ISO week
  number together with the calendar year, not the ISO year. So 2024-01-01
  and 2024-12-30 count as the same week
  (`CarriedValidator.CodedWeekSpansIsoYears`), and 2024-12-30 and 2025-01-01
  do not (`CarriedValidator.CodedWeekSplitsIsoWeek`).
- **Rolling-window validator.** The source of the rolling-window validator
  is not part of this model. Its windows and Monday doubling follow
  `fund-load-project/tests/test_validator.py`. The record is stored before
  it is judged, as `main.py` does. The limit values (9999, 5000 and 20000
  dollars, and one or three records a day) are the ones `validator.py` and
  `validator_refactor.py` use, but the tier rule is not theirs. Here a
  prime id has no weekly cap, and a normal id's count is checked before its
  daily total. Both chain validators apply the 20000 weekly cap to every id
  and check the daily total first (`fund_load_project/src/validator.py:76-88`,
  `fund_load_project/src/validator_refactor.py:78-89`).
  The prime test takes the numeric value of the id, as the tests pass
  integers.

## Model

| member | source | states |
|---|---|---|
| Primes.GeneratePrimeSet | fund_load_project/src/_utils.py:1-8 | The set holds the decimal text of n exactly when n is prime and n ≤ limit. Every element is such a text. 0 and 1 are never members, so a limit below 2 gives the empty set. |
| Primes.Sieve | fund_load_project/src/_utils.py:2-7 | The flag list has limit+1 entries (2 when the slice assignment pads a limit of 0). After sieving, entry k is true exactly when k is prime by trial division. |
| Primes.InitialFlags | fund_load_project/src/_utils.py:2-3 | Before any sieving, exactly the entries 0 and 1 are false, and the list is padded to length 2. |
| Primes.StrikeMultiples | fund_load_project/src/_utils.py:6-7 | Clearing i·i, i·i+i, … up to limit turns "no divisor below i" into "no divisor up to i" for every entry, composite or prime. |
| Primes.UnmarkedMeans | fund_load_project/src/_utils.py:4-7 | Outer-loop invariant: after the factors below i, k is still marked iff k ≥ 2 and no d < i with d² ≤ k divides k. Primes are never cleared. |
| Primes.StepKeepsUnmarked | fund_load_project/src/_utils.py:5 | Skipping an i that is already cleared (the `if sieve[i]` guard) changes no entry: its multiples were cleared by its own factor. |
| Primes.SievedEnough | fund_load_project/src/_utils.py:4 | Sieving with the factors up to ⌊√limit⌋ suffices: every entry up to limit is then marked iff it is prime. |
| Primes.Isqrt | fund_load_project/src/_utils.py:4 | The loop bound `int(limit ** 0.5)` is the integer square root r, with r² ≤ limit < (r+1)². |
| Primes.PrimeBySmallDivisors | fund_load_project/src/_utils.py:4-7 | A number ≥ 2 with no divisor d ≥ 2 where d² ≤ n has no divisor below itself, so it is prime. |
| Primes.SmallPrimeExamples | fund-load-project/tests/test_validator.py:6-20 | 2, 3 and 97 are prime; 4, 100, 1530, 6500 and 10000 are not. |
| Text.NatText | fund_load_project/src/validator_refactor.py:14-15 | `str(n)` is a non-empty digit string, and it starts with 0 only when n is 0. |
| Text.ParseNatText | fund_load_project/src/transactions.py:27-29 | `int` of the decimal text of n gives n back, so a digit-string id and its integer correspond. |
| Text.NatTextInjective | fund_load_project/src/validator_refactor.py:15 | Two numbers have the same decimal text iff they are equal, so membership of `str(n)` in the prime set decides n alone. |
| Formats.IdPatternExamples | fund_load_project/src/_constants.py:4-9 | The id pattern accepts "15887" and rejects "15887s" and "C528". |
| Formats.AmountPatternExamples | fund_load_project/src/_constants.py:11-17 | The amount pattern accepts "$3318.47" and "USD$3318.47". It rejects "3318.47" (no dollar sign) and "$3318,47" (comma separator). |
| Formats.TimestampExamples | fund_load_project/src/_constants.py:19 | "2000-01-01T00:00:00Z" parses to midnight of 2000-01-01; without the trailing Z the text is rejected. |
| Formats.ParseTimestamp | fund_load_project/src/_constants.py:19 | The timestamp format yields only real calendar date-times: years 1 to 9999, month lengths and leap years respected, hours below 24, minutes and seconds below 60. |
| Formats.TimestampRoundTrip | fund_load_project/src/transactions.py:83-86 | Every valid date-time, written in the `%Y-%m-%dT%H:%M:%SZ` form, parses back to itself. |
| Formats.TimestampCanonical | fund_load_project/src/transactions.py:83-91 | An accepted timestamp text is the one rendering of the value it parses to, so the stored text and the parsed value carry the same information. |
| Formats.SpacedIsNotTimestamp | fund-load-project/src/transactions.py:86-89 | `str(datetime)`, with its space separator and no Z, is never accepted by the timestamp check. |
| Formats.TimestampDatePart | fund_load_project/src/transactions.py:88 | The first ten characters of an accepted timestamp parse as `%Y-%m-%d` to the same date as the full timestamp. |
| Formats.ParseDateText | fund_load_project/src/validator_refactor.py:30 | `strptime(date, "%Y-%m-%d")` yields only valid calendar dates. |
| Formats.DateTextRoundTrip | fund_load_project/src/validator_refactor.py:34-36 | Every valid date, zero-padded, parses back to itself. |
| Formats.DateTextCanonical | fund_load_project/src/validator.py:46 | An accepted date text is the rendering of its date, so two accepted date texts are equal iff their dates are. |
| Calendar.OrdinalOrder | fund_load_project/src/validator_refactor.py:36 | Comparing day numbers orders valid dates as the calendar does, and equal day numbers mean equal dates. |
| Calendar.OrdinalWithinYear | fund_load_project/src/validator_refactor.py:31-32 | A valid date's day number lies after every day of the earlier years and within its own year. |
| Calendar.MondayToSunday | fund_load_project/src/validator_refactor.py:30-36 | A date lies in the Monday-to-Sunday week that starts `weekday()` days before another date, both ends inclusive, iff the two dates have the same week index. |
| Calendar.IsoCalendar | fund_load_project/src/validator.py:59-61 | `isocalendar()` returns the ISO weekday (Monday 1 … Sunday 7) of the date as its third part. |
| Calendar.DaysBeforeMonthIsTable | fund_load_project/src/validator.py:55-58 | The days before a month, summed from the month lengths, are the fixed common-year table entry plus one leap day for months after February of a leap year. |
| Calendar.IsoWeekDateThursday | fund_load_project/src/validator.py:60 | A day's ISO year is the calendar year holding the Thursday of its Monday-to-Sunday week, and its week number counts that Thursday's seven-day block of the year; the number is 1 to 53. |
| Calendar.IsoCalendarOfOrdinal | fund_load_project/src/validator.py:55-60 | A valid date's day number lies in its own year, and its ISO week date and week index are both computed from that day number. |
| Calendar.IsoWeekInRange | fund_load_project/src/validator.py:60 | The ISO week number of every valid date is between 1 and 53. |
| Calendar.SameWeekByThursday | fund_load_project/src/validator.py:59-61 | Two ISO week dates fixed by the Thursday rule agree on ISO year and week iff their days share a Monday-to-Sunday week. |
| Calendar.IsoWeekDateIffSameWeek | fund_load_project/src/validator.py:59-61 | For day numbers within their years, equal ISO year and week iff the same Monday-to-Sunday week. |
| Calendar.IsoWeekIffSameWeek | fund_load_project/src/validator.py:59-61 | Two valid dates have the same ISO year and ISO week number iff they have the same week index, that is, lie in one Monday-to-Sunday week. |
| Calendar.Week1Mondays | fund_load_project/src/validator.py:60 | ISO week 1 of 2024 starts on 2024-01-01, and that of 2025 on 2024-12-30. |
| Calendar.IsoDateOfNewYear2024 | fund_load_project/src/validator.py:60 | 2024-01-01 is Monday of ISO week 1 of 2024. |
| Calendar.IsoDateOf20241230 | fund_load_project/src/validator.py:60 | 2024-12-30 is Monday of ISO week 1 of ISO year 2025. |
| Calendar.IsoDateOfNewYear2025 | fund_load_project/src/validator.py:60 | 2025-01-01 is Wednesday of ISO week 1 of 2025. |
| Calendar.SameDayWindow | fund-load-project/tests/test_validator.py:47-95 | A date-time's epoch second lies between UTC midnight of another's day and that other's instant iff both fall on the same date, with the first no later in the day. |
| Calendar.MondayExamples | fund-load-project/tests/test_validator.py:27-44 | 2024-06-03 and 2025-08-18 are Mondays; 2024-06-04 through 2024-06-09 are not. |
| Calendar.August2025 | fund-load-project/tests/test_validator.py:273-328 | A day of August 2025 is a Monday iff its day number is 4 mod 7, so 2025-08-18 is one and 2025-08-10 and 2025-08-16 are not. |
| Calendar.January2000 | fund-load-project/tests/test_validator.py:100-154 | A day of January 2000 is a Monday iff its day number is 3 mod 7, so 2000-01-01, 2000-01-02 and 2000-01-06 are not Mondays. |
| TransactionFields.FirstMissing | fund_load_project/src/transactions.py:55-57 | The loop stops at the first field of the list that is absent; it reports nothing iff every field is present. |
| TransactionFields.ValidateRequiredFields | fund_load_project/src/transactions.py:50-57 | Succeeds iff id, customer_id, time and load_amount are all present. Otherwise it names the first missing key, in that order. |
| TransactionFields.ValidateTransactionId | fund_load_project/src/transactions.py:60-66 | Succeeds iff the id is a non-empty ASCII digit string, returning it unchanged. Otherwise the error carries the offending text. |
| TransactionFields.ValidateCustomerId | fund_load_project/src/transactions.py:69-75 | Same as the id check, for the customer id, with its own error. |
| TransactionFields.Reassemble | fund_load_project/src/transactions.py:124-141 | Succeeds iff id, customer_id, transaction_datetime and load_amount are present; the first missing one is named. The rebuilt record maps time to the datetime text and load_amount to "$" followed by the amount's text. |
| TransactionFields.DollarCentsText | fund_load_project/src/transactions.py:97-100 | Cents written with two decimals after a "$" match the amount pattern and read back as the same cents. |
| TransactionFields.FloatTextAmount | fund_load_project/src/transactions.py:140 | "$" + `str(float)` of an amount matches the amount pattern iff the cents are not a multiple of 10, and then it is the two-decimal text. |
| TransactionFields.NotUsdPrefixed | fund_load_project/src/transactions.py:140 | Text rebuilt by `from_dict` never carries the USD prefix. |
| Transactions.ProcessTimestamp | fund_load_project/src/transactions.py:78-91 | Succeeds iff the text is a valid timestamp; otherwise the error names it. The date part parses to the timestamp's date, the time part is "HH:MM:SSZ" with the Z kept, and the two parts rejoined with "T" give back the input. |
| Transactions.ProcessAmount | fund_load_project/src/transactions.py:93-102 | A text failing the pattern gives the invalid-format error. A "USD$" text passes the pattern but fails the conversion. A "$d.dd" text yields its value in cents. |
| Transactions.UsdAmountNotNumeric | fund_load_project/src/transactions.py:97-100 | For every "$d.dd" amount, its "USD"-prefixed form fails with the conversion error, because only "$" is removed before `float()`. |
| Transactions.New | fund_load_project/src/transactions.py:13-45 | Succeeds iff every field is present and valid. The integer id is the value of the id text, and the customer id and timestamp text are kept. The first failing check, in the order presence (id, customer_id, time, load_amount), id, customer id, timestamp, amount, decides the error. A `USD$` amount matches the pattern and then fails the numeric conversion. |
| Transactions.DateOf | fund_load_project/src/transactions.py:88 | The stored date text of a constructed transaction parses to a valid date. |
| Transactions.ToDict | fund_load_project/src/transactions.py:104-113 | The dictionary has exactly the six keys, and every value is the transaction's own: id, customer id, date and time texts, datetime text and amount. |
| Transactions.ReassembleToDict | fund_load_project/src/transactions.py:136-141 | `from_dict` rebuilds a `to_dict` dictionary into the id's decimal text, the customer id, the original timestamp and "$" + the amount's text. |
| Transactions.FromDict | fund_load_project/src/transactions.py:116-144 | A missing key is reported before any field is checked, naming the first absent one of id, customer_id, transaction_datetime, load_amount. The result succeeds iff all four keys are present and the rebuilt raw record (amount as "$" + `str(float)`) is one the constructor accepts. A success is a constructed transaction with the dictionary's customer id and datetime text. |
| Transactions.FromDictAsWritten | fund_load_project/src/transactions.py:116-144 | Reading back a `to_dict` dictionary succeeds iff the cents are not a multiple of 10, and then it returns the same transaction. |
| Transactions.FromDictLosesWholeDollars | fund_load_project/src/transactions.py:140 | 100 dollars is rendered "100.0", which the amount pattern rejects. |
| Transactions.FromDictTwoDecimalsRoundTrip | fund_load_project/src/transactions.py:116-144 | With the amount written with two decimals, reading back any `to_dict` dictionary returns the same transaction. |
| DatedTransactions.ProcessTimestamp | fund-load-project/src/transactions.py:81-103 | Succeeds iff the text is a valid timestamp. The parsed value is a valid date-time whose rendering is the input, so date, time and epoch all come from one parse. |
| DatedTransactions.ProcessAmount | fund-load-project/src/transactions.py:106-115 | Succeeds iff the text matches the amount pattern, with the "USD" prefix removed before reading the cents. Otherwise the error carries the text. |
| DatedTransactions.UsdPrefixSameAmount | fund-load-project/src/transactions.py:112-113 | "USD$d.dd" and "$d.dd" yield the same amount. |
| DatedTransactions.New | fund-load-project/src/transactions.py:13-50 | Succeeds iff every field is present and valid, keeping the id as its digit text. The first failing check, in the order presence, id, customer id, timestamp, amount, decides the error. |
| DatedTransactions.ToDict | fund-load-project/src/transactions.py:117-126 | The dictionary has the six keys, holding the transaction's id, customer id, padded date and clock texts and amount; the datetime is rendered as "YYYY-MM-DD HH:MM:SS", with a space and no Z. |
| DatedTransactions.ToWireDict | fund-load-project/src/transactions.py:117-126 | The same dictionary with the datetime in the wire format. |
| DatedTransactions.FromDict | fund-load-project/src/transactions.py:129-157 | A missing key is reported before any field is checked, naming the first absent one of id, customer_id, transaction_datetime, load_amount. The result succeeds iff all four keys are present and the rebuilt raw record is one the constructor accepts. A success is a constructed transaction whose id, customer id and rendered timestamp are the dictionary's texts. |
| DatedTransactions.FromDictAsWritten | fund-load-project/src/transactions.py:129-157 | Reading back any `to_dict` dictionary fails the timestamp check, whatever the amount. |
| DatedTransactions.WireDictRoundTrip | fund-load-project/src/transactions.py:129-157 | With the datetime in the wire format and a two-decimal amount, reading back returns the same transaction. |
| Ledger.CreateBlock | fund_load_project/src/blockchain.py:72-86 | An empty buffer gives no block and leaves the ledger unchanged. Otherwise it appends one block with index len(chain)+1, the given previous hash and the whole buffer in order, empties the buffer and restarts the timer. The records held never change. |
| Ledger.CreateBlockPreservesWellFormed | fund-load-project/src/blockchain.py:80-94 | Sealing keeps the chain indices consecutive from 1, every block non-empty and every previous hash "1". |
| Ledger.NextPreviousHash | fund_load_project/src/blockchain.py:133 | In a chain whose blocks all carry "1", the next block's previous hash is "1" as well. |
| Ledger.Init | fund_load_project/src/blockchain.py:37-51 | The ledger starts with the persisted chain, an empty buffer and the timer at now: the genesis attempt on an empty buffer creates no block. |
| Ledger.GetChain | fund_load_project/src/blockchain.py:94-95 | The exposed chain holds exactly the sealed records, none of the pending ones. |
| Ledger.FlattenAppend | fund_load_project/src/blockchain.py:82-83 | Appending a block appends its records, in order, to the records of the chain. |
| TimedLedger.AddTransaction | fund_load_project/src/blockchain.py:113-137 | Returns true iff the validator accepted. A rejection leaves the ledger unchanged. An acceptance appends the record, then seals the whole buffer iff the elapsed-time or size condition holds. |
| TimedLedger.SealsIffDue | fund_load_project/src/blockchain.py:88-92 | An accepted record seals the buffer, itself included, iff at least `batch_interval` has passed since the last seal or the buffer reaches `batch_size`. Otherwise the chain is unchanged and the buffer keeps the record. |
| TimedLedger.AddPreservesWellFormed | fund_load_project/src/blockchain.py:130-135 | Adding keeps the chain well formed, and the old chain remains a prefix of the new one. |
| TimedLedger.Run | fund_load_project/src/blockchain.py:113-137 | From an empty ledger, any sequence of verdicts yields a well-formed chain whose records, followed by the buffer, are exactly the accepted records in order. |
| TimedLedger.NoGenesisBlock | fund_load_project/src/blockchain.py:50-51 | Initialising on empty storage leaves the chain empty. One accepted record below both thresholds still leaves it empty. |
| SizeLedger.AddTransaction | fund-load-project/src/blockchain.py:104-113 | Adding never rejects and appends the record to what is held. It seals the buffer plus the record into block len(chain)+1 iff the buffer reaches the batch size; otherwise only the buffer grows. |
| SizeLedger.SealsIffFull | fund-load-project/src/blockchain.py:96-99 | A record seals the buffer, itself included, iff the buffer reaches `batch_size`. The time of the last seal makes no difference to the result. |
| SizeLedger.PendingStaysBelowBatch | fund-load-project/src/blockchain.py:96-111 | With a batch size of at least 1, the buffer stays shorter than the batch size after every add. |
| SizeLedger.AddPreservesWellFormed | fund-load-project/src/blockchain.py:84-91 | Adding keeps indices consecutive, the chain never shrinks, and the old chain remains its prefix. |
| SizeLedger.AddCounts | fund-load-project/src/blockchain.py:104-113 | When one add brings the buffer up to the batch size, it seals exactly one full block and empties the buffer. Otherwise the chain is unchanged and the buffer grows by one. Either way every block still holds exactly batch-size records. |
| SizeLedger.AddKeepsShape | fund-load-project/src/blockchain.py:104-113 | After n adds, the chain has n div b full blocks and the buffer holds the last n mod b records. |
| SizeLedger.Run | fund-load-project/src/blockchain.py:41-113 | From an empty ledger, n records give n div b blocks of exactly b records each and n mod b pending, holding the records in order. The default b = 1 seals each record alone. |
| ChainValidator.ScanRecords | fund_load_project/src/validator_refactor.py:19-25 | The filtered loop over a list of records extends a running sum and count to the sum and count of all matching records. |
| ChainValidator.ScanLedger | fund_load_project/src/validator_refactor.py:17-26 | Scanning every block and then the pending buffer sums and counts exactly the matching records the ledger holds. |
| ChainValidator.DailyTotal | fund_load_project/src/validator_refactor.py:17-26 | The sum of the customer's records, sealed and pending, whose date text equals the given date. |
| ChainValidator.DailyLoadCount | fund_load_project/src/validator_refactor.py:47-56 | The number of records in exactly the set the daily total sums. |
| ChainValidator.WeeklyTotal | fund_load_project/src/validator_refactor.py:28-45 | The sum of the customer's records dated within the Monday-to-Sunday week containing the date, both ends inclusive. Every held record must be a constructed transaction, since `in_week` raises on a date text that does not parse. |
| ChainValidator.Validate | fund_load_project/src/validator_refactor.py:58-92 | Requires every held record to be a constructed transaction, as the weekly scan parses each date. Accepts iff the limits allow it. For a prime id: no earlier same-date record and daily total + amount ≤ 9999. Otherwise: daily total + amount ≤ 5000 and fewer than 3 records that day. Always: weekly total + amount ≤ 20000. |
| ChainValidator.SealingKeepsVerdict | fund_load_project/src/validator_refactor.py:58-92 | Sealing the buffer into a block does not change any verdict, because sealed and pending records are scanned alike. |
| ChainValidator.AcceptedStaysWithinLimits | fund_load_project/src/validator_refactor.py:78-92 | After an accepted record is added, its day holds that one record within 9999 for a prime id, or at most 3 records within 5000 otherwise, and its week stays within 20000. |
| ChainValidator.PrimeAfterSameDayRefused | fund_load_project/src/validator_refactor.py:78-80 | A prime-id record is rejected whenever the customer already has at least one record, sealed or pending, on the same date. |
| ChainValidator.PrimeOncePerDay | fund_load_project/src/validator_refactor.py:78-80 | Once a record is accepted, any prime-id record of the same customer on the same date is rejected. |
| ChainValidator.DayWithinWeek | fund_load_project/src/validator_refactor.py:30-36 | A record's date lies in its own Monday-to-Sunday week, so its daily total never exceeds its weekly total. |
| CarriedValidator.LatestInBlock | fund_load_project/src/validator.py:30-31 | The last-to-first scan of a block finds the customer's last record in it, or none iff the customer is absent. |
| CarriedValidator.LatestState | fund_load_project/src/validator.py:21-38 | None iff the customer has no record in the chain. Otherwise the figures are those of the customer's last record, scanning blocks last to first. |
| CarriedValidator.LatestDateParses | fund_load_project/src/validator.py:56-58 | The latest state's date always parses, because chain records are constructed transactions. |
| CarriedValidator.Carried | fund_load_project/src/validator.py:42-69 | With no history, all three figures are 0. Otherwise daily total and count carry over iff the date text is equal, and the weekly total carries over iff the ISO week number and the calendar year are both equal; each is reset to 0 otherwise. |
| CarriedValidator.Judge | fund_load_project/src/validator.py:72-96 | Accepts iff the new totals (carried + amount) and new count (carried + 1) are within the tier's limits. Only then does it record those figures on the record. |
| CarriedValidator.Validate | fund_load_project/src/validator.py:40-96 | Accepts iff the limits allow the carried figures plus this record, and on acceptance records the new figures. The pending buffer plays no part. |
| CarriedValidator.NoHistoryStartsFresh | fund_load_project/src/validator.py:65-69 | For a customer absent from the chain, the verdict is that of zero carried figures, and an accepted record stores amount, amount, 1. |
| CarriedValidator.DailyFiguresCarry | fund_load_project/src/validator.py:46-52 | An accepted record's daily figures are the latest record's plus this one on the same date, and this one alone on a new date. |
| CarriedValidator.SameWeekPassesCodedTest | fund_load_project/src/validator.py:59-62 | Two dates of one Monday-to-Sunday week and one calendar year always count as the same week. |
| CarriedValidator.CodedWeekInsideIsoYear | fund_load_project/src/validator.py:59-62 | When each date's ISO year is its calendar year, the coded test holds iff the dates share calendar year and Monday-to-Sunday week. |
| CarriedValidator.CodedWeekSpansIsoYears | fund_load_project/src/validator.py:59-62 | 2024-01-01 and 2024-12-30 count as the same week although they lie in different ISO years. |
| CarriedValidator.CodedWeekSplitsIsoWeek | fund_load_project/src/validator.py:59-62 | 2024-12-30 and 2025-01-01 do not count as the same week although they share ISO week 1 of 2025. |
| CarriedValidator.PendingBufferIgnored | fund_load_project/src/validator.py:40-42 | A prime-id record is accepted even with a same-day record of the customer waiting in the buffer, where the chain-scan validator rejects it. |
| CarriedValidator.HeldToChain | fund_load_project/src/validator.py:29-31 | If every held record is a constructed transaction, so is every sealed one. |
| CarriedValidator.AddValidated | fund_load_project/src/blockchain.py:125-137 | Adding accepts iff the validator does. A rejection changes nothing. An acceptance appends the record carrying its new figures, and every held record remains a constructed transaction. |
| Store.Without | fund_load_project/src/redis_storage.py:17-21 | Removing a key keeps exactly the records with other ids, and ids stay unique. |
| Store.Insert | fund_load_project/src/redis_storage.py:14-27 | After storing, the record is present and replaces any earlier record with its id; every other record stays. Ids stay unique. |
| Store.MatchingMembers | fund_load_project/src/redis_storage.py:37-41 | The query selects exactly the customer's stored records with epoch second in [min, max], both ends inclusive. |
| Store.PlaceKeepsOrder | fund_load_project/src/redis_storage.py:37-41 | Inserting a record into a newest-first list at its place keeps the list newest-first. |
| Store.SortNewestFirst | fund_load_project/src/redis_storage.py:37-41 | The result is a permutation of the input ordered by decreasing epoch second. |
| Store.RangeQuery | fund_load_project/src/redis_storage.py:29-52 | Returns exactly the customer's records in the closed interval, each once as stored, newest first. |
| WindowValidator.TotalSnoc | fund-load-project/tests/test_validator.py:273-330 | `_total_load_amount` grows, record by record, by the record's load, counted twice when the record is dated on a Monday. |
| WindowValidator.MondayDoubling | fund-load-project/tests/test_validator.py:393-448 | A window's weighted total is the plain total plus the total of its Monday-dated records. |
| WindowValidator.TotalPermutation | fund-load-project/tests/test_validator.py:213-268 | The weighted total does not depend on the order the store returns the records in. |
| WindowValidator.TotalLoadBounds | fund-load-project/tests/test_validator.py:213-448 | The weighted total lies between the plain total and twice it. It is twice it when every record is a Monday, which makes 3×100 give 600, and equal to it when none is, which makes 3×100 give 300. |
| WindowValidator.DailyWindowExact | fund-load-project/tests/test_validator.py:47-95 | The range query from UTC midnight to the record's instant selects exactly the customer's records of the same date, no later in the day. |
| WindowValidator.DailyTransactions | fund-load-project/tests/test_validator.py:47-95 | The daily window is the daily records, each once, newest first. |
| WindowValidator.WeeklyTransactions | fund-load-project/tests/test_validator.py:100-154 | The weekly window is the customer's records in the 604800 seconds up to the instant, each once, newest first. |
| WindowValidator.Decide | fund-load-project/tests/test_validator.py:159-208 | Accepts iff the tier's limits hold. Each rejection reason holds iff its rule is the first to fail: for a prime id, count, then daily total; for other ids, count, then daily total, then weekly total. |
| WindowValidator.DecidePermutation | fund-load-project/tests/test_validator.py:159-208 | The decision depends only on which records the windows hold, not their order. |
| WindowValidator.Validate | fund_load_project/main.py:30-33 | The decision on the record's own daily and weekly windows, which include the record itself because it is stored first. |
| WindowValidator.IrrelevantRecord | fund-load-project/tests/test_validator.py:100-154 | Adding a record of another customer, a later record, or one older than a week leaves every decision unchanged. |
| WindowValidator.PrimeIgnoresOtherDays | fund-load-project/tests/test_validator.py:213-268 | For a prime id, records on other dates never change the decision. |
| WindowValidator.SingleRecord | fund-load-project/tests/test_validator.py:273-328 | A lone record is accepted iff its amount, doubled on a Monday, is within the tier's daily limit. |
| WindowValidator.DailyWindowExample | fund-load-project/tests/test_validator.py:47-95 | With the test's four records, the daily window of the 11:00 record holds three. |
| WindowValidator.FourInWeek | fund-load-project/tests/test_validator.py:100-154 | Four records of one customer within the week before the last, plus one of another customer, give a weekly window of four. |
| WindowValidator.RollingWeekExample | fund-load-project/tests/test_validator.py:108-154 | 2000-01-01 00:00 is inside the weekly window of 2000-01-06 11:00 although it lies in the previous calendar week. |
| WindowValidator.January2000Load | fund-load-project/tests/test_validator.py:108-140 | A January 2000 test record's epoch second is 946684800 plus its offset in days and hours. |
| Pipeline.ProcessRecord | fund_load_project/main.py:14-40 | The record is stored first and stays stored either way. The outcome is the window decision on the updated store. A rejection leaves the ledger as it was; an acceptance adds exactly this record to what it holds. |
| Pipeline.ProcessKeepsWellFormed | fund_load_project/main.py:39-40 | Processing a record keeps the ledger chain well formed. |
| Pipeline.DayOfMembers | fund-load-project/tests/test_validator.py:47-95 | A record is in the daily window iff it is stored, of the same customer and date, and no later in the day. |
| Pipeline.PrimeSecondOfDayRejected | fund_load_project/main.py:30-40 | A prime-id record with another of the customer's records earlier that day in the store is rejected for its count, and the ledger is untouched. |
| Pipeline.FirstOfDayAccepted | fund_load_project/main.py:30-40 | On an empty store and ledger, a record within its tier's daily limit (after Monday doubling) is accepted and becomes the only held record. |
| Pipeline.Process | fund_load_project/main.py:27-40 | One line's processing is exactly `ProcessRecord`: the store becomes the old store with the record inserted, and the outcome is the window decision for the record on that store. The store stays valid with unique ids and the chain well formed. The ledger grows by the record iff it is accepted. |
| Pipeline.StoredAfter | fund_load_project/main.py:29-30 | Storing the first n records in order, whatever the answers, leaves valid records with unique ids. |
| Pipeline.StoredAfterKeeps | fund_load_project/main.py:29-30 | After the first n records, each record whose id no later one of them reuses is still stored. |
| Pipeline.ProcessAll | fund_load_project/main.py:62-69 | The input loop gives one outcome per record. The final store is that of storing every record in order. Outcome k is the window decision for record k on the store as it stood once record k was stored. The ledger holds the accepted records in order, with a well-formed chain. |
| Pipeline.Run | fund_load_project/main.py:43-69 | Over all input records: one outcome per record, each the window decision for its record on the store right after that record was stored. The ledger holds exactly the accepted records in order, with a well-formed chain. The store holds valid records with unique ids, and every record whose id does not recur later remains in it. |

## Left out

- Redis itself (`fund_load_project/src/redis_storage.py`) is not modelled: the connection, `flushdb` and the `TypeError` on a non-dict payload. The store is an in-memory sequence with the same keying and query contract.
- Store.Insert: when a re-stored id moves to another customer, Redis leaves a stale key in the old customer's sorted set; the model drops the old record. The order among records with equal epoch seconds is not stated.
- Local time: `.timestamp()` on a naive datetime depends on the host time zone; epoch seconds are computed as UTC.
- Python regular-expression and `strptime` leniency (a `$` that matches before a trailing newline, Unicode digits, non-padded fields) is not modelled: patterns take ASCII digits, exact ends and the fixed 20-character timestamp.
- Floats: amounts are integer cents, and `float()`/`str()` of a float are modelled as exact decimal text. `int(limit ** 0.5)` is the exact integer square root.
- Chain persistence (`_load_chain`, `_save_chain`, JSON files, `os.makedirs`) is an abstract persisted sequence. The save after the in-memory change is not atomic, and no atomicity is claimed.
- Console output (`print`) and the JSONL result files of `main.py` are left out.
- `main.py` reads lines, skips blank ones and parses JSON; a line that fails construction ends the run with an exception. `Pipeline.Run` takes the already constructed records instead.
- `main.py` instantiates `BaseBlockchain`, which is abstract in `fund_load_project/src/blockchain.py`, so the pipeline adds accepted records to the size-only ledger of `fund-load-project/src/blockchain.py`, whose `add_transaction` takes a transaction object.
- The `is_prime` called at `fund_load_project/src/validator.py:77` is undefined there, so the carried-state validator takes the primality test as a parameter.
- `ValidationState` is built without `weekly_reset_date` (`fund_load_project/src/validator.py:13`, `32-37`); the model's state has no such field.
- The keyword-argument `Transaction` of `ValidatedBlockchain.add_transaction` (`fund_load_project/src/blockchain.py:114-123`) matches neither transaction class, and so is not modelled. The validator receives an already constructed transaction, and the "," stripping there is not modelled.
- `create_default` (`fund_load_project/src/blockchain.py:140-155`) is a module-level classmethod that cannot be called as written, so it is not modelled.
- `Block.to_dict`/`Block.from_dict` are not modelled beyond the transaction dictionaries they call.
- Primes.SmallPrimeExamples: 4133, 7219, 16631 and 25703 are not proved prime. Trial division over those ranges is beyond what the verifier enumerates cheaply, so only the small test values are stated.
- An `OverflowError` in date arithmetic near year 9999 is not modelled.
- WindowValidator.TotalLoadBounds: the concrete 400 and 500 weekly totals of the tests are covered by the general doubling and bound lemmas, not stated as numbers.
- WindowValidator.Decide: no file of the program shows the rolling-window validator's tier rule or its rejection order. The tests cited for it fix only the window counts. The rule modelled (a prime id has one record a day and a 9999 daily cap with no weekly cap; a normal id is checked for count, then daily total, then weekly total) is this model's reading of the service, not a transcription. It differs from both chain validators: they cap every id's week at 20000 and check a normal id's daily total before its count.
- `main.py` imports the `fund_load_project` `Transaction` (`fund_load_project/main.py:8`, `27`). That class has no `transaction_timetamp`, which the store reads (`fund_load_project/src/redis_storage.py:26`), so as written the first store call fails. The pipeline runs `DatedTransactions` records, which have an epoch second, through the rolling-window validator instead.
- `main.py` builds `TransactionValidator(storage)` (`fund_load_project/main.py:54`). That matches neither the constructor nor the `validate_transaction` signature of `fund_load_project/src/validator.py` (lines 18 and 40). The pipeline uses the rolling-window validator, the one that reads the store.
- The constructors take a `map<string, string>`. A JSON "time" or "load_amount" that is not a string makes `strptime` or `re.match` raise `TypeError` (`fund_load_project/src/transactions.py:84`, `97`); the model cannot express such a value.
- CarriedValidator: every chain record is assumed to carry its daily and weekly figures. `to_dict` does not write `daily_total`, `weekly_total` or `daily_count` (`fund_load_project/src/transactions.py:104-113`). So a chain reloaded through `Block.from_dict` (`fund_load_project/src/blockchain.py:25-33`) holds records without them, and `_get_latest_validation_state` raises `AttributeError` on the first same-customer match (`fund_load_project/src/validator.py:34-36`). The model covers only a chain built in the same run.
- `fund_load_project_tests/test_blockchain.py` targets a class that is not part of this model, and `fund-load-project/tests/conftest.py` is only a fixture.

## Findings

| source | as written | input that shows it | evidently intended | confidence | as-written member | corrected member |
|---|---|---|---|---|---|---|
| fund_load_project/src/transactions.py:140 | `from_dict` writes the amount as "$" + `str(float)`, which drops a trailing zero decimal | a transaction of $100.00: `to_dict` gives 100.0, and "$100.0" fails the amount pattern | `from_dict(to_dict(t))` returns t | not executed | Transactions.FromDictAsWritten | Transactions.FromDictTwoDecimalsRoundTrip |
| fund-load-project/src/transactions.py:124 | `to_dict` renders the datetime with `str()`, as "YYYY-MM-DD HH:MM:SS" | any transaction, e.g. "2000-01-01T00:00:00Z" becomes "2000-01-01 00:00:00", which fails the timestamp check | `from_dict(to_dict(t))` returns t | not executed | DatedTransactions.FromDictAsWritten | DatedTransactions.WireDictRoundTrip |

=== FILE: arith.dfy ===
/** Facts about integer multiplication and Euclidean division that the
    solver does not find unaided. */
module Arith {

  lemma {:induction false} MulAtLeast(d: int, x: int)
    requires d > 0 && x >= 1
    ensures d * x >= d
    decreases x
  {
    if x > 1 {
      MulAtLeast(d, x - 1);
      assert d * x == d * (x - 1) + d;
    }
  }

  lemma MulMonotone(c: int, x: int, y: int)
    requires c >= 0 && x <= y
    ensures c * x <= c * y
  {
    if c > 0 && x < y {
      assert c * y - c * x == c * (y - x);
      MulAtLeast(c, y - x);
    }
  }

  lemma DivModUnique(d: int, n: int, q: int, r: int)
    requires d > 0 && n == d * q + r && 0 <= r < d
    ensures n / d == q && n % d == r
  {
    var q', r' := n / d, n % d;
    assert n == d * q' + r';
    var x := q - q';
    assert d * x == r' - r;
    if x >= 1 {
      MulAtLeast(d, x);
    } else if x <= -1 {
      assert d * (-x) == r - r';
      MulAtLeast(d, -x);
    }
  }
}

=== FILE: calendar.dfy ===
/** The proleptic Gregorian calendar as Python's `datetime` module computes
    it: day ordinals (0001-01-01 is day 1, a Monday), weekdays, ISO 8601
    week numbers (week dates, section 4.1.4 of ISO 8601:2004) and UTC epoch
    seconds. */
module Calendar {
  import opened Arith

  datatype Date = Date(year: int, month: int, day: int)

  /** A point in time at one-second resolution, naive (read as UTC). */
  datatype DateTime = DateTime(date: Date, hour: int, minute: int, second: int)

  /** Result of `date.isocalendar()`: ISO year, ISO week (1..53), ISO weekday (1..7). */
  datatype IsoDate = IsoDate(isoYear: int, week: int, weekday: int)

  const SecondsPerDay: int := 86400
  const SecondsPerWeek: int := 7 * SecondsPerDay
  /** Ordinal of 1970-01-01, the Unix epoch. */
  const EpochOrdinal: int := 719163

  predicate IsLeapYear(y: int) {
    y % 4 == 0 && (y % 100 != 0 || y % 400 == 0)
  }

  function YearLength(y: int): int {
    if IsLeapYear(y) then 366 else 365
  }

  function DaysInMonth(y: int, m: int): int
    requires 1 <= m <= 12
  {
    if m == 2 then (if IsLeapYear(y) then 29 else 28)
    else if m == 4 || m == 6 || m == 9 || m == 11 then 30
    else 31
  }

  /** The range `datetime.date` accepts: years 1..9999 and real days. */
  predicate ValidDate(d: Date) {
    && 1 <= d.year <= 9999
    && 1 <= d.month <= 12
    && 1 <= d.day <= DaysInMonth(d.year, d.month)
  }

  predicate ValidDateTime(t: DateTime) {
    && ValidDate(t.date)
    && 0 <= t.hour < 24
    && 0 <= t.minute < 60
    && 0 <= t.second < 60
  }

  /** Leap days in years 1..x. */
  function LeapsThrough(x: int): int {
    x / 4 - x / 100 + x / 400
  }

  function DaysBeforeYear(y: int): int {
    365 * (y - 1) + LeapsThrough(y - 1)
  }

  /** Days of year `y` before month `m`: the running sum of the month
      lengths, which CPython tabulates in `_DAYS_BEFORE_MONTH`. */
  function DaysBeforeMonth(y: int, m: int): int
    requires 1 <= m <= 12
  {
    if m == 1 then 0 else DaysBeforeMonth(y, m - 1) + DaysInMonth(y, m - 1)
  }

  /** The entries of `_DAYS_BEFORE_MONTH`, for a common year. */
  function DaysBeforeMonthTable(m: int): int {
    if m == 1 then 0 else if m == 2 then 31 else if m == 3 then 59
    else if m == 4 then 90 else if m == 5 then 120 else if m == 6 then 151
    else if m == 7 then 181 else if m == 8 then 212 else if m == 9 then 243
    else if m == 10 then 273 else if m == 11 then 304 else 334
  }

  /** `_days_before_month`: the table entry plus the leap day for months
      after February of a leap year. */
  lemma {:induction false} DaysBeforeMonthIsTable(y: int, m: int)
    requires 1 <= m <= 12
    ensures DaysBeforeMonth(y, m) == DaysBeforeMonthTable(m) + (if m > 2 && IsLeapYear(y) then 1 else 0)
    decreases m
  {
    if m > 1 {
      DaysBeforeMonthIsTable(y, m - 1);
    }
  }

  /** `date.toordinal()`. */
  function Ordinal(d: Date): int
    requires 1 <= d.month <= 12
  {
    DaysBeforeYear(d.year) + DaysBeforeMonth(d.year, d.month) + d.day
  }

  /** Field-by-field (year, month, day) order, the order Python compares dates in. */
  predicate DateBefore(a: Date, b: Date) {
    || a.year < b.year
    || (a.year == b.year && a.month < b.month)
    || (a.year == b.year && a.month == b.month && a.day < b.day)
  }

  lemma Step4(y: int)
    ensures y / 4 - (y - 1) / 4 == (if y % 4 == 0 then 1 else 0)
  {
  }

  lemma Step100(y: int)
    ensures y / 100 - (y - 1) / 100 == (if y % 100 == 0 then 1 else 0)
  {
  }

  lemma Step400(y: int)
    ensures y / 400 - (y - 1) / 400 == (if y % 400 == 0 then 1 else 0)
  {
  }

  /** The leap days of year `y` alone. */
  lemma LeapStep(y: int)
    ensures LeapsThrough(y) - LeapsThrough(y - 1) == (if IsLeapYear(y) then 1 else 0)
  {
    Step4(y);
    Step100(y);
    Step400(y);
    var a, b, c := y / 4 - (y - 1) / 4, y / 100 - (y - 1) / 100, y / 400 - (y - 1) / 400;
    assert LeapsThrough(y) - LeapsThrough(y - 1) == a - b + c;
    if y % 400 == 0 {
      var q := y / 400;
      DivModUnique(100, y, 4 * q, 0);
      DivModUnique(4, y, 100 * q, 0);
    } else if y % 100 == 0 {
      var q := y / 100;
      DivModUnique(4, y, 25 * q, 0);
    }
  }

  /** Consecutive years start `YearLength` days apart. */
  lemma YearStep(y: int)
    ensures DaysBeforeYear(y + 1) == DaysBeforeYear(y) + YearLength(y)
  {
    LeapStep(y);
    assert 365 * y == 365 * (y - 1) + 365;
  }

  lemma {:induction false} DaysBeforeYearMonotone(y1: int, y2: int)
    requires y1 <= y2
    ensures DaysBeforeYear(y1) + 365 * (y2 - y1) <= DaysBeforeYear(y2)
    decreases y2 - y1
  {
    if y1 < y2 {
      DaysBeforeYearMonotone(y1, y2 - 1);
      YearStep(y2 - 1);
    }
  }

  /** Each month ends no later than the next one starts. */
  lemma {:induction false} MonthsInOrder(y: int, m1: int, m2: int)
    requires 1 <= m1 < m2 <= 12
    ensures DaysBeforeMonth(y, m1) + DaysInMonth(y, m1) <= DaysBeforeMonth(y, m2)
    decreases m2
  {
    if m1 < m2 - 1 {
      MonthsInOrder(y, m1, m2 - 1);
    }
  }

  lemma MonthsFitInYear(y: int, m: int)
    requires 1 <= m <= 12
    ensures DaysBeforeMonth(y, m) + DaysInMonth(y, m) <= YearLength(y)
  {
    DaysBeforeMonthIsTable(y, 12);
    if m < 12 {
      MonthsInOrder(y, m, 12);
    }
  }

  lemma OrdinalWithinYear(d: Date)
    requires ValidDate(d)
    ensures DaysBeforeYear(d.year) < Ordinal(d) <= DaysBeforeYear(d.year + 1)
  {
    YearStep(d.year);
    DaysBeforeMonthIsTable(d.year, d.month);
    MonthsFitInYear(d.year, d.month);
  }

  lemma OrdinalBefore(a: Date, b: Date)
    requires ValidDate(a) && ValidDate(b)
    requires DateBefore(a, b)
    ensures Ordinal(a) < Ordinal(b)
  {
    if a.year < b.year {
      OrdinalWithinYear(a);
      OrdinalWithinYear(b);
      DaysBeforeYearMonotone(a.year + 1, b.year);
    } else if a.month < b.month {
      MonthsInOrder(a.year, a.month, b.month);
    }
  }

  /** Ordinals are strictly monotone in calendar order, so comparing two
      valid dates and comparing their ordinals agree. */
  lemma OrdinalOrder(a: Date, b: Date)
    requires ValidDate(a) && ValidDate(b)
    ensures DateBefore(a, b) <==> Ordinal(a) < Ordinal(b)
    ensures a == b <==> Ordinal(a) == Ordinal(b)
  {
    if DateBefore(a, b) {
      OrdinalBefore(a, b);
    } else if DateBefore(b, a) {
      OrdinalBefore(b, a);
    }
  }

  /** `date.weekday()`: Monday is 0, Sunday is 6. */
  function Weekday(d: Date): (w: int)
    requires 1 <= d.month <= 12
    ensures 0 <= w < 7
  {
    (Ordinal(d) + 6) % 7
  }

  /** `date.isoweekday()`: Monday is 1, Sunday is 7. */
  function IsoWeekday(d: Date): (w: int)
    requires 1 <= d.month <= 12
    ensures 1 <= w <= 7
  {
    Weekday(d) + 1
  }

  predicate IsMonday(d: Date)
    requires 1 <= d.month <= 12
  {
    IsoWeekday(d) == 1
  }

  /** Number of the Monday-to-Sunday week a day falls in, counting from the
      week of 0001-01-01. */
  function WeekIndex(d: Date): int
    requires 1 <= d.month <= 12
  {
    (Ordinal(d) - 1) / 7
  }

  /** The `week_start <= day <= week_end` test, with `week_start` the
      Monday `weekday()` days before `d`, holds exactly for the days of
      `d`'s own Monday-to-Sunday week. */
  lemma MondayToSunday(d: Date, e: Date)
    requires 1 <= d.month <= 12 && 1 <= e.month <= 12
    ensures Ordinal(d) - Weekday(d) <= Ordinal(e) <= Ordinal(d) - Weekday(d) + 6
      <==> WeekIndex(e) == WeekIndex(d)
  {
    var o, oe := Ordinal(d), Ordinal(e);
    var q := (o - 1) / 7;
    DivModUnique(7, o + 6, q + 1, (o - 1) % 7);
    assert o - Weekday(d) == 7 * q + 1;
    if 7 * q + 1 <= oe <= 7 * q + 7 {
      DivModUnique(7, oe - 1, q, oe - 1 - 7 * q);
    }
    if WeekIndex(e) == q {
      assert oe - 1 == 7 * q + (oe - 1) % 7;
    }
  }

  lemma MondayAlign(f: int)
    ensures (f - (f + 6) % 7 + 6) % 7 == 0
    ensures (f - (f + 6) % 7 + 7 + 6) % 7 == 0
  {
  }

  lemma WeekdayFromMonday(t: int, m: int)
    requires (m + 6) % 7 == 0
    ensures (t - m) % 7 == (t + 6) % 7
  {
  }

  /** CPython's `_isoweek1monday`: ordinal of the Monday starting ISO week 1,
      the Monday of the week holding the year's first Thursday. */
  function IsoWeek1Monday(year: int): (r: int)
    ensures (r + 6) % 7 == 0
  {
    var firstday := DaysBeforeYear(year) + 1;
    var firstweekday := (firstday + 6) % 7;
    MondayAlign(firstday);
    var monday := firstday - firstweekday;
    if firstweekday > 3 then monday + 7 else monday
  }

  /** CPython's `date.isocalendar()`. */
  function IsoCalendar(d: Date): (r: IsoDate)
    requires 1 <= d.month <= 12
    ensures r.weekday == IsoWeekday(d)
  {
    IsoWeekDate(Ordinal(d), d.year)
  }

  /** The body of `date.isocalendar()` for the day with ordinal `today` in
      calendar year `year`. */
  function IsoWeekDate(today: int, year: int): (r: IsoDate)
    ensures r.weekday == (today + 6) % 7 + 1
  {
    var monday1 := IsoWeek1Monday(year);
    WeekdayFromMonday(today, monday1);
    var week := (today - monday1) / 7;
    if week < 0 then
      var prev := IsoWeek1Monday(year - 1);
      WeekdayFromMonday(today, prev);
      IsoDate(year - 1, (today - prev) / 7 + 1, (today - prev) % 7 + 1)
    else if week >= 52 && today >= IsoWeek1Monday(year + 1) then
      IsoDate(year + 1, 1, (today - monday1) % 7 + 1)
    else
      IsoDate(year, week + 1, (today - monday1) % 7 + 1)
  }

  /** The Monday of ISO week 1 lies within three days of 1 January. */
  lemma Week1MondayNearNewYear(y: int)
    ensures DaysBeforeYear(y) - 2 <= IsoWeek1Monday(y) <= DaysBeforeYear(y) + 4
    ensures IsoWeek1Monday(y) == 7 * ((IsoWeek1Monday(y) - 1) / 7) + 1
  {
    assert Ordinal(Date(y, 1, 1)) == DaysBeforeYear(y) + 1;
  }

  /** An ISO year has 52 or 53 weeks. */
  lemma Week1MondayGap(y: int)
    ensures IsoWeek1Monday(y + 1) - IsoWeek1Monday(y) == 364
         || IsoWeek1Monday(y + 1) - IsoWeek1Monday(y) == 371
  {
    Week1MondayNearNewYear(y);
    Week1MondayNearNewYear(y + 1);
    YearStep(y);
    var ka, kb := (IsoWeek1Monday(y) - 1) / 7, (IsoWeek1Monday(y + 1) - 1) / 7;
    assert 359 <= 7 * (kb - ka) <= 372;
  }

  /** ISO week-1 Mondays increase with the year. */
  lemma Week1MondayIncreasing(y: int, z: int)
    requires y < z
    ensures IsoWeek1Monday(y + 1) <= IsoWeek1Monday(z)
  {
    if y + 1 < z {
      Week1MondayNearNewYear(y + 1);
      Week1MondayNearNewYear(z);
      DaysBeforeYearMonotone(y + 1, z);
    }
  }

  /** Ordinal `today` is a day of calendar year `y`. */
  predicate InYear(today: int, y: int) {
    DaysBeforeYear(y) < today <= DaysBeforeYear(y + 1)
  }

  lemma IsoWeekDateCases(today: int, y: int)
    ensures var m0, m1 := IsoWeek1Monday(y - 1), IsoWeek1Monday(y);
      var r := IsoWeekDate(today, y);
      && ((today - m1) / 7 < 0 ==> r.isoYear == y - 1 && r.week == (today - m0) / 7 + 1)
      && (0 <= (today - m1) / 7 && 52 <= (today - m1) / 7 && IsoWeek1Monday(y + 1) <= today ==>
            r.isoYear == y + 1 && r.week == 1)
      && (0 <= (today - m1) / 7 && !(52 <= (today - m1) / 7 && IsoWeek1Monday(y + 1) <= today) ==>
            r.isoYear == y && r.week == (today - m1) / 7 + 1)
  {
  }

  /** Day `today` lies in week `w` of the ISO year whose week 1 starts on
      day `m`, and before day `next`, where the following ISO year starts. */
  predicate InIsoWeek(today: int, m: int, next: int, w: int) {
    1 <= w <= 53 && m + 7 * (w - 1) <= today < m + 7 * w && today < next
  }

  /** Which ISO year `isocalendar()` puts day `today` of calendar year `y`
      in, relative to `y`: -1, 0 or 1. */
  function IsoYearShift(today: int, y: int): int {
    var m1 := IsoWeek1Monday(y);
    if (today - m1) / 7 < 0 then -1
    else if 52 <= (today - m1) / 7 && IsoWeek1Monday(y + 1) <= today then 1
    else 0
  }

  /** A day before its year's week-1 Monday is in the previous ISO year. */
  lemma IsoPreviousYear(today: int, y: int)
    requires InYear(today, y) && IsoYearShift(today, y) < 0
    ensures IsoWeekDate(today, y).isoYear == y - 1
    ensures var r := IsoWeekDate(today, y);
      InIsoWeek(today, IsoWeek1Monday(r.isoYear), IsoWeek1Monday(r.isoYear + 1), r.week)
    ensures ThursdayPlaced(today, IsoWeekDate(today, y))
  {
    var m0, m1 := IsoWeek1Monday(y - 1), IsoWeek1Monday(y);
    Week1MondayNearNewYear(y);
    Week1MondayGap(y - 1);
    IsoWeekDateCases(today, y);
    var w := (today - m0) / 7 + 1;
    assert m0 <= today < m1 && m1 - m0 <= 371;
    assert InIsoWeek(today, m0, m1, w);
    ThursdayInIsoYear(today, IsoWeekDate(today, y));
  }

  /** A day of week 52 or later on or after the next year's week-1 Monday
      is in week 1 of the next ISO year. */
  lemma IsoNextYear(today: int, y: int)
    requires InYear(today, y) && IsoYearShift(today, y) > 0
    ensures IsoWeekDate(today, y).isoYear == y + 1
    ensures var r := IsoWeekDate(today, y);
      InIsoWeek(today, IsoWeek1Monday(r.isoYear), IsoWeek1Monday(r.isoYear + 1), r.week)
    ensures ThursdayPlaced(today, IsoWeekDate(today, y))
  {
    var m2 := IsoWeek1Monday(y + 1);
    Week1MondayNearNewYear(y + 1);
    Week1MondayGap(y + 1);
    IsoWeekDateCases(today, y);
    assert m2 <= today < m2 + 7;
    assert InIsoWeek(today, m2, IsoWeek1Monday(y + 2), 1);
    ThursdayInIsoYear(today, IsoWeekDate(today, y));
  }

  /** Every other day is in its own calendar year's ISO year. */
  lemma IsoSameYear(today: int, y: int)
    requires IsoYearShift(today, y) == 0
    ensures IsoWeekDate(today, y).isoYear == y
    ensures var r := IsoWeekDate(today, y);
      InIsoWeek(today, IsoWeek1Monday(r.isoYear), IsoWeek1Monday(r.isoYear + 1), r.week)
    ensures ThursdayPlaced(today, IsoWeekDate(today, y))
  {
    var m1, m2 := IsoWeek1Monday(y), IsoWeek1Monday(y + 1);
    Week1MondayGap(y);
    IsoWeekDateCases(today, y);
    var w := (today - m1) / 7 + 1;
    assert m1 <= today < m2 && m2 - m1 <= 371;
    assert InIsoWeek(today, m1, m2, w);
    ThursdayInIsoYear(today, IsoWeekDate(today, y));
  }

  /** The Thursday rule for a day `today` in week `r.week` of ISO year
      `r.isoYear`. */
  lemma ThursdayInIsoYear(today: int, r: IsoDate)
    requires InIsoWeek(today, IsoWeek1Monday(r.isoYear), IsoWeek1Monday(r.isoYear + 1), r.week)
    ensures ThursdayPlaced(today, r)
  {
    var iso := r.isoYear;
    Week1MondayNearNewYear(iso);
    Week1MondayNearNewYear(iso + 1);
    ThursdayRule(today, IsoWeek1Monday(iso), IsoWeek1Monday(iso + 1), DaysBeforeYear(iso), DaysBeforeYear(iso + 1), r.week);
  }

  /** The Thursday of the Monday-to-Sunday week holding day `today`. */
  function ThursdayOf(today: int): int {
    7 * ((today - 1) / 7) + 4
  }

  /** A day in week `w` of a year starting on Monday `m` is in the
      Monday-to-Sunday week starting `7 * (w - 1)` days after `m`. */
  lemma MondayWeekArith(o: int, m: int, w: int)
    requires m + 7 * (w - 1) <= o < m + 7 * w && (m + 6) % 7 == 0
    ensures 7 * ((o - 1) / 7) + 1 == m + 7 * (w - 1)
  {
    var k := (m - 1) / 7;
    DivModUnique(7, o - 1, k + w - 1, o - m - 7 * (w - 1));
  }

  /** The rule of section 2.2.10 of ISO 8601:2004 on plain integers: if
      week `w` of an ISO year starting on Monday `m` (within three days of
      1 January, day `dy + 1`) holds `today`, the week's Thursday falls in
      that calendar year, `7 * (w - 1)` to `7 * w - 1` days into it. */
  lemma ThursdayRule(today: int, m: int, n: int, dy: int, dn: int, w: int)
    requires InIsoWeek(today, m, n, w)
    requires (m + 6) % 7 == 0 && (n + 6) % 7 == 0
    requires dy - 2 <= m <= dy + 4 && dn - 2 <= n <= dn + 4
    ensures dy < ThursdayOf(today) <= dn
    ensures w == (ThursdayOf(today) - dy - 1) / 7 + 1
  {
    MondayWeekArith(today, m, w);
    var k := ThursdayOf(today) - 3;
    assert k == m + 7 * (w - 1);
    var q := (n - 1) / 7;
    assert n == 7 * q + 1;
    assert k <= n - 7;
    DivModUnique(7, ThursdayOf(today) - dy - 1, w - 1, m + 2 - dy);
  }

  /** `isocalendar()` puts a day in the ISO year holding the Thursday of
      its Monday-to-Sunday week, and numbers the week by that Thursday's
      day of the year: week `w` holds days `7 * (w - 1) + 1` to `7 * w`. */
  lemma IsoWeekDateThursday(today: int, y: int)
    requires InYear(today, y)
    ensures ThursdayPlaced(today, IsoWeekDate(today, y))
    ensures 1 <= IsoWeekDate(today, y).week <= 53
  {
    var shift := IsoYearShift(today, y);
    if shift < 0 {
      IsoPreviousYear(today, y);
    } else if shift > 0 {
      IsoNextYear(today, y);
    } else {
      IsoSameYear(today, y);
    }
  }

  /** A day belongs to one calendar year only. */
  lemma InYearUnique(x: int, y1: int, y2: int)
    requires InYear(x, y1) && InYear(x, y2)
    ensures y1 == y2
  {
    if y1 < y2 {
      DaysBeforeYearMonotone(y1 + 1, y2);
    } else if y2 < y1 {
      DaysBeforeYearMonotone(y2 + 1, y1);
    }
  }

  /** Two Thursdays in the same seven-day block of a year are the same day. */
  lemma SameThursday(ta: int, tb: int, dy: int)
    requires (ThursdayOf(ta) - dy - 1) / 7 == (ThursdayOf(tb) - dy - 1) / 7
    ensures (ta - 1) / 7 == (tb - 1) / 7
  {
    var ka, kb := (ta - 1) / 7, (tb - 1) / 7;
    var c := dy / 7;
    var r := dy % 7;
    DivModUnique(7, ThursdayOf(ta) - dy - 1, ka - c + (3 - r) / 7, (3 - r) % 7);
    DivModUnique(7, ThursdayOf(tb) - dy - 1, kb - c + (3 - r) / 7, (3 - r) % 7);
  }

  /** ISO week date `r` is placed by the Thursday rule for day `today`: its
      ISO year holds the Thursday of the day's Monday-to-Sunday week, and
      its week number counts that Thursday's seven-day block of the year. */
  predicate ThursdayPlaced(today: int, r: IsoDate) {
    && InYear(ThursdayOf(today), r.isoYear)
    && r.week == (ThursdayOf(today) - DaysBeforeYear(r.isoYear) - 1) / 7 + 1
  }

  /** Two ISO week dates placed by the Thursday rule agree on year and week
      exactly when their days share a Monday-to-Sunday week, numbered `ka`
      and `kb` from 0001-01-01. */
  lemma SameWeekByThursday(ta: int, ra: IsoDate, ka: int, tb: int, rb: IsoDate, kb: int)
    requires ThursdayPlaced(ta, ra) && ThursdayPlaced(tb, rb)
    requires ka == (ta - 1) / 7 && kb == (tb - 1) / 7
    ensures ra.isoYear == rb.isoYear && ra.week == rb.week <==> ka == kb
  {
    if ka == kb {
      InYearUnique(ThursdayOf(ta), ra.isoYear, rb.isoYear);
    } else if ra.isoYear == rb.isoYear && ra.week == rb.week {
      SameThursday(ta, tb, DaysBeforeYear(ra.isoYear));
    }
  }

  /** Days `ta` of year `ya` and `tb` of year `yb` share ISO year and week
      exactly when they share a Monday-to-Sunday week. */
  lemma IsoWeekDateIffSameWeek(ta: int, ya: int, tb: int, yb: int)
    requires InYear(ta, ya) && InYear(tb, yb)
    ensures IsoWeekDate(ta, ya).isoYear == IsoWeekDate(tb, yb).isoYear
         && IsoWeekDate(ta, ya).week == IsoWeekDate(tb, yb).week
      <==> (ta - 1) / 7 == (tb - 1) / 7
  {
    IsoWeekDateThursday(ta, ya);
    IsoWeekDateThursday(tb, yb);
    SameWeekByThursday(ta, IsoWeekDate(ta, ya), (ta - 1) / 7, tb, IsoWeekDate(tb, yb), (tb - 1) / 7);
  }

  /** A valid date's ISO week date is computed from its ordinal, which
      lies within its calendar year. */
  lemma IsoCalendarOfOrdinal(d: Date)
    requires ValidDate(d)
    ensures InYear(Ordinal(d), d.year)
    ensures IsoCalendar(d) == IsoWeekDate(Ordinal(d), d.year)
    ensures WeekIndex(d) == (Ordinal(d) - 1) / 7
  {
    OrdinalWithinYear(d);
  }

  /** `isocalendar()` numbers the weeks of a valid date 1 to 53. */
  lemma IsoWeekInRange(d: Date)
    requires ValidDate(d)
    ensures 1 <= IsoCalendar(d).week <= 53
  {
    IsoCalendarOfOrdinal(d);
    IsoWeekDateThursday(Ordinal(d), d.year);
  }

  /** The Thursday rule for a valid date. */
  lemma IsoCalendarThursday(d: Date)
    requires ValidDate(d)
    ensures ThursdayPlaced(Ordinal(d), IsoCalendar(d))
    ensures WeekIndex(d) == (Ordinal(d) - 1) / 7
  {
    IsoCalendarOfOrdinal(d);
    IsoWeekDateThursday(Ordinal(d), d.year);
  }

  /** Two valid dates share ISO year and ISO week number exactly when they
      fall in the same Monday-to-Sunday week. */
  lemma IsoWeekIffSameWeek(a: Date, b: Date)
    requires ValidDate(a) && ValidDate(b)
    ensures IsoCalendar(a).isoYear == IsoCalendar(b).isoYear && IsoCalendar(a).week == IsoCalendar(b).week
      <==> WeekIndex(a) == WeekIndex(b)
  {
    IsoCalendarThursday(a);
    IsoCalendarThursday(b);
    SameWeekByThursday(Ordinal(a), IsoCalendar(a), WeekIndex(a), Ordinal(b), IsoCalendar(b), WeekIndex(b));
  }

  function SecondsOfDay(t: DateTime): int {
    t.hour * 3600 + t.minute * 60 + t.second
  }

  /** `datetime.timestamp()` read in UTC. */
  function EpochSeconds(t: DateTime): int
    requires 1 <= t.date.month <= 12
  {
    (Ordinal(t.date) - EpochOrdinal) * SecondsPerDay + SecondsOfDay(t)
  }

  /** Epoch seconds of midnight (00:00:00 UTC) of the day `t` falls on. */
  function MidnightEpoch(t: DateTime): int
    requires 1 <= t.date.month <= 12
  {
    (Ordinal(t.date) - EpochOrdinal) * SecondsPerDay
  }

  /** An instant lies between midnight of `b`'s day and `b` itself exactly
      when it is on `b`'s calendar date and not later in the day. */
  lemma SameDayWindow(a: DateTime, b: DateTime)
    requires ValidDateTime(a) && ValidDateTime(b)
    ensures MidnightEpoch(b) <= EpochSeconds(a) <= EpochSeconds(b)
      <==> a.date == b.date && SecondsOfDay(a) <= SecondsOfDay(b)
  {
    var oa := Ordinal(a.date) - EpochOrdinal;
    var ob := Ordinal(b.date) - EpochOrdinal;
    if MidnightEpoch(b) <= EpochSeconds(a) <= EpochSeconds(b) {
      assert ob * SecondsPerDay <= oa * SecondsPerDay + SecondsOfDay(a) < (ob + 1) * SecondsPerDay;
      assert oa == ob;
      OrdinalOrder(a.date, b.date);
    }
  }

  // ---- the ISO week dates around the 2024/2025 year boundary ----

  lemma Week1Mondays()
    ensures IsoWeek1Monday(2024) == 738886 && IsoWeek1Monday(2025) == 739250
  {
    assert Ordinal(Date(2024, 1, 1)) == 738886;
    assert Ordinal(Date(2025, 1, 1)) == 739252;
  }

  lemma IsoDateOfNewYear2024()
    ensures IsoCalendar(Date(2024, 1, 1)) == IsoDate(2024, 1, 1)
    ensures Ordinal(Date(2024, 1, 1)) == 738886
  {
    Week1Mondays();
    assert Ordinal(Date(2024, 1, 1)) == 738886;
  }

  /** 2024-12-30 is the Monday of ISO week 1 of 2025. */
  lemma IsoDateOf20241230()
    ensures IsoCalendar(Date(2024, 12, 30)) == IsoDate(2025, 1, 1)
    ensures Ordinal(Date(2024, 12, 30)) == 739250
  {
    Week1Mondays();
    assert Ordinal(Date(2024, 12, 30)) == 739250;
  }

  lemma IsoDateOfNewYear2025()
    ensures IsoCalendar(Date(2025, 1, 1)) == IsoDate(2025, 1, 3)
  {
    Week1Mondays();
    assert Ordinal(Date(2025, 1, 1)) == 739252;
  }

  // ---- weekdays of the validator's test dates ----

  /** 2024-06-03 is a Monday and the six days after it are not; so is
      2025-08-18. */
  lemma MondayExamples()
    ensures IsMonday(Date(2024, 6, 3)) && IsMonday(Date(2025, 8, 18))
    ensures !IsMonday(Date(2024, 6, 4)) && !IsMonday(Date(2024, 6, 5)) && !IsMonday(Date(2024, 6, 6))
    ensures !IsMonday(Date(2024, 6, 7)) && !IsMonday(Date(2024, 6, 8)) && !IsMonday(Date(2024, 6, 9))
  {
    assert DaysBeforeYear(2024) == 738885;
    assert Ordinal(Date(2024, 6, 3)) == 739040;
    assert DaysBeforeYear(2025) == 739251;
    assert Ordinal(Date(2025, 8, 18)) == 739481;
  }

  /** Ordinals of the August 2025 days the window tests use (the 10th is a
      Sunday, the 11th and 18th Mondays). */
  lemma August2025(d: Date)
    requires d.year == 2025 && d.month == 8 && 1 <= d.day <= 31
    ensures Ordinal(d) == 739463 + d.day
    ensures IsMonday(d) <==> d.day % 7 == 4
  {
    assert DaysBeforeYear(2025) == 739251;
  }

  /** Ordinals of the January 2000 days the window tests use (the 1st is a
      Saturday, the 3rd a Monday). */
  lemma January2000(d: Date)
    requires d.year == 2000 && d.month == 1 && 1 <= d.day <= 31
    ensures Ordinal(d) == 730119 + d.day
    ensures IsMonday(d) <==> d.day % 7 == 3
  {
    January2000Ordinal(d);
    January2000Weekday(Ordinal(d), d.day);
    assert IsMonday(d) <==> (Ordinal(d) + 6) % 7 == 0;
  }

  lemma January2000Ordinal(d: Date)
    requires d.year == 2000 && d.month == 1
    ensures Ordinal(d) == 730119 + d.day
  {
    assert DaysBeforeYear(2000) == 730119;
  }

  lemma January2000Weekday(o: int, day: int)
    requires o == 730119 + day
    ensures (o + 6) % 7 == 0 <==> day % 7 == 3
  {
    var k, r := day / 7, day % 7;
    if r < 3 {
      DivModUnique(7, o + 6, 104303 + k, r + 4);
    } else {
      DivModUnique(7, o + 6, 104304 + k, r - 3);
    }
  }
}

=== FILE: carried_validator.dfy ===
/** The carried-state validator: instead of rescanning, it takes the
    running figures the customer's latest sealed transaction carries, resets
    them on a new day or a new week, adds the new load, and on acceptance
    writes the new figures onto the transaction it returns. */
module CarriedValidator {
  import opened Results
  import opened Formats
  import opened Calendar
  import opened Ledger
  import opened Transactions
  import opened Limits
  import TimedLedger
  import ChainValidator
  import Primes

  /** A transaction with the figures `validate_transaction` wrote onto it. */
  datatype Stamped = Stamped(tx: Transaction, dailyTotal: nat, weeklyTotal: nat, dailyCount: nat)

  /** `ValidationState`. Its `weekly_reset_date` field is never filled in
      by the source and plays no part here. */
  datatype State = State(lastDate: string, dailyTotal: nat, weeklyTotal: nat, dailyCount: nat)

  function StateOf(s: Stamped): State {
    State(s.tx.date, s.dailyTotal, s.weeklyTotal, s.dailyCount)
  }

  /** No record of `customer` in `txs`. */
  predicate Absent(txs: seq<Stamped>, customer: string) {
    forall k :: 0 <= k < |txs| ==> txs[k].tx.customerId != customer
  }

  /** `txs[k]` is `customer`'s last record in `txs`. */
  predicate IsLatest(txs: seq<Stamped>, customer: string, k: int) {
    && 0 <= k < |txs| && txs[k].tx.customerId == customer
    && forall j :: k < j < |txs| ==> txs[j].tx.customerId != customer
  }

  /** The inner loop of `_get_latest_validation_state`: one block's records, last to first. */
  function LatestInBlock(txs: seq<Stamped>, customer: string): (r: Option<nat>)
    ensures r.None? <==> Absent(txs, customer)
    ensures r.Some? ==> IsLatest(txs, customer, r.value)
  {
    if |txs| == 0 then None
    else if txs[|txs| - 1].tx.customerId == customer then Some(|txs| - 1)
    else LatestInBlock(txs[..|txs| - 1], customer)
  }

  lemma FlattenSplit(chain: seq<Block<Stamped>>)
    requires |chain| > 0
    ensures Flatten(chain) == Flatten(chain[..|chain| - 1]) + chain[|chain| - 1].transactions
  {
  }

  /** `_get_latest_validation_state`: blocks last to first, records within
      a block last to first; the first record of the customer met is the
      customer's last one in chain order. */
  function LatestState(chain: seq<Block<Stamped>>, customer: string): (r: Option<State>)
    ensures r.None? <==> Absent(Flatten(chain), customer)
    ensures r.Some? ==> exists k :: IsLatest(Flatten(chain), customer, k) && r.value == StateOf(Flatten(chain)[k])
  {
    if |chain| == 0 then None
    else
      var init, txs := chain[..|chain| - 1], chain[|chain| - 1].transactions;
      FlattenSplit(chain);
      match LatestInBlock(txs, customer)
      case Some(k) =>
        assert IsLatest(Flatten(chain), customer, |Flatten(init)| + k);
        Some(StateOf(txs[k]))
      case None =>
        var r := LatestState(init, customer);
        LatestCarriesOver(init, txs, customer, r);
        r
  }

  /** A block without the customer leaves the latest record where it was. */
  lemma LatestCarriesOver(init: seq<Block<Stamped>>, txs: seq<Stamped>, customer: string, r: Option<State>)
    requires Absent(txs, customer)
    requires r.Some? ==> exists k :: IsLatest(Flatten(init), customer, k) && r.value == StateOf(Flatten(init)[k])
    ensures r.Some? ==>
      exists k :: IsLatest(Flatten(init) + txs, customer, k) && r.value == StateOf((Flatten(init) + txs)[k])
  {
    if r.Some? {
      var k :| IsLatest(Flatten(init), customer, k) && r.value == StateOf(Flatten(init)[k]);
      assert IsLatest(Flatten(init) + txs, customer, k);
    }
  }

  /** The latest record's date text parses, since every chain record came
      out of the constructor. */
  lemma LatestDateParses(chain: seq<Block<Stamped>>, customer: string)
    requires ChainWellFormed(chain) && LatestState(chain, customer).Some?
    ensures ParseDateText(LatestState(chain, customer).value.lastDate).Some?
  {
    var k :| IsLatest(Flatten(chain), customer, k) && LatestState(chain, customer).value == StateOf(Flatten(chain)[k]);
    var _ := DateOf(Flatten(chain)[k].tx);
  }

  /** The week test as coded: equal ISO week numbers and equal calendar
      years, where ISO 8601 would compare ISO years. */
  predicate SameWeekAsCoded(a: Date, b: Date)
    requires 1 <= a.month <= 12 && 1 <= b.month <= 12
  {
    IsoCalendar(a).week == IsoCalendar(b).week && a.year == b.year
  }

  /** Every record on the chain came out of the constructor. */
  predicate ChainWellFormed(chain: seq<Block<Stamped>>) {
    forall k :: 0 <= k < |Flatten(chain)| ==> Transactions.WellFormed(Flatten(chain)[k].tx)
  }

  /** The carried figures before `t` is added: daily total, daily count and weekly total. */
  function Carried(chain: seq<Block<Stamped>>, t: Transaction): (r: (nat, nat, nat))
    requires Transactions.WellFormed(t) && ChainWellFormed(chain)
    ensures LatestState(chain, t.customerId).None? ==> r == (0, 0, 0)
    ensures LatestState(chain, t.customerId).Some? ==>
      var s := LatestState(chain, t.customerId).value;
      && r.0 == (if t.date == s.lastDate then s.dailyTotal else 0)
      && r.1 == (if t.date == s.lastDate then s.dailyCount else 0)
      && ParseDateText(s.lastDate).Some?
      && r.2 == (if SameWeekAsCoded(DateOf(t), ParseDateText(s.lastDate).value) then s.weeklyTotal else 0)
  {
    match LatestState(chain, t.customerId)
    case None => (0, 0, 0)
    case Some(s) =>
      LatestDateParses(chain, t.customerId);
      CarryFrom(s, t)
  }

  /** The figures carried from the customer's latest state `s`. */
  function CarryFrom(s: State, t: Transaction): (nat, nat, nat)
    requires Transactions.WellFormed(t) && ParseDateText(s.lastDate).Some?
  {
    var sameDay := t.date == s.lastDate;
    (if sameDay then s.dailyTotal else 0,
     if sameDay then s.dailyCount else 0,
     if SameWeekAsCoded(DateOf(t), ParseDateText(s.lastDate).value) then s.weeklyTotal else 0)
  }

  /** The checks of `validate_transaction` on the figures after adding the
      new load; they agree with the shared rule on the figures before it. */
  function Judge(prime: bool, c: (nat, nat, nat), t: Transaction): (r: Option<Stamped>)
    ensures r.Some? <==> Allows(prime, c.0, c.1, c.2, t.amount)
    ensures r.Some? ==> r.value == Stamped(t, c.0 + t.amount, c.2 + t.amount, c.1 + 1)
  {
    var newDaily, newWeekly, newCount := c.0 + t.amount, c.2 + t.amount, c.1 + 1;
    if prime && (newCount > 1 || newDaily > PrimeDailyLimit) then None
    else if !prime && (newDaily > DailyLimit || newCount > DailyCountLimit) then None
    else if newWeekly > WeeklyLimit then None
    else Some(Stamped(t, newDaily, newWeekly, newCount))
  }

  /** `validate_transaction`: `None` is a rejection, which writes nothing;
      on acceptance the transaction comes back carrying the new figures.
      The pending buffer is passed but never read. */
  function Validate(isPrime: nat -> bool, chain: seq<Block<Stamped>>, pending: seq<Stamped>, t: Transaction)
    : (r: Option<Stamped>)
    requires Transactions.WellFormed(t) && ChainWellFormed(chain)
    ensures var c := Carried(chain, t);
      && (r.Some? <==> Allows(isPrime(t.id), c.0, c.1, c.2, t.amount))
      && (r.Some? ==> r.value == Stamped(t, c.0 + t.amount, c.2 + t.amount, c.1 + 1))
  {
    Judge(isPrime(t.id), Carried(chain, t), t)
  }

  /** With no earlier record of the customer on the chain, all three
      figures start from zero. */
  lemma NoHistoryStartsFresh(isPrime: nat -> bool, chain: seq<Block<Stamped>>, pending: seq<Stamped>, t: Transaction)
    requires Transactions.WellFormed(t) && ChainWellFormed(chain)
    requires Absent(Flatten(chain), t.customerId)
    ensures Validate(isPrime, chain, pending, t).Some? <==> Allows(isPrime(t.id), 0, 0, 0, t.amount)
    ensures Validate(isPrime, chain, pending, t).Some? ==>
      Validate(isPrime, chain, pending, t).value == Stamped(t, t.amount, t.amount, 1)
  {
  }

  /** On the same date as the latest record the daily figures run on; on
      any other date they restart, whatever the week. */
  lemma DailyFiguresCarry(isPrime: nat -> bool, chain: seq<Block<Stamped>>, pending: seq<Stamped>, t: Transaction)
    requires Transactions.WellFormed(t) && ChainWellFormed(chain)
    requires Validate(isPrime, chain, pending, t).Some?
    requires LatestState(chain, t.customerId).Some?
    ensures var s, v := LatestState(chain, t.customerId).value, Validate(isPrime, chain, pending, t).value;
      if t.date == s.lastDate then v.dailyTotal == s.dailyTotal + t.amount && v.dailyCount == s.dailyCount + 1
      else v.dailyTotal == t.amount && v.dailyCount == 1
  {
  }

  /** Two days of one Monday-to-Sunday week within one calendar year always
      pass the week test as coded. */
  lemma SameWeekPassesCodedTest(a: Date, b: Date)
    requires ValidDate(a) && ValidDate(b)
    requires WeekIndex(a) == WeekIndex(b) && a.year == b.year
    ensures SameWeekAsCoded(a, b)
  {
    IsoWeekIffSameWeek(a, b);
  }

  /** Away from the turn of the year, where each date's ISO year is its
      calendar year, the week test as coded is exactly "same calendar year
      and same Monday-to-Sunday week". */
  lemma CodedWeekInsideIsoYear(a: Date, b: Date)
    requires ValidDate(a) && ValidDate(b)
    requires IsoCalendar(a).isoYear == a.year && IsoCalendar(b).isoYear == b.year
    ensures SameWeekAsCoded(a, b) <==> a.year == b.year && WeekIndex(a) == WeekIndex(b)
  {
    IsoWeekIffSameWeek(a, b);
  }

  /** The week test compares calendar years with ISO week numbers, so it
      carries the weekly figure from 2024-01-01 (ISO 2024 week 1) to
      2024-12-30 (ISO 2025 week 1), 364 days later. */
  lemma CodedWeekSpansIsoYears(a: Date, b: Date)
    requires a == Date(2024, 1, 1) && b == Date(2024, 12, 30)
    ensures SameWeekAsCoded(a, b)
    ensures IsoCalendar(a).isoYear != IsoCalendar(b).isoYear
  {
    IsoDateOfNewYear2024();
    IsoDateOf20241230();
    assert IsoCalendar(a).week == 1 && IsoCalendar(b).week == 1;
  }

  /** ... and it resets the weekly figure between 2024-12-30 and 2025-01-01,
      two days of the same ISO week. */
  lemma CodedWeekSplitsIsoWeek(a: Date, b: Date)
    requires a == Date(2024, 12, 30) && b == Date(2025, 1, 1)
    ensures !SameWeekAsCoded(a, b)
    ensures IsoCalendar(a).isoYear == IsoCalendar(b).isoYear && IsoCalendar(a).week == IsoCalendar(b).week
  {
    IsoDateOf20241230();
    IsoDateOfNewYear2025();
  }

  /** Unlike the chain scan, this validator never looks at the pending
      buffer: a prime-numbered load is accepted even though another load of
      the same customer on the same date waits in the buffer, where the
      chain scan refuses it. */
  lemma PendingBufferIgnored(primes: set<string>, u: Stamped, t: Transaction)
    requires Transactions.WellFormed(t) && Primes.IsPrimeId(primes, t.id) && t.amount <= PrimeDailyLimit
    requires u.tx.customerId == t.customerId && u.tx.date == t.date
    ensures Validate((n: nat) => Primes.IsPrimeId(primes, n), [], [u], t) == Some(Stamped(t, t.amount, t.amount, 1))
    ensures !ChainValidator.Verdict(primes, Flatten<Transaction>([]) + [u.tx], t)
  {
    FreshPrimeAccepted(primes, u, t);
    ChainScanSeesBuffer(primes, u, t);
  }

  lemma FreshPrimeAccepted(primes: set<string>, u: Stamped, t: Transaction)
    requires Transactions.WellFormed(t) && Primes.IsPrimeId(primes, t.id) && t.amount <= PrimeDailyLimit
    ensures Validate((n: nat) => Primes.IsPrimeId(primes, n), [], [u], t) == Some(Stamped(t, t.amount, t.amount, 1))
  {
    var isPrime := (n: nat) => Primes.IsPrimeId(primes, n);
    assert isPrime(t.id);
    assert Allows(true, 0, 0, 0, t.amount);
    NoHistoryStartsFresh(isPrime, [], [u], t);
  }

  lemma ChainScanSeesBuffer(primes: set<string>, u: Stamped, t: Transaction)
    requires Transactions.WellFormed(t) && Primes.IsPrimeId(primes, t.id)
    requires u.tx.customerId == t.customerId && u.tx.date == t.date
    ensures !ChainValidator.Verdict(primes, Flatten<Transaction>([]) + [u.tx], t)
  {
    assert Flatten<Transaction>([]) + [u.tx] == [] + [u.tx];
    ChainValidator.SumStep([], u.tx, x => ChainValidator.SameDay(x, t.customerId, t.date));
    ChainValidator.PrimeAfterSameDayRefused(primes, [u.tx], t);
  }

  /** Every record held, sealed or pending, came out of the constructor. */
  predicate AllHeldWellFormed(l: Ledger<Stamped>) {
    forall k :: 0 <= k < |Held(l)| ==> Transactions.WellFormed(Held(l)[k].tx)
  }

  /** The ledger invariant the validator relies on. */
  predicate HeldWellFormed(l: Ledger<Stamped>) {
    ChainWellFormed(l.chain) && AllHeldWellFormed(l)
  }

  lemma HeldToChain(l: Ledger<Stamped>)
    requires AllHeldWellFormed(l)
    ensures ChainWellFormed(l.chain)
  {
    assert forall k :: 0 <= k < |Flatten(l.chain)| ==> Flatten(l.chain)[k] == Held(l)[k];
  }

  /** `ValidatedBlockchain.add_transaction`: validate against the sealed
      chain, then hand the verdict to the timed ledger. A refused
      transaction leaves the ledger as it was; an accepted one is held with
      its figures written on it, and every held record stays well formed. */
  function AddValidated(cfg: TimedLedger.Config, l: Ledger<Stamped>, isPrime: nat -> bool, t: Transaction, now: int)
    : (r: TimedLedger.Added<Stamped>)
    requires Transactions.WellFormed(t) && HeldWellFormed(l)
    ensures r.accepted <==> Validate(isPrime, l.chain, l.pending, t).Some?
    ensures !r.accepted ==> r.ledger == l
    ensures r.accepted ==> Held(r.ledger) == Held(l) + [Validate(isPrime, l.chain, l.pending, t).value]
    ensures r.accepted ==> Held(r.ledger)[|Held(l)|].tx == t
    ensures HeldWellFormed(r.ledger)
  {
    var r := TimedLedger.AddTransaction(cfg, l, Validate(isPrime, l.chain, l.pending, t), now);
    assert forall k :: 0 <= k < |Held(r.ledger)| ==>
      Held(r.ledger)[k] == (if k < |Held(l)| then Held(l)[k] else Held(r.ledger)[|Held(l)|]);
    HeldToChain(r.ledger);
    r
  }
}

=== FILE: chain_validator.dfy ===
/** The chain-scan validator: the customer's same-day total and count and
    Monday-to-Sunday weekly total are recomputed on every call from every
    sealed block and the pending buffer, then checked against the limits. */
module ChainValidator {
  import opened Formats
  import opened Calendar
  import opened Primes
  import opened Ledger
  import opened Transactions
  import opened Limits

  /** The records `keep` selects, in order. */
  function Select(txs: seq<Transaction>, keep: Transaction -> bool): (r: seq<Transaction>)
    ensures |r| <= |txs|
    ensures forall k :: 0 <= k < |r| ==> keep(r[k])
  {
    if |txs| == 0 then []
    else Select(txs[..|txs| - 1], keep) + (if keep(txs[|txs| - 1]) then [txs[|txs| - 1]] else [])
  }

  /** Sum of the loads, in cents. */
  function Total(txs: seq<Transaction>): nat {
    if |txs| == 0 then 0 else Total(txs[..|txs| - 1]) + txs[|txs| - 1].amount
  }

  lemma SelectSnoc(txs: seq<Transaction>, x: Transaction, keep: Transaction -> bool)
    ensures Select(txs + [x], keep) == Select(txs, keep) + (if keep(x) then [x] else [])
  {
    assert (txs + [x])[..|txs|] == txs;
  }

  lemma TotalSnoc(txs: seq<Transaction>, x: Transaction)
    ensures Total(txs + [x]) == Total(txs) + x.amount
  {
    assert (txs + [x])[..|txs|] == txs;
  }

  /** Selection depends only on what the filter answers. */
  lemma {:induction false} SelectExt(txs: seq<Transaction>, f: Transaction -> bool, g: Transaction -> bool)
    requires forall x :: f(x) == g(x)
    ensures Select(txs, f) == Select(txs, g)
  {
    if |txs| > 0 {
      SelectExt(txs[..|txs| - 1], f, g);
    }
  }

  lemma FlattenStep(chain: seq<Block<Transaction>>, b: int)
    requires 0 <= b < |chain|
    ensures Flatten(chain[..b + 1]) == Flatten(chain[..b]) + chain[b].transactions
  {
    assert chain[..b + 1][..b] == chain[..b];
  }

  lemma SumStep(seen: seq<Transaction>, x: Transaction, keep: Transaction -> bool)
    ensures Total(Select(seen + [x], keep)) == Total(Select(seen, keep)) + (if keep(x) then x.amount else 0)
    ensures |Select(seen + [x], keep)| == |Select(seen, keep)| + (if keep(x) then 1 else 0)
  {
    SelectSnoc(seen, x, keep);
    if keep(x) {
      TotalSnoc(Select(seen, keep), x);
    } else {
      assert Select(seen + [x], keep) == Select(seen, keep);
    }
  }

  lemma ScanStep(seen: seq<Transaction>, txs: seq<Transaction>, j: int, keep: Transaction -> bool)
    requires 0 <= j < |txs|
    ensures Total(Select(seen + txs[..j + 1], keep))
         == Total(Select(seen + txs[..j], keep)) + (if keep(txs[j]) then txs[j].amount else 0)
    ensures |Select(seen + txs[..j + 1], keep)|
         == |Select(seen + txs[..j], keep)| + (if keep(txs[j]) then 1 else 0)
  {
    assert seen + txs[..j + 1] == (seen + txs[..j]) + [txs[j]];
    SumStep(seen + txs[..j], txs[j], keep);
  }

  /** One inner loop of the aggregates: the records of `txs`, in order,
      added to the sum and count already taken over `seen`. */
  method ScanRecords(seen: seq<Transaction>, txs: seq<Transaction>, keep: Transaction -> bool,
                     total0: nat, count0: nat)
    returns (total: nat, count: nat)
    requires total0 == Total(Select(seen, keep)) && count0 == |Select(seen, keep)|
    ensures total == Total(Select(seen + txs, keep)) && count == |Select(seen + txs, keep)|
  {
    total, count := total0, count0;
    var j := 0;
    assert seen + txs[..0] == seen;
    while j < |txs|
      invariant 0 <= j <= |txs|
      invariant total == Total(Select(seen + txs[..j], keep))
      invariant count == |Select(seen + txs[..j], keep)|
    {
      ScanStep(seen, txs, j, keep);
      if keep(txs[j]) {
        total := total + txs[j].amount;
        count := count + 1;
      }
      j := j + 1;
    }
    assert txs[..|txs|] == txs;
  }

  /** The two loops shared by `_get_daily_total`, `_get_weekly_total` and
      `_get_daily_load_count`: every sealed block's records in order, then
      the pending buffer, summing and counting the records `keep` selects. */
  method ScanLedger(chain: seq<Block<Transaction>>, pending: seq<Transaction>, keep: Transaction -> bool)
    returns (total: nat, count: nat)
    ensures total == Total(Select(Flatten(chain) + pending, keep))
    ensures count == |Select(Flatten(chain) + pending, keep)|
  {
    total, count := 0, 0;
    var b := 0;
    while b < |chain|
      invariant 0 <= b <= |chain|
      invariant total == Total(Select(Flatten(chain[..b]), keep))
      invariant count == |Select(Flatten(chain[..b]), keep)|
    {
      total, count := ScanRecords(Flatten(chain[..b]), chain[b].transactions, keep, total, count);
      FlattenStep(chain, b);
      b := b + 1;
    }
    assert chain[..|chain|] == chain;
    total, count := ScanRecords(Flatten(chain), pending, keep, total, count);
  }

  /** Same customer and the identical date text. */
  predicate SameDay(x: Transaction, customer: string, date: string) {
    x.customerId == customer && x.date == date
  }

  /** Same customer, and a date in the Monday-to-Sunday week numbered `week`. */
  predicate SameWeek(x: Transaction, customer: string, week: int) {
    x.customerId == customer &&
    match ParseDateText(x.date)
    case None => false
    case Some(e) => WeekIndex(e) == week
  }

  /** The customer's records dated `date`. */
  function OnDay(txs: seq<Transaction>, customer: string, date: string): seq<Transaction> {
    Select(txs, x => SameDay(x, customer, date))
  }

  /** The customer's records in calendar week `week`. */
  function InWeek(txs: seq<Transaction>, customer: string, week: int): seq<Transaction> {
    Select(txs, x => SameWeek(x, customer, week))
  }

  /** `_get_daily_total`. */
  method DailyTotal(chain: seq<Block<Transaction>>, pending: seq<Transaction>, customer: string, date: string)
    returns (total: nat)
    ensures total == Total(OnDay(Flatten(chain) + pending, customer, date))
  {
    var keep := (x: Transaction) => x.customerId == customer && x.date == date;
    var count;
    total, count := ScanLedger(chain, pending, keep);
    SelectExt(Flatten(chain) + pending, keep, x => SameDay(x, customer, date));
  }

  /** `_get_daily_load_count`: it counts exactly the records the daily total sums. */
  method DailyLoadCount(chain: seq<Block<Transaction>>, pending: seq<Transaction>, customer: string, date: string)
    returns (count: nat)
    ensures count == |OnDay(Flatten(chain) + pending, customer, date)|
  {
    var keep := (x: Transaction) => x.customerId == customer && x.date == date;
    var total;
    total, count := ScanLedger(chain, pending, keep);
    SelectExt(Flatten(chain) + pending, keep, x => SameDay(x, customer, date));
  }

  /** `in_week`: `week_start <= day <= week_end`, with `week_start` the Monday
      on or before `day0` and `week_end` six days later. */
  predicate InWeekBounds(text: string, day0: Date)
    requires 1 <= day0.month <= 12
  {
    match ParseDateText(text)
    case None => false
    case Some(e) => Ordinal(day0) - Weekday(day0) <= Ordinal(e) <= Ordinal(day0) - Weekday(day0) + 6
  }

  /** Every record the ledger holds was constructed, so its date text
      parses; `in_week` raises on one that does not. */
  predicate HeldWellFormed(chain: seq<Block<Transaction>>, pending: seq<Transaction>) {
    forall x :: x in Flatten(chain) + pending ==> Transactions.WellFormed(x)
  }

  /** `_get_weekly_total`: the sum over the customer's records in the
      calendar week of `day0`, Monday to Sunday inclusive. */
  method WeeklyTotal(chain: seq<Block<Transaction>>, pending: seq<Transaction>, customer: string, day0: Date)
    returns (total: nat)
    requires ValidDate(day0) && HeldWellFormed(chain, pending)
    ensures total == Total(InWeek(Flatten(chain) + pending, customer, WeekIndex(day0)))
  {
    var keep := (x: Transaction) => x.customerId == customer && InWeekBounds(x.date, day0);
    var count;
    total, count := ScanLedger(chain, pending, keep);
    forall x
      ensures keep(x) == SameWeek(x, customer, WeekIndex(day0))
    {
      var p := ParseDateText(x.date);
      if p.Some? {
        MondayToSunday(day0, p.value);
      }
    }
    SelectExt(Flatten(chain) + pending, keep, x => SameWeek(x, customer, WeekIndex(day0)));
  }

  /** The verdict for `t` against the records the ledger holds. */
  predicate Verdict(primes: set<string>, held: seq<Transaction>, t: Transaction)
    requires Transactions.WellFormed(t)
  {
    var day := OnDay(held, t.customerId, t.date);
    Allows(IsPrimeId(primes, t.id), Total(day), |day|,
           Total(InWeek(held, t.customerId, WeekIndex(DateOf(t)))), t.amount)
  }

  /** A prime-numbered load meets the one-a-day rule when the customer
      already holds a record on that date. */
  lemma PrimeAfterSameDayRefused(primes: set<string>, held: seq<Transaction>, t: Transaction)
    requires Transactions.WellFormed(t) && IsPrimeId(primes, t.id)
    requires |OnDay(held, t.customerId, t.date)| >= 1
    ensures !Verdict(primes, held, t)
  {
  }

  /** `validate_transaction`: it only reads the chain, the buffer and `t`. */
  method Validate(primes: set<string>, chain: seq<Block<Transaction>>, pending: seq<Transaction>, t: Transaction)
    returns (ok: bool)
    requires Transactions.WellFormed(t) && HeldWellFormed(chain, pending)
    ensures ok == Verdict(primes, Flatten(chain) + pending, t)
  {
    var dailyTotal := DailyTotal(chain, pending, t.customerId, t.date);
    var weeklyTotal := WeeklyTotal(chain, pending, t.customerId, DateOf(t));
    var dailyCount := DailyLoadCount(chain, pending, t.customerId, t.date);
    if IsPrimeId(primes, t.id) {
      if dailyCount >= 1 {
        return false;
      }
      if dailyTotal + t.amount > PrimeDailyLimit {
        return false;
      }
    } else {
      if dailyTotal + t.amount > DailyLimit {
        return false;
      }
      if dailyCount >= DailyCountLimit {
        return false;
      }
    }
    if weeklyTotal + t.amount > WeeklyLimit {
      return false;
    }
    return true;
  }

  /** Sealing the pending buffer never changes a verdict: the scan reads
      the sealed blocks and the buffer alike. */
  lemma SealingKeepsVerdict(primes: set<string>, l: Ledger<Transaction>, hash: string, stamp: int, now: int,
                            t: Transaction)
    requires Transactions.WellFormed(t)
    ensures Verdict(primes, Held(CreateBlock(l, hash, stamp, now).ledger), t) == Verdict(primes, Held(l), t)
  {
  }

  /** Once `t` is accepted and held, the customer's day and week totals,
      and their day count, still respect the limits of `t`'s tier. */
  lemma AcceptedStaysWithinLimits(primes: set<string>, held: seq<Transaction>, t: Transaction)
    requires Transactions.WellFormed(t) && Verdict(primes, held, t)
    ensures var day := OnDay(held + [t], t.customerId, t.date);
      if IsPrimeId(primes, t.id) then |day| == 1 && Total(day) <= PrimeDailyLimit
      else |day| <= DailyCountLimit && Total(day) <= DailyLimit
    ensures Total(InWeek(held + [t], t.customerId, WeekIndex(DateOf(t)))) <= WeeklyLimit
  {
    SumStep(held, t, x => SameDay(x, t.customerId, t.date));
    SumStep(held, t, x => SameWeek(x, t.customerId, WeekIndex(DateOf(t))));
  }

  /** A prime-numbered load is the customer's only one that day: after one
      is accepted and held, another prime-numbered load on the same date is
      refused, whatever its amount. */
  lemma PrimeOncePerDay(primes: set<string>, held: seq<Transaction>, t: Transaction, u: Transaction)
    requires Transactions.WellFormed(t) && Transactions.WellFormed(u)
    requires Verdict(primes, held, t)
    requires u.customerId == t.customerId && u.date == t.date && IsPrimeId(primes, u.id)
    ensures !Verdict(primes, held + [t], u)
  {
    SumStep(held, t, x => SameDay(x, u.customerId, u.date));
  }

  /** The same-day records are among the same-week ones, so the weekly
      total is never below the daily total. */
  lemma {:induction false} DayWithinWeek(txs: seq<Transaction>, t: Transaction)
    requires Transactions.WellFormed(t)
    ensures Total(OnDay(txs, t.customerId, t.date)) <= Total(InWeek(txs, t.customerId, WeekIndex(DateOf(t))))
  {
    if |txs| > 0 {
      var init, x := txs[..|txs| - 1], txs[|txs| - 1];
      assert txs == init + [x];
      DayWithinWeek(init, t);
      SumStep(init, x, y => SameDay(y, t.customerId, t.date));
      SumStep(init, x, y => SameWeek(y, t.customerId, WeekIndex(DateOf(t))));
    }
  }
}

=== FILE: dated_transactions.dfy ===
/** The parsed-timestamp `Transaction` draft: the id stays text, the
    timestamp is parsed into a date-time (with its epoch seconds), and the
    amount accepts a `USD` prefix by deleting every `$` and then `USD`. */
module DatedTransactions {
  import opened Results
  import opened Text
  import opened Calendar
  import opened Formats
  import opened TransactionFields

  datatype Transaction = Transaction(
    id: string,
    customerId: string,
    stamp: DateTime,
    amount: nat)

  /** What every constructed transaction satisfies. */
  predicate WellFormed(t: Transaction) {
    MatchesIdFormat(t.id) && MatchesIdFormat(t.customerId) && ValidDateTime(t.stamp)
  }

  /** `transaction_timetamp`: seconds since the Unix epoch, read as UTC. */
  function Epoch(t: Transaction): int
    requires ValidDateTime(t.stamp)
  {
    EpochSeconds(t.stamp)
  }

  /** `_process_timestamp_field`: the parsed date-time; its date, clock time
      and epoch seconds are read off it. */
  function ProcessTimestamp(s: string): (r: Result<DateTime, FieldError>)
    ensures r.Success? <==> ParseTimestamp(s).Some?
    ensures r.Success? ==> ValidDateTime(r.value) && FormatTimestamp(r.value) == s
    ensures r.Failure? ==> r.error == InvalidTimestamp(s)
  {
    match ParseTimestamp(s)
    case None => Failure(InvalidTimestamp(s))
    case Some(t) => TimestampCanonical(s); Success(t)
  }

  /** `_process_amount_field`: after the pattern check, `$` and then `USD`
      are deleted, so both prefixes give the same amount. */
  function ProcessAmount(s: string): (r: Result<nat, FieldError>)
    ensures r.Success? <==> MatchesAmountPattern(s)
    ensures r.Failure? ==> r.error == InvalidAmount(s)
    ensures r.Success? && IsDollarAmount(s) ==> r.value == DollarCents(s)
    ensures r.Success? && !IsDollarAmount(s) ==> r.value == DollarCents(s[3..])
  {
    if !MatchesAmountPattern(s) then Failure(InvalidAmount(s))
    else if IsDollarAmount(s) then Success(DollarCents(s))
    else Success(DollarCents(s[3..]))
  }

  /** `USD$12.34` and `$12.34` are the same load. */
  lemma UsdPrefixSameAmount(s: string)
    requires IsDollarAmount(s)
    ensures ProcessAmount("USD" + s) == ProcessAmount(s)
  {
    var u := "USD" + s;
    assert u[3..] == s;
    assert u[0] == 'U';
  }

  /** The inputs the constructor accepts. */
  predicate Acceptable(data: map<string, string>) {
    && "id" in data && "customer_id" in data && "time" in data && "load_amount" in data
    && MatchesIdFormat(data["id"])
    && MatchesIdFormat(data["customer_id"])
    && ParseTimestamp(data["time"]).Some?
    && MatchesAmountPattern(data["load_amount"])
  }

  /** `Transaction.__init__`: presence, then id, customer id, timestamp and
      amount; the first failing check decides the error. */
  function New(data: map<string, string>): (r: Result<Transaction, FieldError>)
    ensures r.Success? <==> Acceptable(data)
    ensures r.Success? ==>
      && WellFormed(r.value)
      && r.value.id == data["id"]
      && r.value.customerId == data["customer_id"]
      && FormatTimestamp(r.value.stamp) == data["time"]
      && ProcessAmount(data["load_amount"]) == Success(r.value.amount)
      && r.value == Transaction(data["id"], data["customer_id"],
                                ParseTimestamp(data["time"]).value, r.value.amount)
    ensures ValidateRequiredFields(data).Failure? ==> r.Failure? && r.error == ValidateRequiredFields(data).error
    ensures ValidateRequiredFields(data).Success? ==>
      && (!MatchesIdFormat(data["id"]) ==> r == Failure(InvalidTransactionId(data["id"])))
      && (MatchesIdFormat(data["id"]) && !MatchesIdFormat(data["customer_id"]) ==>
            r == Failure(InvalidCustomerId(data["customer_id"])))
      && (MatchesIdFormat(data["id"]) && MatchesIdFormat(data["customer_id"]) &&
          ParseTimestamp(data["time"]).None? ==>
            r == Failure(InvalidTimestamp(data["time"])))
      && (MatchesIdFormat(data["id"]) && MatchesIdFormat(data["customer_id"]) &&
          ParseTimestamp(data["time"]).Some? && !MatchesAmountPattern(data["load_amount"]) ==>
            r == Failure(InvalidAmount(data["load_amount"])))
  {
    var _ :- ValidateRequiredFields(data);
    var id :- ValidateTransactionId(data["id"]);
    var customer :- ValidateCustomerId(data["customer_id"]);
    var stamp :- ProcessTimestamp(data["time"]);
    var amount :- ProcessAmount(data["load_amount"]);
    Success(Transaction(id, customer, stamp, amount))
  }

  const DictKeys: set<string> :=
    {"id", "customer_id", "transaction_date", "transaction_time", "transaction_datetime", "load_amount"}

  /** `to_dict` as written: the date-time is rendered by `str()`, with a
      space between date and clock and no `Z`. */
  function ToDict(t: Transaction): (r: map<string, Field>)
    requires ValidDateTime(t.stamp)
    ensures r.Keys == DictKeys
    ensures r["transaction_datetime"] == Text(FormatSpaced(t.stamp))
    ensures r["id"] == Text(t.id) && r["load_amount"] == Amount(t.amount)
    ensures r["customer_id"] == Text(t.customerId)
    ensures r["transaction_date"] == Text(FormatDate(t.stamp.date)) && r["transaction_time"] == Text(FormatClock(t.stamp))
  {
    map["id" := Text(t.id),
        "customer_id" := Text(t.customerId),
        "transaction_date" := Text(FormatDate(t.stamp.date)),
        "transaction_time" := Text(FormatClock(t.stamp)),
        "transaction_datetime" := Text(FormatSpaced(t.stamp)),
        "load_amount" := Amount(t.amount)]
  }

  /** `to_dict` with the date-time in the input's own `YYYY-MM-DDTHH:MM:SSZ` form. */
  function ToWireDict(t: Transaction): (r: map<string, Field>)
    requires ValidDateTime(t.stamp)
    ensures r.Keys == DictKeys
    ensures r["transaction_datetime"] == Text(FormatTimestamp(t.stamp))
  {
    ToDict(t)["transaction_datetime" := Text(FormatTimestamp(t.stamp))]
  }

  /** `from_dict` as written. A missing dictionary key is reported before
      any field is checked; a success is a constructed transaction whose
      id, customer and date-time are the dictionary's texts. */
  function FromDict(data: map<string, Field>): (r: Result<Transaction, FieldError>)
    ensures Reassemble(data, FloatText).Failure? ==> r == Failure(Reassemble(data, FloatText).error)
    ensures r.Success? <==> Reassemble(data, FloatText).Success? && Acceptable(Reassemble(data, FloatText).value)
    ensures "id" !in data ==> r == Failure(MissingDictField("id"))
    ensures "id" in data && "customer_id" !in data ==> r == Failure(MissingDictField("customer_id"))
    ensures "id" in data && "customer_id" in data && "transaction_datetime" !in data ==>
      r == Failure(MissingDictField("transaction_datetime"))
    ensures "id" in data && "customer_id" in data && "transaction_datetime" in data && "load_amount" !in data ==>
      r == Failure(MissingDictField("load_amount"))
    ensures r.Success? ==>
      && "id" in data && "customer_id" in data && "transaction_datetime" in data && "load_amount" in data
      && WellFormed(r.value)
      && r.value.id == FieldText(data["id"], FloatText)
      && r.value.customerId == FieldText(data["customer_id"], FloatText)
      && FormatTimestamp(r.value.stamp) == FieldText(data["transaction_datetime"], FloatText)
  {
    var raw :- Reassemble(data, FloatText);
    New(raw)
  }

  /** `from_dict` with the amount rendered with two decimals. */
  function FromDictTwoDecimals(data: map<string, Field>): Result<Transaction, FieldError> {
    var raw :- Reassemble(data, CentsText);
    New(raw)
  }

  /** As written, no dictionary made by `to_dict` can be read back: the
      spaced date-time fails the timestamp format, whatever the amount. */
  lemma FromDictAsWritten(t: Transaction)
    requires WellFormed(t)
    ensures FromDict(ToDict(t)) == Failure(InvalidTimestamp(FormatSpaced(t.stamp)))
  {
    var d := ToDict(t);
    assert Reassemble(d, FloatText).Success?;
    SpacedIsNotTimestamp(t.stamp);
  }

  /** With the wire date-time and two-decimal amounts, `to_dict` then
      `from_dict` gives back the same transaction. */
  lemma WireDictRoundTrip(t: Transaction)
    requires WellFormed(t)
    ensures FromDictTwoDecimals(ToWireDict(t)) == Success(t)
  {
    var d := ToWireDict(t);
    WireDictFields(t);
    var raw := map["id" := t.id, "customer_id" := t.customerId,
                   "time" := FormatTimestamp(t.stamp), "load_amount" := "$" + CentsText(t.amount)];
    assert Reassemble(d, CentsText) == Success(raw);
    RawFields(t.id, t.customerId, FormatTimestamp(t.stamp), "$" + CentsText(t.amount));
    TimestampRoundTrip(t.stamp);
    DollarCentsText(t.amount);
    NotUsdPrefixed(t.amount);
    assert Acceptable(raw);
  }

  /** The fields of the wire dictionary, as `from_dict` reads them. */
  lemma WireDictFields(t: Transaction)
    requires ValidDateTime(t.stamp)
    ensures var d := ToWireDict(t);
      && d["id"] == Text(t.id) && d["customer_id"] == Text(t.customerId)
      && d["transaction_datetime"] == Text(FormatTimestamp(t.stamp)) && d["load_amount"] == Amount(t.amount)
  {
  }

  /** The fields of a rebuilt raw record. */
  lemma RawFields(id: string, customer: string, time: string, amount: string)
    ensures var raw := map["id" := id, "customer_id" := customer, "time" := time, "load_amount" := amount];
      && raw.Keys == {"id", "customer_id", "time", "load_amount"}
      && raw["id"] == id && raw["customer_id"] == customer && raw["time"] == time && raw["load_amount"] == amount
  {
  }
}

=== FILE: formats.dfy ===
/** The input formats every transaction field must match: the all-digit id
    patterns, the `(USD)?$d+.dd` amount pattern and the fixed-width
    `YYYY-MM-DDTHH:MM:SSZ` timestamp (the literal-`Z` UTC form of a date-time
    in section 5.6 of RFC 3339). Digits are ASCII; the timestamp is exactly
    twenty characters, every field zero-padded. */
module Formats {
  import opened Text
  import opened Results
  import opened Calendar

  /** The transaction-id and customer-id pattern `^\d+$`. */
  predicate MatchesIdFormat(s: string) {
    IsDigitString(s)
  }

  predicate HasUsdPrefix(s: string) {
    |s| >= 3 && s[..3] == "USD"
  }

  /** `$` then one or more digits, a `.` and exactly two digits. */
  predicate IsDollarAmount(t: string) {
    && |t| >= 5
    && t[0] == '$'
    && IsDigitString(t[1..|t| - 3])
    && t[|t| - 3] == '.'
    && IsDigit(t[|t| - 2])
    && IsDigit(t[|t| - 1])
  }

  /** The amount pattern `^(USD)?\$\d+\.\d{2}$`. */
  predicate MatchesAmountPattern(s: string) {
    IsDollarAmount(s) || (HasUsdPrefix(s) && IsDollarAmount(s[3..]))
  }

  /** Value in cents of a `$d+.dd` text. */
  function DollarCents(t: string): nat
    requires IsDollarAmount(t)
  {
    ParseNat(t[1..|t| - 3]) * 100 + DigitValue(t[|t| - 2]) * 10 + DigitValue(t[|t| - 1])
  }

  lemma DigitRoundTrip(c: char)
    requires IsDigit(c)
    ensures DigitChar(DigitValue(c)) == c
  {
  }

  // ---- fixed-width numerals ----

  function Pad2(n: int): (r: string)
    requires 0 <= n < 100
    ensures |r| == 2 && AllDigits(r)
  {
    [DigitChar(n / 10), DigitChar(n % 10)]
  }

  function Pad4(n: int): (r: string)
    requires 0 <= n < 10000
    ensures |r| == 4 && AllDigits(r)
  {
    Pad2(n / 100) + Pad2(n % 100)
  }

  function Value2(s: string): int
    requires |s| == 2 && AllDigits(s)
  {
    DigitValue(s[0]) * 10 + DigitValue(s[1])
  }

  function Value4(s: string): int
    requires |s| == 4 && AllDigits(s)
  {
    Value2(s[0..2]) * 100 + Value2(s[2..4])
  }

  lemma Pad2Value(s: string)
    requires |s| == 2 && AllDigits(s)
    ensures Pad2(Value2(s)) == s
  {
    DigitRoundTrip(s[0]);
    DigitRoundTrip(s[1]);
  }

  lemma Pad4Value(s: string)
    requires |s| == 4 && AllDigits(s)
    ensures Pad4(Value4(s)) == s
  {
    var hi, lo := Value2(s[0..2]), Value2(s[2..4]);
    assert (hi * 100 + lo) / 100 == hi && (hi * 100 + lo) % 100 == lo;
    Pad2Value(s[0..2]);
    Pad2Value(s[2..4]);
    assert s == s[0..2] + s[2..4];
  }

  // ---- dates "YYYY-MM-DD" and clock times "HH:MM:SS" ----

  predicate DateShape(s: string) {
    && |s| == 10
    && AllDigits(s[0..4]) && s[4] == '-' && AllDigits(s[5..7]) && s[7] == '-' && AllDigits(s[8..10])
  }

  predicate ClockShape(s: string) {
    && |s| == 8
    && AllDigits(s[0..2]) && s[2] == ':' && AllDigits(s[3..5]) && s[5] == ':' && AllDigits(s[6..8])
  }

  /** `strptime(s, "%Y-%m-%d")` for the zero-padded form. */
  function ParseDateText(s: string): (r: Option<Date>)
    ensures r.Some? ==> ValidDate(r.value)
  {
    if !DateShape(s) then None
    else
      var d := Date(Value4(s[0..4]), Value2(s[5..7]), Value2(s[8..10]));
      if ValidDate(d) then Some(d) else None
  }

  /** `str(date)`. */
  function FormatDate(d: Date): (r: string)
    requires ValidDate(d)
    ensures |r| == 10
  {
    Pad4(d.year) + "-" + Pad2(d.month) + "-" + Pad2(d.day)
  }

  /** `str(time)` of a time without microseconds. */
  function FormatClock(t: DateTime): (r: string)
    requires ValidDateTime(t)
    ensures |r| == 8
  {
    Pad2(t.hour) + ":" + Pad2(t.minute) + ":" + Pad2(t.second)
  }

  lemma DateTextRoundTrip(d: Date)
    requires ValidDate(d)
    ensures ParseDateText(FormatDate(d)) == Some(d)
  {
    var s := FormatDate(d);
    assert s[0..4] == Pad4(d.year);
    assert s[5..7] == Pad2(d.month);
    assert s[8..10] == Pad2(d.day);
  }

  lemma DateTextCanonical(s: string)
    requires ParseDateText(s).Some?
    ensures FormatDate(ParseDateText(s).value) == s
  {
    Pad4Value(s[0..4]);
    Pad2Value(s[5..7]);
    Pad2Value(s[8..10]);
    assert s == s[0..4] + "-" + s[5..7] + "-" + s[8..10];
  }

  // ---- the wire timestamp "YYYY-MM-DDTHH:MM:SSZ" ----

  /** `strptime(s, "%Y-%m-%dT%H:%M:%SZ")` restricted to the zero-padded
      twenty-character form; `None` is the `ValueError`. */
  function ParseTimestamp(s: string): (r: Option<DateTime>)
    ensures r.Some? ==> ValidDateTime(r.value)
  {
    if |s| != 20 || s[10] != 'T' || s[19] != 'Z' || !ClockShape(s[11..19]) then None
    else match ParseDateText(s[..10])
      case None => None
      case Some(d) =>
        var c := s[11..19];
        var t := DateTime(d, Value2(c[0..2]), Value2(c[3..5]), Value2(c[6..8]));
        if ValidDateTime(t) then Some(t) else None
  }

  function FormatTimestamp(t: DateTime): (r: string)
    requires ValidDateTime(t)
    ensures |r| == 20
  {
    FormatDate(t.date) + "T" + FormatClock(t) + "Z"
  }

  /** `str(datetime)`: date and clock separated by a space, no zone suffix. */
  function FormatSpaced(t: DateTime): (r: string)
    requires ValidDateTime(t)
    ensures |r| == 19
  {
    FormatDate(t.date) + " " + FormatClock(t)
  }

  /** Formatting then parsing a timestamp gives back the same instant. */
  lemma TimestampRoundTrip(t: DateTime)
    requires ValidDateTime(t)
    ensures ParseTimestamp(FormatTimestamp(t)) == Some(t)
  {
    var s := FormatTimestamp(t);
    assert s[..10] == FormatDate(t.date);
    DateTextRoundTrip(t.date);
    var c := s[11..19];
    assert c == FormatClock(t);
    assert c[0..2] == Pad2(t.hour);
    assert c[3..5] == Pad2(t.minute);
    assert c[6..8] == Pad2(t.second);
  }

  /** Every accepted timestamp text is the canonical rendering of what it
      parses to, so parsing loses nothing. */
  lemma TimestampCanonical(s: string)
    requires ParseTimestamp(s).Some?
    ensures FormatTimestamp(ParseTimestamp(s).value) == s
  {
    var t := ParseTimestamp(s).value;
    DateTextCanonical(s[..10]);
    var c := s[11..19];
    Pad2Value(c[0..2]);
    Pad2Value(c[3..5]);
    Pad2Value(c[6..8]);
    assert c == c[0..2] + ":" + c[3..5] + ":" + c[6..8];
    assert FormatClock(t) == c;
    assert s == s[..10] + "T" + c + "Z";
  }

  /** The text `str(datetime)` produces is never accepted as a timestamp:
      its eleventh character is a space, not `T`. */
  lemma SpacedIsNotTimestamp(t: DateTime)
    requires ValidDateTime(t)
    ensures ParseTimestamp(FormatSpaced(t)).None?
  {
  }

  /** The date part of an accepted timestamp is itself an accepted date. */
  lemma TimestampDatePart(s: string)
    requires ParseTimestamp(s).Some?
    ensures ParseDateText(s[..10]) == Some(ParseTimestamp(s).value.date)
  {
  }

  /** The id patterns on the test inputs: digits only. */
  lemma IdPatternExamples()
    ensures MatchesIdFormat("15887") && !MatchesIdFormat("15887s") && !MatchesIdFormat("C528")
  {
    assert !IsDigit("15887s"[5]);
    assert !IsDigit("C528"[0]);
  }

  /** The amount pattern on the test inputs: an optional `USD`, then the
      `$`, and a dot before two decimals. */
  lemma AmountPatternExamples()
    ensures MatchesAmountPattern("$3318.47") && MatchesAmountPattern("USD$3318.47")
    ensures !MatchesAmountPattern("3318.47") && !MatchesAmountPattern("$3318,47")
  {
    assert "USD$3318.47"[3..] == "$3318.47";
    assert "$3318.47"[1..5] == "3318";
    assert "3318.47"[0] != '$' && !HasUsdPrefix("3318.47");
    assert "$3318,47"[5] != '.' && !HasUsdPrefix("$3318,47");
  }

  /** The timestamp format on the test inputs: the trailing `Z` is required. */
  lemma TimestampExamples()
    ensures ParseTimestamp("2000-01-01T00:00:00Z") == Some(DateTime(Date(2000, 1, 1), 0, 0, 0))
    ensures ParseTimestamp("2000-01-01T00:00:00").None?
  {
    var t := DateTime(Date(2000, 1, 1), 0, 0, 0);
    TimestampRoundTrip(t);
    assert FormatDate(t.date) == "2000-01-01";
    assert FormatClock(t) == "00:00:00";
    assert FormatTimestamp(t) == "2000-01-01T00:00:00Z";
  }
}

=== FILE: ledger.dfy ===
/** What both blockchain drafts share: the Block record, the ledger state
    (sealed chain, pending buffer, time of the last seal), `create_block`,
    `get_chain` and start-up. The chain is a batched append-only log, not a
    hash chain: `previous_hash` is an administrative string copied forward. */
module Ledger {
  import opened Results

  datatype Block<T> = Block(index: int, previousHash: string, timestamp: int, transactions: seq<T>)

  /** Sealed blocks, the pending buffer, and the clock reading of the last seal. */
  datatype Ledger<T> = Ledger(chain: seq<Block<T>>, pending: seq<T>, lastBlockTime: int)

  /** Outcome of `create_block`: the ledger afterwards and the block made, if any. */
  datatype Sealing<T> = Sealing(ledger: Ledger<T>, block: Option<Block<T>>)

  /** The sentinel `previous_hash` used when the chain is empty. */
  const GenesisHash: string := "1"

  /** Every transaction of the sealed blocks, block by block, in order. */
  function Flatten<T>(chain: seq<Block<T>>): seq<T> {
    if |chain| == 0 then [] else Flatten(chain[..|chain| - 1]) + chain[|chain| - 1].transactions
  }

  /** Every transaction the ledger holds, sealed first, then pending. */
  function Held<T>(l: Ledger<T>): seq<T> {
    Flatten(l.chain) + l.pending
  }

  lemma FlattenAppend<T>(chain: seq<Block<T>>, b: Block<T>)
    ensures Flatten(chain + [b]) == Flatten(chain) + b.transactions
  {
    assert (chain + [b])[..|chain|] == chain;
  }

  /** Blocks are numbered 1, 2, 3, ... in chain order. */
  ghost predicate Consecutive<T>(chain: seq<Block<T>>) {
    forall k :: 0 <= k < |chain| ==> chain[k].index == k + 1
  }

  /** Every block carries the genesis sentinel as its `previous_hash`. */
  ghost predicate GenesisLinked<T>(chain: seq<Block<T>>) {
    forall k :: 0 <= k < |chain| ==> chain[k].previousHash == GenesisHash
  }

  ghost predicate NonEmptyBlocks<T>(chain: seq<Block<T>>) {
    forall k :: 0 <= k < |chain| ==> |chain[k].transactions| > 0
  }

  /** The shape every chain grown from an empty one keeps. */
  ghost predicate WellFormed<T>(chain: seq<Block<T>>) {
    Consecutive(chain) && GenesisLinked(chain) && NonEmptyBlocks(chain)
  }

  /** `chain[-1].previous_hash if chain else "1"`: the last block's own
      `previous_hash` is copied, not a digest of that block. */
  function NextPreviousHash<T>(chain: seq<Block<T>>): (h: string)
    ensures GenesisLinked(chain) ==> h == GenesisHash
  {
    if |chain| == 0 then GenesisHash else chain[|chain| - 1].previousHash
  }

  /** `create_block(previous_hash, timestamp)`, with `now` the clock reading
      it stores as the time of the last seal. */
  function CreateBlock<T>(l: Ledger<T>, previousHash: string, timestamp: int, now: int): (r: Sealing<T>)
    ensures Held(r.ledger) == Held(l)
    ensures |l.pending| == 0 <==> r.block.None?
    ensures r.block.None? ==> r.ledger == l
    ensures r.block.Some? ==>
      && r.ledger.chain == l.chain + [r.block.value]
      && r.block.value.index == |l.chain| + 1
      && r.block.value.previousHash == previousHash
      && r.block.value.transactions == l.pending
      && r.ledger.pending == []
      && r.ledger.lastBlockTime == now
  {
    if |l.pending| == 0 then Sealing(l, None)
    else
      var b := Block(|l.chain| + 1, previousHash, timestamp, l.pending);
      FlattenAppend(l.chain, b);
      Sealing(Ledger(l.chain + [b], [], now), Some(b))
  }

  /** Sealing with the copied `previous_hash` keeps a well-formed chain
      well-formed. */
  lemma CreateBlockPreservesWellFormed<T>(l: Ledger<T>, timestamp: int, now: int)
    requires WellFormed(l.chain)
    ensures WellFormed(CreateBlock(l, NextPreviousHash(l.chain), timestamp, now).ledger.chain)
  {
    var r := CreateBlock(l, NextPreviousHash(l.chain), timestamp, now);
    if r.block.Some? {
      var c := r.ledger.chain;
      forall k | 0 <= k < |c|
        ensures c[k].index == k + 1 && c[k].previousHash == GenesisHash && |c[k].transactions| > 0
      {
        if k < |l.chain| {
          assert c[k] == l.chain[k];
        } else {
          assert c[k] == r.block.value;
        }
      }
    }
  }

  /** The constructor: load the persisted chain, start with an empty buffer,
      and attempt a genesis seal, which finds the buffer empty. */
  function Init<T>(persisted: seq<Block<T>>, genesisTimestamp: int, now: int): (l: Ledger<T>)
    ensures l.chain == persisted && l.pending == [] && l.lastBlockTime == now
  {
    CreateBlock(Ledger(persisted, [], now), GenesisHash, genesisTimestamp, now).ledger
  }

  /** `get_chain`: the sealed blocks only. */
  function GetChain<T>(l: Ledger<T>): (r: seq<Block<T>>)
    ensures Flatten(r) + l.pending == Held(l)
  {
    l.chain
  }
}

=== FILE: limits.dfy ===
/** The velocity limits, in cents, and the accept/reject rule both
    chain-reading validators apply once they have their aggregates. */
module Limits {
  /** $9,999.00 a day for a prime-numbered transaction. */
  const PrimeDailyLimit: nat := 999900
  /** $5,000.00 a day otherwise. */
  const DailyLimit: nat := 500000
  /** $20,000.00 a week for everyone. */
  const WeeklyLimit: nat := 2000000
  /** At most three loads a day outside the prime tier. */
  const DailyCountLimit: nat := 3

  /** The checks of `validate_transaction` given the customer's same-day
      total and count and weekly total BEFORE the new load: the prime tier
      allows one load a day up to $9,999, the others three loads up to
      $5,000, and both tiers $20,000 a week. Every limit is strict `>`,
      so a total landing exactly on it passes. */
  predicate Allows(prime: bool, dailyTotal: nat, dailyCount: nat, weeklyTotal: nat, amount: nat) {
    && (if prime then dailyCount < 1 && dailyTotal + amount <= PrimeDailyLimit
        else dailyTotal + amount <= DailyLimit && dailyCount < DailyCountLimit)
    && weeklyTotal + amount <= WeeklyLimit
  }
}

=== FILE: pipeline.dfy ===
/** One record's trip through the service: it is stored first, then judged
    by the rolling-window validator against a store that already holds it,
    and handed to the size-batched ledger only when accepted. A rejected
    record stays in the store and keeps counting in later windows. */
module Pipeline {
  import Ledger
  import opened Calendar
  import opened Limits
  import SizeLedger
  import opened DatedTransactions
  import opened Store
  import opened WindowValidator

  datatype State = State(store: seq<Transaction>, ledger: Ledger.Ledger<Transaction>)

  /** The state after a record, and the validator's answer for it. */
  datatype Step = Step(state: State, outcome: Outcome)

  /** Store, then validate, then add to the ledger on acceptance. */
  function ProcessRecord(primes: set<string>, batchSize: int, s: State, t: Transaction, now: int): (r: Step)
    requires AllValid(s.store) && WellFormed(t)
    ensures r.state.store == Insert(s.store, t) && t in r.state.store
    ensures AllValid(r.state.store) && (IdsUnique(s.store) ==> IdsUnique(r.state.store))
    ensures r.outcome == Validate(primes, r.state.store, t)
    ensures r.outcome.Rejected? ==> r.state.ledger == s.ledger
    ensures r.outcome.Accepted? ==> Ledger.Held(r.state.ledger) == Ledger.Held(s.ledger) + [t]
  {
    var store := Insert(s.store, t);
    var outcome := Validate(primes, store, t);
    var ledger := if outcome.Accepted? then SizeLedger.AddTransaction(batchSize, s.ledger, t, now) else s.ledger;
    Step(State(store, ledger), outcome)
  }

  /** Processing a record keeps the sealed chain well-formed. */
  lemma ProcessKeepsWellFormed(primes: set<string>, batchSize: int, s: State, t: Transaction, now: int)
    requires AllValid(s.store) && WellFormed(t) && Ledger.WellFormed(s.ledger.chain)
    ensures Ledger.WellFormed(ProcessRecord(primes, batchSize, s, t, now).state.ledger.chain)
  {
    SizeLedger.AddPreservesWellFormed(batchSize, s.ledger, t, now);
  }

  /** The customer's records of `t`'s day up to `t` are exactly the stored
      ones on that date no later in the day. */
  lemma {:induction false} DayOfMembers(rs: seq<Transaction>, t: Transaction)
    requires AllValid(rs) && WellFormed(t)
    ensures forall x :: x in DayOf(rs, t) <==> x in rs && SameDayUpTo(x, t)
  {
    if |rs| > 0 {
      DayOfMembers(rs[..|rs| - 1], t);
      assert rs == rs[..|rs| - 1] + [rs[|rs| - 1]];
    }
  }

  lemma TwoMembers<T>(s: seq<T>, x: T, y: T)
    requires x in s && y in s && x != y
    ensures |s| >= 2
  {
  }

  /** Because the record is stored before it is judged, it counts in its
      own daily window: a prime-id record meets another record of the same
      customer stamped earlier that day, or at the same second, and is
      refused for the count. */
  lemma PrimeSecondOfDayRejected(primes: set<string>, batchSize: int, s: State, t: Transaction, x: Transaction, now: int)
    requires AllValid(s.store) && WellFormed(t) && IsPrimeTransaction(primes, t)
    requires x in s.store && x.id != t.id && SameDayUpTo(x, t)
    ensures ProcessRecord(primes, batchSize, s, t, now).outcome == Rejected(PrimeDailyCount)
    ensures ProcessRecord(primes, batchSize, s, t, now).state.ledger == s.ledger
  {
    var store := Insert(s.store, t);
    assert WellFormed(x) && SameDayUpTo(t, t);
    DayOfMembers(store, t);
    TwoMembers(DayOf(store, t), x, t);
  }

  /** A record that is alone on its day and small enough is accepted and
      reaches the ledger. */
  lemma FirstOfDayAccepted(primes: set<string>, batchSize: int, t: Transaction, now: int)
    requires WellFormed(t)
    requires (if IsMonday(t.stamp.date) then 2 * t.amount else t.amount)
      <= (if IsPrimeTransaction(primes, t) then PrimeDailyLimit else DailyLimit)
    ensures var r := ProcessRecord(primes, batchSize, State([], Ledger.Ledger([], [], now)), t, now);
      r.outcome == Accepted && Ledger.Held(r.state.ledger) == [t]
  {
    assert Insert([], t) == [t];
    SingleRecord(primes, t);
  }

  /** The accepted records among those processed, in order. */
  function AcceptedOf(records: seq<Transaction>, outcomes: seq<Outcome>): seq<Transaction>
    requires |records| == |outcomes|
  {
    if |records| == 0 then []
    else
      var n := |records| - 1;
      AcceptedOf(records[..n], outcomes[..n]) + (if outcomes[n].Accepted? then [records[n]] else [])
  }

  /** Processing one more record extends the accepted list by that record
      exactly when it is accepted. */
  lemma AcceptedSnoc(records: seq<Transaction>, n: nat, outcomes: seq<Outcome>, o: Outcome)
    requires n < |records| && |outcomes| == n
    ensures AcceptedOf(records[..n + 1], outcomes + [o])
      == AcceptedOf(records[..n], outcomes) + (if o.Accepted? then [records[n]] else [])
  {
    assert records[..n + 1][..n] == records[..n];
    assert (outcomes + [o])[..n] == outcomes;
  }

  /** `process_transaction_line` as one call: the facts the input loop
      relies on. */
  method Process(primes: set<string>, batchSize: int, s: State, t: Transaction, now: int) returns (r: Step)
    requires AllValid(s.store) && IdsUnique(s.store) && WellFormed(t) && Ledger.WellFormed(s.ledger.chain)
    ensures r == ProcessRecord(primes, batchSize, s, t, now)
    ensures r.state.store == Insert(s.store, t) && r.outcome == Validate(primes, r.state.store, t)
    ensures AllValid(r.state.store) && IdsUnique(r.state.store) && Ledger.WellFormed(r.state.ledger.chain)
    ensures Ledger.Held(r.state.ledger) == Ledger.Held(s.ledger) + (if r.outcome.Accepted? then [t] else [])
  {
    r := ProcessRecord(primes, batchSize, s, t, now);
    ProcessKeepsWellFormed(primes, batchSize, s, t, now);
  }

  /** The store after the first `n` records were stored in order; what is
      stored does not depend on the answers. */
  function StoredAfter(records: seq<Transaction>, n: nat): (r: seq<Transaction>)
    requires n <= |records| && AllValid(records)
    ensures AllValid(r) && IdsUnique(r)
  {
    if n == 0 then [] else Insert(StoredAfter(records, n - 1), records[n - 1])
  }

  /** The ids of the records at positions `lo` to `hi - 1`. */
  function IdsBetween(records: seq<Transaction>, lo: nat, hi: nat): set<string>
    requires hi <= |records|
  {
    set j | lo <= j < hi :: records[j].id
  }

  /** Storing record `n` keeps record `k` when it was stored before and
      no record after it up to `n` has its id. */
  lemma KeptThroughInsert(records: seq<Transaction>, n: nat, k: nat, before: seq<Transaction>, after: seq<Transaction>)
    requires k <= n < |records|
    requires records[k].id !in IdsBetween(records, k + 1, n + 1)
    requires k < n && records[k].id !in IdsBetween(records, k + 1, n) ==> records[k] in before
    requires after == Insert(before, records[n])
    ensures records[k] in after
  {
    if k < n {
      assert records[n].id in IdsBetween(records, k + 1, n + 1);
      assert IdsBetween(records, k + 1, n) <= IdsBetween(records, k + 1, n + 1);
    }
  }

  /** Every record that no later record of the same id replaced is still
      stored after the first `n` records. */
  lemma {:induction false} StoredAfterKeeps(records: seq<Transaction>, n: nat)
    requires n <= |records| && AllValid(records)
    ensures forall k :: 0 <= k < n && records[k].id !in IdsBetween(records, k + 1, n) ==> records[k] in StoredAfter(records, n)
  {
    if n > 0 {
      StoredAfterKeeps(records, n - 1);
      var before, after := StoredAfter(records, n - 1), StoredAfter(records, n);
      assert after == Insert(before, records[n - 1]);
      forall k | 0 <= k < n && records[k].id !in IdsBetween(records, k + 1, n)
        ensures records[k] in after
      {
        KeptThroughInsert(records, n - 1, k, before, after);
      }
    }
  }

  /** An answer given on the store right after record `n` was stored
      extends the answers that match their stores. */
  lemma OutcomesSnoc(primes: set<string>, records: seq<Transaction>, n: nat, outcomes: seq<Outcome>, o: Outcome)
    requires n < |records| && |outcomes| == n && AllValid(records)
    requires forall k {:trigger outcomes[k]} :: 0 <= k < n ==> outcomes[k] == Validate(primes, StoredAfter(records, k + 1), records[k])
    requires o == Validate(primes, Insert(StoredAfter(records, n), records[n]), records[n])
    ensures forall k {:trigger (outcomes + [o])[k]} :: 0 <= k < n + 1 ==> (outcomes + [o])[k] == Validate(primes, StoredAfter(records, k + 1), records[k])
  {
  }

  /** Record `n` of the input, processed after the first `n`. */
  method Advance(primes: set<string>, batchSize: int, records: seq<Transaction>, clock: seq<int>, n: nat, s: State, outcomes: seq<Outcome>)
    returns (s': State, outcomes': seq<Outcome>)
    requires n < |records| == |clock| && AllValid(records) && |outcomes| == n
    requires s.store == StoredAfter(records, n)
    requires forall k {:trigger outcomes[k]} :: 0 <= k < n ==> outcomes[k] == Validate(primes, StoredAfter(records, k + 1), records[k])
    requires Ledger.Held(s.ledger) == AcceptedOf(records[..n], outcomes)
    requires Ledger.WellFormed(s.ledger.chain)
    ensures |outcomes'| == n + 1
    ensures s'.store == StoredAfter(records, n + 1)
    ensures forall k {:trigger outcomes'[k]} :: 0 <= k < n + 1 ==> outcomes'[k] == Validate(primes, StoredAfter(records, k + 1), records[k])
    ensures Ledger.Held(s'.ledger) == AcceptedOf(records[..n + 1], outcomes')
    ensures Ledger.WellFormed(s'.ledger.chain)
  {
    var step := Process(primes, batchSize, s, records[n], clock[n]);
    AcceptedSnoc(records, n, outcomes, step.outcome);
    OutcomesSnoc(primes, records, n, outcomes, step.outcome);
    s', outcomes' := step.state, outcomes + [step.outcome];
  }

  /** The input loop of `main`: every record in order, from an empty
      store and an empty ledger. */
  method ProcessAll(primes: set<string>, batchSize: int, records: seq<Transaction>, start: int, clock: seq<int>)
    returns (s: State, outcomes: seq<Outcome>)
    requires |clock| == |records| && AllValid(records)
    ensures |outcomes| == |records|
    ensures s.store == StoredAfter(records, |records|)
    ensures forall k {:trigger outcomes[k]} :: 0 <= k < |records| ==> outcomes[k] == Validate(primes, StoredAfter(records, k + 1), records[k])
    ensures Ledger.Held(s.ledger) == AcceptedOf(records[..|records|], outcomes)
    ensures Ledger.WellFormed(s.ledger.chain)
  {
    s := State([], Ledger.Init([], start, start));
    outcomes := [];
    var i := 0;
    while i < |records|
      invariant 0 <= i <= |records| && |outcomes| == i
      invariant s.store == StoredAfter(records, i)
      invariant forall k {:trigger outcomes[k]} :: 0 <= k < i ==> outcomes[k] == Validate(primes, StoredAfter(records, k + 1), records[k])
      invariant Ledger.Held(s.ledger) == AcceptedOf(records[..i], outcomes)
      invariant Ledger.WellFormed(s.ledger.chain)
    {
      s, outcomes := Advance(primes, batchSize, records, clock, i, s, outcomes);
      i := i + 1;
    }
  }

  /** The whole input, one record at a time, from an empty store and an
      empty ledger; the answers come back in input order. Each answer is
      the window decision on the store as it stood once its record was
      stored. */
  method Run(primes: set<string>, batchSize: int, records: seq<Transaction>, start: int, clock: seq<int>)
    returns (s: State, outcomes: seq<Outcome>)
    requires |clock| == |records| && AllValid(records)
    ensures AllValid(s.store) && IdsUnique(s.store)
    ensures |outcomes| == |records|
    ensures s.store == StoredAfter(records, |records|)
    ensures forall k {:trigger outcomes[k]} :: 0 <= k < |records| ==> outcomes[k] == Validate(primes, StoredAfter(records, k + 1), records[k])
    ensures Ledger.Held(s.ledger) == AcceptedOf(records, outcomes)
    ensures Ledger.WellFormed(s.ledger.chain)
    ensures forall k :: 0 <= k < |records| && records[k].id !in IdsBetween(records, k + 1, |records|) ==> records[k] in s.store
  {
    s, outcomes := ProcessAll(primes, batchSize, records, start, clock);
    StoredAfterKeeps(records, |records|);
    TakeAll(records);
  }

  lemma TakeAll<T>(s: seq<T>)
    ensures s[..|s|] == s
  {
  }
}

=== FILE: primes.dfy ===
/** The prime-tier oracle: a sieve of Eratosthenes over `0..limit` whose
    result is the set of decimal texts of the primes found, and the
    membership test the validators apply to a transaction id. */
module Primes {
  import opened Text
  import opened Arith

  predicate Divides(d: int, k: int)
    requires d > 0
  {
    k % d == 0
  }

  function Square(d: int): int {
    d * d
  }

  /** Primality by trial division: the reference the sieve is checked against. */
  predicate IsPrime(n: int) {
    n >= 2 && forall d :: 2 <= d < n ==> !Divides(d, n)
  }

  /** No divisor `d` with `2 <= d < i` and `d * d <= k`. */
  ghost predicate NoSmallDivisor(k: int, i: int) {
    forall d :: 2 <= d < i && Square(d) <= k ==> !Divides(d, k)
  }

  /** Not yet struck out after sieving with every factor below `i`. */
  ghost predicate Unmarked(k: int, i: int)
    decreases i
  {
    if i <= 2 then k >= 2
    else Unmarked(k, i - 1) && !(Divides(i - 1, k) && Square(i - 1) <= k)
  }

  lemma {:induction false} UnmarkedMeans(k: int, i: int)
    ensures Unmarked(k, i) <==> k >= 2 && NoSmallDivisor(k, i)
    decreases i
  {
    if i > 2 {
      UnmarkedMeans(k, i - 1);
    }
  }

  lemma UnmarkedStep(k: int, i: int)
    requires i >= 2
    ensures Unmarked(k, i + 1) <==> Unmarked(k, i) && !(Divides(i, k) && Square(i) <= k)
  {
  }

  /** `int(n ** 0.5)`: the integer square root. */
  function Isqrt(n: nat): (r: nat)
    ensures Square(r) <= n < Square(r + 1)
  {
    if n == 0 then 0
    else
      var r := Isqrt(n - 1);
      if Square(r + 1) <= n then r + 1 else r
  }

  // ---- divisibility facts the sieve relies on ----

  lemma SquareMonotone(a: int, b: int)
    requires 0 <= a <= b
    ensures Square(a) <= Square(b)
  {
    MulMonotone(a, a, b);
    MulMonotone(b, a, b);
  }

  lemma MultipleDivides(d: int, m: int)
    requires d > 0
    ensures Divides(d, d * m)
  {
    DivModUnique(d, d * m, m, 0);
  }

  lemma DividesTransitive(d: int, i: int, k: int)
    requires 0 < d && 0 < i
    requires Divides(d, i) && Divides(i, k)
    ensures Divides(d, k)
  {
    var a := i / d;
    var b := k / i;
    assert i == d * a;
    assert k == i * b;
    assert k == d * (a * b);
    MultipleDivides(d, a * b);
  }

  lemma NextMultiple(i: int, j: int)
    requires i > 0 && Divides(i, j)
    ensures Divides(i, j + i)
  {
    assert j == i * (j / i);
    assert j + i == i * (j / i + 1);
    MultipleDivides(i, j / i + 1);
  }

  lemma NoMultipleBetween(i: int, j: int, k: int)
    requires i > 0 && Divides(i, j) && j < k < j + i
    ensures !Divides(i, k)
  {
    assert j == i * (j / i);
    DivModUnique(i, k, j / i, k - j);
  }

  /** A divisor strictly between 1 and `k` has a cofactor that is one too,
      and the smaller of the two is at most the square root of `k`. */
  lemma SmallCofactor(k: int, d: int) returns (s: int)
    requires 2 <= d < k && Divides(d, k)
    ensures 2 <= s && Square(s) <= k && Divides(s, k)
  {
    var e := k / d;
    assert k == d * e;
    if e <= 1 {
      MulMonotone(d, e, 1);
      assert false;
    }
    if d <= e {
      MulMonotone(d, d, e);
      s := d;
    } else {
      MulMonotone(e, e, d);
      assert k == e * d;
      MultipleDivides(e, d);
      s := e;
    }
  }

  /** A number of at least 2 with no divisor up to its square root is prime. */
  lemma PrimeBySmallDivisors(k: int)
    requires k >= 2 && NoSmallDivisor(k, k + 1)
    ensures IsPrime(k)
  {
    forall d | 2 <= d < k
      ensures !Divides(d, k)
    {
      if Divides(d, k) {
        var s := SmallCofactor(k, d);
        MulMonotone(s, 1, s);
      }
    }
  }

  lemma StepKeepsUnmarked(i: int, k: int)
    requires i >= 2 && !Unmarked(i, i)
    ensures Unmarked(k, i + 1) <==> Unmarked(k, i)
  {
    UnmarkedMeans(i, i);
    UnmarkedMeans(k, i);
    var d :| 2 <= d < i && Square(d) <= i && Divides(d, i);
    MulMonotone(i, 1, i);
    if Unmarked(k, i) && Square(i) <= k && Divides(i, k) {
      DividesTransitive(d, i, k);
    }
  }

  /** Once every factor up to the square root of `limit` has been sieved,
      the survivors up to `limit` are exactly the primes. */
  lemma SievedEnough(k: int, i: int, limit: nat, root: nat)
    requires Square(root) <= limit < Square(root + 1)
    requires i >= root + 1 && 0 <= k <= limit
    ensures Unmarked(k, i) <==> IsPrime(k)
  {
    UnmarkedMeans(k, i);
    if Unmarked(k, i) {
      forall d | 2 <= d < k + 1 && Square(d) <= k
        ensures !Divides(d, k)
      {
        if d >= i {
          SquareMonotone(root + 1, d);
          assert false;
        }
      }
      PrimeBySmallDivisors(k);
    }
    if IsPrime(k) {
      forall d | 2 <= d < i && Square(d) <= k
        ensures !Divides(d, k)
      {
        MulMonotone(d, 2, d);
        assert d < k;
      }
    }
  }

  /** `[True] * (limit + 1)` with entries 0 and 1 set to `False`; for
      `limit == 0` the slice assignment lengthens the list to two entries. */
  method InitialFlags(limit: nat) returns (flags: array<bool>)
    ensures fresh(flags)
    ensures flags.Length == if limit == 0 then 2 else limit + 1
    ensures forall k :: 0 <= k < flags.Length ==> (flags[k] <==> Unmarked(k, 2))
  {
    if limit == 0 {
      flags := new bool[2](_ => false);
    } else {
      flags := new bool[limit + 1](_ => true);
      flags[0] := false;
      flags[1] := false;
    }
  }

  /** One pass of the inner loop: strike `i*i, i*i+i, ...` up to `limit`,
      which extends the sieve from factors below `i` to factors up to `i`. */
  method StrikeMultiples(flags: array<bool>, i: nat, limit: nat)
    requires 2 <= i && Square(i) <= limit && flags.Length == limit + 1
    requires forall k :: 0 <= k < flags.Length ==> (flags[k] <==> Unmarked(k, i))
    modifies flags
    ensures forall k :: 0 <= k < flags.Length ==> (flags[k] <==> Unmarked(k, i + 1))
  {
    var j := Square(i);
    MultipleDivides(i, i);
    while j <= limit
      invariant Square(i) <= j && Divides(i, j)
      invariant forall k :: 0 <= k < flags.Length ==>
        (flags[k] <==> Unmarked(k, i) && !(Divides(i, k) && Square(i) <= k < j))
    {
      flags[j] := false;
      NextMultiple(i, j);
      forall k | j < k < j + i
        ensures !Divides(i, k)
      {
        NoMultipleBetween(i, j, k);
      }
      j := j + i;
    }
    forall k | 0 <= k < flags.Length
      ensures flags[k] <==> Unmarked(k, i + 1)
    {
      UnmarkedStep(k, i);
    }
  }

  /** The sieve of Eratosthenes: entry `k` ends true exactly when `k` is prime. */
  method Sieve(limit: nat) returns (flags: array<bool>)
    ensures flags.Length == if limit == 0 then 2 else limit + 1
    ensures forall k :: 0 <= k < flags.Length ==> (flags[k] <==> IsPrime(k))
  {
    flags := InitialFlags(limit);
    var root := Isqrt(limit);
    var i := 2;
    while i <= root
      invariant 2 <= i <= root + 1 || i == 2
      invariant forall k :: 0 <= k < flags.Length ==> (flags[k] <==> Unmarked(k, i))
    {
      SquareMonotone(i, root);
      if flags[i] {
        StrikeMultiples(flags, i, limit);
      } else {
        forall k | 0 <= k < flags.Length
          ensures flags[k] <==> Unmarked(k, i + 1)
        {
          StepKeepsUnmarked(i, k);
        }
      }
      i := i + 1;
    }
    forall k | 0 <= k < flags.Length
      ensures flags[k] <==> IsPrime(k)
    {
      if k <= limit {
        SievedEnough(k, i, limit, root);
      }
    }
  }

  /** The sieve's result holds exactly the decimal texts of the primes up to `limit`. */
  ghost predicate PrimeSetFor(primes: set<string>, limit: nat) {
    forall n: nat :: NatText(n) in primes <==> n <= limit && IsPrime(n)
  }

  /** `generate_prime_set(limit)`. */
  method GeneratePrimeSet(limit: nat) returns (primes: set<string>)
    ensures PrimeSetFor(primes, limit)
    ensures forall t :: t in primes ==> exists n: nat :: n <= limit && IsPrime(n) && t == NatText(n)
    ensures forall n: nat :: IsPrimeId(primes, n) <==> 2 <= n <= limit && IsPrime(n)
    ensures !IsPrimeId(primes, 0) && !IsPrimeId(primes, 1)
  {
    var flags := Sieve(limit);
    primes := set k | 0 <= k < flags.Length && flags[k] :: NatText(k);
    forall n: nat
      ensures NatText(n) in primes <==> n <= limit && IsPrime(n)
    {
      if NatText(n) in primes {
        var k :| 0 <= k < flags.Length && flags[k] && NatText(k) == NatText(n);
        NatTextInjective(k, n);
      }
    }
  }

  /** `is_prime(n)`: membership of `str(n)` in the prime set. */
  predicate IsPrimeId(primes: set<string>, n: nat) {
    NatText(n) in primes
  }

  // ---- trial division for concrete numbers ----

  /** No divisor among `d, d + 1, ...` up to the square root of `n`. */
  predicate NoDivisorFrom(n: nat, d: nat)
    requires d >= 2
    decreases n + 1 - d
  {
    d > n || Square(d) > n || (!Divides(d, n) && NoDivisorFrom(n, d + 1))
  }

  lemma {:induction false} NoDivisorFromMeans(n: nat, d: nat)
    requires d >= 2 && NoDivisorFrom(n, d)
    ensures forall e :: d <= e && Square(e) <= n ==> !Divides(e, n)
    decreases n + 1 - d
  {
    if d > n || Square(d) > n {
      forall e | d <= e
        ensures Square(e) > n
      {
        SquareMonotone(d, e);
        MulAtLeast(d, d);
      }
    } else {
      NoDivisorFromMeans(n, d + 1);
    }
  }

  /** Trial division up to the square root decides primality. */
  lemma PrimeByTrialDivision(n: nat)
    requires n >= 2 && NoDivisorFrom(n, 2)
    ensures IsPrime(n)
  {
    NoDivisorFromMeans(n, 2);
    PrimeBySmallDivisors(n);
  }

  /** The small primes and composites of the validator's tests. */
  lemma SmallPrimeExamples()
    ensures IsPrime(2) && IsPrime(3) && IsPrime(97)
    ensures !IsPrime(4) && !IsPrime(100) && !IsPrime(1530) && !IsPrime(6500) && !IsPrime(10000)
  {
    PrimeByTrialDivision(2);
    PrimeByTrialDivision(3);
    PrimeByTrialDivision(97);
    assert Divides(2, 4) && Divides(2, 100) && Divides(2, 1530) && Divides(2, 6500) && Divides(2, 10000);
  }
}

=== FILE: results.dfy ===
/** Failure-compatible result type shared by the parsers of the model. */
module Results {

  /** Either a value or an error; usable with `:-`. */
  datatype Result<+T, +E> = Success(value: T) | Failure(error: E) {

    predicate IsFailure() {
      Failure?
    }

    function PropagateFailure<U>(): Result<U, E>
      requires Failure?
    {
      Failure(error)
    }

    function Extract(): T
      requires Success?
    {
      value
    }
  }

  datatype Option<+T> = None | Some(value: T)
}

=== FILE: size_ledger.dfy ===
/** The unvalidated blockchain draft: every transaction handed to it joins
    the pending buffer, and the buffer is sealed as soon as it holds
    `batch_size` transactions (default 1). There is no time condition. */
module SizeLedger {
  import opened Arith
  import opened Ledger

  const DefaultBatchSize: int := 1

  /** `should_create_block`: the size condition alone. */
  predicate ShouldCreateBlock<T>(batchSize: int, l: Ledger<T>) {
    |l.pending| >= batchSize
  }

  /** `add_transaction`, which always answers `True`; `now` is the clock
      reading used both as the block timestamp and as the seal time. */
  function AddTransaction<T>(batchSize: int, l: Ledger<T>, t: T, now: int): (r: Ledger<T>)
    ensures Held(r) == Held(l) + [t]
    ensures |l.pending| + 1 >= batchSize ==>
      && r.chain == l.chain + [Block(|l.chain| + 1, NextPreviousHash(l.chain), now, l.pending + [t])]
      && r.pending == []
    ensures |l.pending| + 1 < batchSize ==> r.chain == l.chain && r.pending == l.pending + [t]
  {
    var grown := Ledger(l.chain, l.pending + [t], l.lastBlockTime);
    if ShouldCreateBlock(batchSize, grown) then
      CreateBlock(grown, NextPreviousHash(l.chain), now, now).ledger
    else
      grown
  }

  /** With a positive batch size the buffer never reaches the batch size
      once an add has returned. */
  lemma PendingStaysBelowBatch<T>(batchSize: int, l: Ledger<T>, t: T, now: int)
    requires 1 <= batchSize && |l.pending| < batchSize
    ensures |AddTransaction(batchSize, l, t, now).pending| < batchSize
  {
  }

  /** A record seals the buffer, itself included, exactly when the buffer
      reaches the batch size; the time since the last seal plays no part. */
  lemma SealsIffFull<T>(batchSize: int, l: Ledger<T>, t: T, now: int, lastSeal: int)
    ensures var r := AddTransaction(batchSize, l, t, now);
      && (|r.chain| == |l.chain| + 1 <==> |l.pending| + 1 >= batchSize)
      && (r.pending == [] <==> |l.pending| + 1 >= batchSize)
      && (|r.chain| == |l.chain| <==> |l.pending| + 1 < batchSize)
      && r == AddTransaction(batchSize, l.(lastBlockTime := lastSeal), t, now).(lastBlockTime := r.lastBlockTime)
  {
  }

  /** Adding keeps the chain well-formed and never shortens it. */
  lemma AddPreservesWellFormed<T>(batchSize: int, l: Ledger<T>, t: T, now: int)
    requires WellFormed(l.chain)
    ensures var r := AddTransaction(batchSize, l, t, now);
      WellFormed(r.chain) && |r.chain| >= |l.chain| && r.chain[..|l.chain|] == l.chain
  {
    CreateBlockPreservesWellFormed(Ledger(l.chain, l.pending + [t], l.lastBlockTime), now, now);
  }

  /** Every block of the chain holds exactly `batchSize` transactions. */
  ghost predicate FullBlocks<T>(chain: seq<Block<T>>, batchSize: int) {
    forall k :: 0 <= k < |chain| ==> |chain[k].transactions| == batchSize
  }

  lemma CountStep(n: int, b: int)
    requires n >= 0 && b >= 1
    ensures 0 <= n % b < b
    ensures n % b + 1 == b ==> (n + 1) / b == n / b + 1 && (n + 1) % b == 0
    ensures n % b + 1 < b ==> (n + 1) / b == n / b && (n + 1) % b == n % b + 1
  {
    var q, r := n / b, n % b;
    if r + 1 < b {
      DivModUnique(b, n + 1, q, r + 1);
    } else {
      DivModUnique(b, n + 1, q + 1, 0);
    }
  }

  /** After `n` adds from empty: full blocks, then a partial buffer. */
  ghost predicate BatchShape<T>(l: Ledger<T>, batchSize: int, n: int)
    requires batchSize >= 1
  {
    && WellFormed(l.chain) && FullBlocks(l.chain, batchSize)
    && |l.chain| == n / batchSize && |l.pending| == n % batchSize
  }

  /** One add either seals a full block or grows the buffer by one. */
  lemma AddCounts<T>(batchSize: int, l: Ledger<T>, t: T, now: int)
    requires batchSize >= 1 && WellFormed(l.chain) && FullBlocks(l.chain, batchSize)
    requires |l.pending| < batchSize
    ensures var r := AddTransaction(batchSize, l, t, now);
      && WellFormed(r.chain) && FullBlocks(r.chain, batchSize)
      && (|l.pending| + 1 == batchSize ==> |r.chain| == |l.chain| + 1 && |r.pending| == 0)
      && (|l.pending| + 1 < batchSize ==> |r.chain| == |l.chain| && |r.pending| == |l.pending| + 1)
  {
    AddPreservesWellFormed(batchSize, l, t, now);
    var r := AddTransaction(batchSize, l, t, now);
    if |l.pending| + 1 == batchSize {
      forall k | 0 <= k < |r.chain|
        ensures |r.chain[k].transactions| == batchSize
      {
        if k < |l.chain| {
          assert r.chain[k] == l.chain[k];
        }
      }
    }
  }

  lemma {:induction false} AddKeepsShape<T>(batchSize: int, l: Ledger<T>, n: nat, t: T, now: int)
    requires batchSize >= 1 && BatchShape(l, batchSize, n)
    ensures BatchShape(AddTransaction(batchSize, l, t, now), batchSize, n + 1)
  {
    CountStep(n, batchSize);
    AddCounts(batchSize, l, t, now);
  }

  /** The ledger the constructor builds on empty storage, after the
      transactions `txs` are added one by one. */
  function Run<T>(batchSize: int, txs: seq<T>, start: int, clock: seq<int>): (l: Ledger<T>)
    requires batchSize >= 1 && |clock| == |txs|
    ensures Held(l) == txs
    ensures WellFormed(l.chain) && FullBlocks(l.chain, batchSize)
    ensures |l.chain| == |txs| / batchSize && |l.pending| == |txs| % batchSize
  {
    if |txs| == 0 then Init([], start, start)
    else
      var n := |txs| - 1;
      var prev := Run(batchSize, txs[..n], start, clock[..n]);
      AddKeepsShape(batchSize, prev, n, txs[n], clock[n]);
      assert txs[..n] + [txs[n]] == txs;
      AddTransaction(batchSize, prev, txs[n], clock[n])
  }
}

=== FILE: store.dfy ===
/** The transaction store behind the rolling-window validator, as an
    in-memory sequence: one body per transaction id, and a per-customer
    index ordered by epoch second that answers closed-interval range
    queries newest first (the `zrevrangebyscore` reading). */
module Store {
  import opened Calendar
  import opened DatedTransactions

  /** Every record is a constructed transaction, so its epoch is defined. */
  predicate AllValid(rs: seq<Transaction>) {
    forall k :: 0 <= k < |rs| ==> WellFormed(rs[k])
  }

  /** No two records share an id. */
  predicate IdsUnique(rs: seq<Transaction>) {
    forall i, j :: 0 <= i < j < |rs| ==> rs[i].id != rs[j].id
  }

  /** The records whose id is not `id`, in order. */
  function Without(rs: seq<Transaction>, id: string): (r: seq<Transaction>)
    ensures forall x :: x in r <==> x in rs && x.id != id
    ensures IdsUnique(rs) ==> IdsUnique(r)
  {
    if |rs| == 0 then []
    else
      var rest := Without(rs[..|rs| - 1], id);
      var last := rs[|rs| - 1];
      assert rs == rs[..|rs| - 1] + [last];
      if last.id == id then rest else rest + [last]
  }

  /** `store_customer_transaction`: storing an id again replaces its body. */
  function Insert(rs: seq<Transaction>, t: Transaction): (r: seq<Transaction>)
    ensures t in r
    ensures forall x :: x in r <==> x == t || (x in rs && x.id != t.id)
    ensures IdsUnique(rs) ==> IdsUnique(r)
    ensures AllValid(rs) && WellFormed(t) ==> AllValid(r)
  {
    Without(rs, t.id) + [t]
  }

  /** In the customer's index with a score in `[lo, hi]`. */
  predicate InRange(x: Transaction, customer: string, lo: int, hi: int)
    requires WellFormed(x)
  {
    x.customerId == customer && lo <= Epoch(x) <= hi
  }

  /** The records in range, in store order. */
  function Matching(rs: seq<Transaction>, customer: string, lo: int, hi: int): (r: seq<Transaction>)
    requires AllValid(rs)
    ensures AllValid(r)
  {
    if |rs| == 0 then []
    else
      var rest := Matching(rs[..|rs| - 1], customer, lo, hi);
      var last := rs[|rs| - 1];
      if InRange(last, customer, lo, hi) then rest + [last] else rest
  }

  /** The range match keeps exactly the records in range. */
  lemma {:induction false} MatchingMembers(rs: seq<Transaction>, customer: string, lo: int, hi: int)
    requires AllValid(rs)
    ensures forall x :: x in Matching(rs, customer, lo, hi) <==> x in rs && InRange(x, customer, lo, hi)
  {
    if |rs| > 0 {
      MatchingMembers(rs[..|rs| - 1], customer, lo, hi);
      assert rs == rs[..|rs| - 1] + [rs[|rs| - 1]];
    }
  }

  /** Newest first: epochs never increase along the sequence. */
  predicate NewestFirst(rs: seq<Transaction>)
    requires AllValid(rs)
  {
    forall i, j :: 0 <= i < j < |rs| ==> Epoch(rs[i]) >= Epoch(rs[j])
  }

  /** Place `x` after the leading records at least as new as it. */
  function Place(x: Transaction, rs: seq<Transaction>): (r: seq<Transaction>)
    requires WellFormed(x) && AllValid(rs)
    ensures multiset(r) == multiset(rs) + multiset{x}
    ensures AllValid(r) && |r| == |rs| + 1
    ensures r[0] == x || (|rs| > 0 && r[0] == rs[0])
  {
    if |rs| == 0 || Epoch(rs[0]) < Epoch(x) then [x] + rs
    else
      assert rs == [rs[0]] + rs[1..];
      [rs[0]] + Place(x, rs[1..])
  }

  /** A record at least as new as every record of a newest-first list can
      go in front of it. */
  lemma ConsKeepsOrder(h: Transaction, rest: seq<Transaction>)
    requires WellFormed(h) && AllValid(rest) && NewestFirst(rest)
    requires forall k :: 0 <= k < |rest| ==> Epoch(h) >= Epoch(rest[k])
    ensures AllValid([h] + rest) && NewestFirst([h] + rest)
  {
    var r := [h] + rest;
    forall i, j | 0 <= i < j < |r|
      ensures Epoch(r[i]) >= Epoch(r[j])
    {
      assert r[j] == rest[j - 1];
      if i > 0 {
        assert r[i] == rest[i - 1];
      }
    }
  }

  lemma TailNewestFirst(rs: seq<Transaction>)
    requires |rs| > 0 && AllValid(rs) && NewestFirst(rs)
    ensures AllValid(rs[1..]) && NewestFirst(rs[1..])
  {
    var tail := rs[1..];
    forall i, j | 0 <= i < j < |tail|
      ensures Epoch(tail[i]) >= Epoch(tail[j])
    {
      assert tail[i] == rs[i + 1] && tail[j] == rs[j + 1];
    }
  }

  /** The head of a newest-first list, if at least as new as `x`, is at
      least as new as everything `x` is placed among in the tail. */
  lemma HeadBoundsPlace(x: Transaction, rs: seq<Transaction>)
    requires |rs| > 0 && WellFormed(x) && AllValid(rs) && NewestFirst(rs) && Epoch(rs[0]) >= Epoch(x)
    ensures AllValid(rs[1..])
    ensures forall k :: 0 <= k < |Place(x, rs[1..])| ==> Epoch(rs[0]) >= Epoch(Place(x, rs[1..])[k])
  {
    var tail := rs[1..];
    assert AllValid(tail);
    var rest := Place(x, tail);
    forall k | 0 <= k < |rest|
      ensures Epoch(rs[0]) >= Epoch(rest[k])
    {
      assert rest[k] in multiset(tail) + multiset{x};
      if rest[k] != x {
        assert rest[k] in tail;
        var m :| 0 <= m < |tail| && tail[m] == rest[k];
        assert tail[m] == rs[m + 1];
      }
    }
  }

  lemma {:induction false} PlaceKeepsOrder(x: Transaction, rs: seq<Transaction>)
    requires WellFormed(x) && AllValid(rs) && NewestFirst(rs)
    ensures NewestFirst(Place(x, rs))
  {
    if |rs| > 0 && Epoch(rs[0]) >= Epoch(x) {
      TailNewestFirst(rs);
      PlaceKeepsOrder(x, rs[1..]);
      HeadBoundsPlace(x, rs);
      ConsKeepsOrder(rs[0], Place(x, rs[1..]));
    }
  }

  /** Sort newest first. Records with the same epoch keep no particular order. */
  function SortNewestFirst(rs: seq<Transaction>): (r: seq<Transaction>)
    requires AllValid(rs)
    ensures multiset(r) == multiset(rs)
    ensures AllValid(r) && NewestFirst(r)
  {
    if |rs| == 0 then []
    else
      var init := rs[..|rs| - 1];
      assert rs == init + [rs[|rs| - 1]];
      PlaceKeepsOrder(rs[|rs| - 1], SortNewestFirst(init));
      Place(rs[|rs| - 1], SortNewestFirst(init))
  }

  /** `get_customer_transactions(customer, lo, hi)`: exactly the customer's
      records with epoch in the closed interval `[lo, hi]`, newest first. */
  function RangeQuery(rs: seq<Transaction>, customer: string, lo: int, hi: int): (r: seq<Transaction>)
    requires AllValid(rs)
    ensures AllValid(r) && NewestFirst(r)
    ensures multiset(r) == multiset(Matching(rs, customer, lo, hi))
    ensures forall x :: x in r <==> x in rs && InRange(x, customer, lo, hi)
  {
    var m := Matching(rs, customer, lo, hi);
    MatchingMembers(rs, customer, lo, hi);
    var r := SortNewestFirst(m);
    assert forall x :: x in r <==> x in m by {
      forall x ensures x in r <==> x in m {
        assert x in r <==> x in multiset(r);
        assert x in m <==> x in multiset(m);
      }
    }
    r
  }
}

=== FILE: text.dfy ===
/** ASCII digit strings and their natural-number values, as used by the
    `^\d+$` id patterns, `int(...)` and `str(...)` of the source. */
module Text {

  predicate IsDigit(c: char) {
    '0' <= c <= '9'
  }

  predicate AllDigits(s: string) {
    forall i :: 0 <= i < |s| ==> IsDigit(s[i])
  }

  /** The `^\d+$` pattern: a non-empty string of ASCII digits. */
  predicate IsDigitString(s: string) {
    |s| > 0 && AllDigits(s)
  }

  function DigitValue(c: char): (d: nat)
    requires IsDigit(c)
    ensures d < 10
  {
    c as int - '0' as int
  }

  function DigitChar(d: nat): (c: char)
    requires d < 10
    ensures IsDigit(c) && DigitValue(c) == d
  {
    ('0' as int + d) as char
  }

  /** `int(s)` of a digit string. */
  function ParseNat(s: string): nat
    requires AllDigits(s)
  {
    if |s| == 0 then 0 else ParseNat(s[..|s| - 1]) * 10 + DigitValue(s[|s| - 1])
  }

  /** `str(n)` of a natural number: decimal text without leading zeros. */
  function NatText(n: nat): (r: string)
    ensures IsDigitString(r)
    ensures r[0] == '0' ==> n == 0
    decreases n
  {
    if n < 10 then [DigitChar(n)] else NatText(n / 10) + [DigitChar(n % 10)]
  }

  /** `int(str(n)) == n`. */
  lemma {:induction false} ParseNatText(n: nat)
    ensures ParseNat(NatText(n)) == n
    decreases n
  {
    if n >= 10 {
      var t := NatText(n);
      assert t[..|t| - 1] == NatText(n / 10);
      ParseNatText(n / 10);
    }
  }

  /** Distinct numbers have distinct decimal texts. */
  lemma NatTextInjective(a: nat, b: nat)
    ensures NatText(a) == NatText(b) <==> a == b
  {
    if NatText(a) == NatText(b) {
      ParseNatText(a);
      ParseNatText(b);
    }
  }
}

=== FILE: timed_ledger.dfy ===
/** The validating blockchain draft: an accepted transaction joins the
    pending buffer, which is sealed once it holds `batch_size` transactions
    or once `batch_interval` has passed since the last seal. Times are whole
    seconds; `now` stands for the clock readings taken during one call. */
module TimedLedger {
  import opened Results
  import opened Ledger

  /** `batch_size` (default 100) and `batch_interval` in seconds (default one hour). */
  datatype Config = Config(batchSize: int, batchInterval: int)

  const DefaultConfig: Config := Config(100, 3600)

  /** Result of `add_transaction`: the ledger afterwards and the returned flag. */
  datatype Added<T> = Added(ledger: Ledger<T>, accepted: bool)

  /** `should_create_block`. */
  predicate ShouldCreateBlock<T>(cfg: Config, l: Ledger<T>, now: int) {
    now - l.lastBlockTime >= cfg.batchInterval || |l.pending| >= cfg.batchSize
  }

  /** `ValidatedBlockchain.add_transaction` once the validator has answered:
      `verdict` is `None` for a rejection and otherwise the transaction as the
      validator left it. */
  function AddTransaction<T>(cfg: Config, l: Ledger<T>, verdict: Option<T>, now: int): (r: Added<T>)
    ensures r.accepted <==> verdict.Some?
    ensures verdict.None? ==> r.ledger == l
    ensures verdict.Some? ==> Held(r.ledger) == Held(l) + [verdict.value]
    ensures verdict.Some? ==>
      var grown := Ledger(l.chain, l.pending + [verdict.value], l.lastBlockTime);
      if ShouldCreateBlock(cfg, grown, now) then
        && r.ledger.chain == l.chain + [Block(|l.chain| + 1, NextPreviousHash(l.chain), now, l.pending + [verdict.value])]
        && r.ledger.pending == []
        && r.ledger.lastBlockTime == now
      else
        r.ledger == grown
  {
    match verdict
    case None => Added(l, false)
    case Some(t) =>
      var grown := Ledger(l.chain, l.pending + [t], l.lastBlockTime);
      if ShouldCreateBlock(cfg, grown, now) then
        Added(CreateBlock(grown, NextPreviousHash(l.chain), now, now).ledger, true)
      else
        Added(grown, true)
  }

  /** An accepted record seals the buffer, itself included, exactly when
      the batch interval has elapsed since the last seal or the buffer
      reaches the batch size; otherwise the chain stays as it was and the
      buffer keeps the record. */
  lemma SealsIffDue<T>(cfg: Config, l: Ledger<T>, t: T, now: int)
    ensures var r := AddTransaction(cfg, l, Some(t), now).ledger;
      && (|r.chain| == |l.chain| + 1 <==> now - l.lastBlockTime >= cfg.batchInterval || |l.pending| + 1 >= cfg.batchSize)
      && (r.pending == [] <==> now - l.lastBlockTime >= cfg.batchInterval || |l.pending| + 1 >= cfg.batchSize)
      && (|r.chain| == |l.chain| <==> now - l.lastBlockTime < cfg.batchInterval && |l.pending| + 1 < cfg.batchSize)
  {
  }

  /** Adding keeps the chain well-formed and only ever appends blocks. */
  lemma {:induction false} AddPreservesWellFormed<T>(cfg: Config, l: Ledger<T>, verdict: Option<T>, now: int)
    requires WellFormed(l.chain)
    ensures var r := AddTransaction(cfg, l, verdict, now).ledger;
      WellFormed(r.chain) && r.chain[..|l.chain|] == l.chain
  {
    if verdict.Some? {
      var grown := Ledger(l.chain, l.pending + [verdict.value], l.lastBlockTime);
      CreateBlockPreservesWellFormed(grown, now, now);
    }
  }

  /** A ledger started on empty storage and fed any sequence of verdicts. */
  function Run<T>(cfg: Config, verdicts: seq<Option<T>>, start: int, clock: seq<int>): (l: Ledger<T>)
    requires |clock| == |verdicts|
    ensures WellFormed(l.chain)
    ensures Held(l) == Accepted(verdicts)
  {
    if |verdicts| == 0 then Init([], 0, start)
    else
      var prev := Run(cfg, verdicts[..|verdicts| - 1], start, clock[..|clock| - 1]);
      AddPreservesWellFormed(cfg, prev, verdicts[|verdicts| - 1], clock[|clock| - 1]);
      AddTransaction(cfg, prev, verdicts[|verdicts| - 1], clock[|clock| - 1]).ledger
  }

  /** The accepted transactions among a sequence of verdicts, in order. */
  function Accepted<T>(verdicts: seq<Option<T>>): seq<T> {
    if |verdicts| == 0 then []
    else
      var last := match verdicts[|verdicts| - 1] case None => [] case Some(t) => [t];
      Accepted(verdicts[..|verdicts| - 1]) + last
  }

  /** On empty storage no genesis block is made: the chain stays empty until
      the first seal, and `get_chain` never shows pending transactions. */
  lemma NoGenesisBlock<T>(cfg: Config, now: int, t: T, later: int)
    requires cfg.batchSize > 1 && later - now < cfg.batchInterval
    ensures |GetChain(Init<T>([], 0, now))| == 0
    ensures |GetChain(AddTransaction(cfg, Init<T>([], 0, now), Some(t), later).ledger)| == 0
  {
  }
}

=== FILE: transaction_fields.dfy ===
/** The checks both `Transaction` drafts share: the required-field scan, the
    id checks, the error vocabulary, and the dictionary values `to_dict`
    produces together with their `str()` renderings. */
module TransactionFields {
  import opened Results
  import opened Text
  import opened Formats

  /** The `ValueError`s the constructors raise, one per message. */
  datatype FieldError =
    | MissingField(name: string)
    | MissingDictField(name: string)
    | InvalidTransactionId(text: string)
    | InvalidCustomerId(text: string)
    | InvalidTimestamp(text: string)
    | InvalidAmount(text: string)
    | AmountNotNumeric(text: string)

  /** A value of a `to_dict` dictionary: an int, a str, or an amount (a
      float in the source, integer cents here). */
  datatype Field = Int(n: nat) | Text(s: string) | Amount(cents: nat)

  const RequiredFields: seq<string> := ["id", "customer_id", "time", "load_amount"]
  const RequiredDictFields: seq<string> := ["id", "customer_id", "transaction_datetime", "load_amount"]

  /** The first of `fields` missing from `keys`, scanning in order. */
  function FirstMissing(keys: set<string>, fields: seq<string>): (r: Option<nat>)
    ensures r.None? <==> forall k :: 0 <= k < |fields| ==> fields[k] in keys
    ensures r.Some? ==>
      && r.value < |fields| && fields[r.value] !in keys
      && forall j :: 0 <= j < r.value ==> fields[j] in keys
  {
    if |fields| == 0 then None
    else if fields[0] !in keys then Some(0)
    else match FirstMissing(keys, fields[1..])
      case None => None
      case Some(k) => Some(k + 1)
  }

  /** `_validate_required_fields`: the first missing field is named. */
  function ValidateRequiredFields<V>(data: map<string, V>): (r: Result<(), FieldError>)
    ensures r.Success? <==> "id" in data && "customer_id" in data && "time" in data && "load_amount" in data
    ensures "id" !in data ==> r == Failure(MissingField("id"))
    ensures "id" in data && "customer_id" !in data ==> r == Failure(MissingField("customer_id"))
    ensures "id" in data && "customer_id" in data && "time" !in data ==> r == Failure(MissingField("time"))
    ensures "id" in data && "customer_id" in data && "time" in data && "load_amount" !in data
      ==> r == Failure(MissingField("load_amount"))
  {
    assert RequiredFields[0] == "id" && RequiredFields[1] == "customer_id";
    assert RequiredFields[2] == "time" && RequiredFields[3] == "load_amount";
    match FirstMissing(data.Keys, RequiredFields)
    case None => Success(())
    case Some(k) => Failure(MissingField(RequiredFields[k]))
  }

  /** `_validate_transaction_id`. */
  function ValidateTransactionId(s: string): (r: Result<string, FieldError>)
    ensures r.Success? <==> MatchesIdFormat(s)
    ensures r.Success? ==> r.value == s
    ensures r.Failure? ==> r.error == InvalidTransactionId(s)
  {
    if MatchesIdFormat(s) then Success(s) else Failure(InvalidTransactionId(s))
  }

  /** `_validate_customer_id`. */
  function ValidateCustomerId(s: string): (r: Result<string, FieldError>)
    ensures r.Success? <==> MatchesIdFormat(s)
    ensures r.Success? ==> r.value == s
    ensures r.Failure? ==> r.error == InvalidCustomerId(s)
  {
    if MatchesIdFormat(s) then Success(s) else Failure(InvalidCustomerId(s))
  }

  /** `str(x)` of a float holding `cents / 100`: the shortest rendering,
      which keeps one fractional digit when the cents are a multiple of 10. */
  function FloatText(cents: nat): string {
    var frac := cents % 100;
    NatText(cents / 100) + "."
      + (if frac == 0 then "0" else if frac % 10 == 0 then [DigitChar(frac / 10)] else Pad2(frac))
  }

  /** A two-decimal rendering of cents, the form the amount pattern wants. */
  function CentsText(cents: nat): string {
    NatText(cents / 100) + "." + Pad2(cents % 100)
  }

  /** `str()` of a dictionary value, rendering amounts with `amountText`. */
  function FieldText(f: Field, amountText: nat -> string): string {
    match f
    case Int(n) => NatText(n)
    case Text(s) => s
    case Amount(c) => amountText(c)
  }

  /** The first half of `from_dict`: check the four keys, then rebuild the
      raw record the constructor reads, prefixing the amount with `$`. */
  function Reassemble(data: map<string, Field>, amountText: nat -> string): (r: Result<map<string, string>, FieldError>)
    ensures r.Success? <==>
      "id" in data && "customer_id" in data && "transaction_datetime" in data && "load_amount" in data
    ensures r.Success? ==> r.value == map[
      "id" := FieldText(data["id"], amountText),
      "customer_id" := FieldText(data["customer_id"], amountText),
      "time" := FieldText(data["transaction_datetime"], amountText),
      "load_amount" := "$" + FieldText(data["load_amount"], amountText)]
    ensures "id" !in data ==> r == Failure(MissingDictField("id"))
    ensures "id" in data && "customer_id" !in data ==> r == Failure(MissingDictField("customer_id"))
    ensures "id" in data && "customer_id" in data && "transaction_datetime" !in data ==>
      r == Failure(MissingDictField("transaction_datetime"))
    ensures "id" in data && "customer_id" in data && "transaction_datetime" in data && "load_amount" !in data ==>
      r == Failure(MissingDictField("load_amount"))
  {
    assert RequiredDictFields[0] == "id" && RequiredDictFields[1] == "customer_id";
    assert RequiredDictFields[2] == "transaction_datetime" && RequiredDictFields[3] == "load_amount";
    match FirstMissing(data.Keys, RequiredDictFields)
    case Some(k) => Failure(MissingDictField(RequiredDictFields[k]))
    case None =>
      Success(map["id" := FieldText(data["id"], amountText),
                  "customer_id" := FieldText(data["customer_id"], amountText),
                  "time" := FieldText(data["transaction_datetime"], amountText),
                  "load_amount" := "$" + FieldText(data["load_amount"], amountText)])
  }

  lemma DollarCentsText(cents: nat)
    ensures IsDollarAmount("$" + CentsText(cents))
    ensures DollarCents("$" + CentsText(cents)) == cents
  {
    var t := "$" + CentsText(cents);
    var whole := NatText(cents / 100);
    assert t[1..|t| - 3] == whole;
    ParseNatText(cents / 100);
  }

  /** `"$" + str(amount)` passes the amount pattern exactly when the amount
      has a non-zero cent digit, and then reads back as the same amount. */
  lemma FloatTextAmount(cents: nat)
    ensures IsDollarAmount("$" + FloatText(cents)) <==> cents % 10 != 0
    ensures cents % 10 != 0 ==> FloatText(cents) == CentsText(cents)
  {
    var t := "$" + FloatText(cents);
    if cents % 10 != 0 {
      assert cents % 100 % 10 != 0;
      assert FloatText(cents) == CentsText(cents);
      DollarCentsText(cents);
    } else {
      var whole := NatText(cents / 100);
      assert |t| == |whole| + 3;
      assert t[|t| - 3] == whole[|whole| - 1];
    }
  }

  lemma NotUsdPrefixed(cents: nat)
    ensures !HasUsdPrefix("$" + CentsText(cents))
    ensures !HasUsdPrefix("$" + FloatText(cents))
  {
    assert ("$" + CentsText(cents))[0] == '$';
    assert ("$" + FloatText(cents))[0] == '$';
  }
}

=== FILE: transactions.dfy ===
/** The string-field `Transaction` draft: the constructor validates the raw
    record field by field, stopping at the first failure, and keeps the
    date, clock time and full timestamp as slices of the input text. */
module Transactions {
  import opened Results
  import opened Text
  import opened Formats
  import opened TransactionFields
  import opened Calendar

  datatype Transaction = Transaction(
    id: nat,
    customerId: string,
    date: string,
    time: string,
    datetime: string,
    amount: nat)

  /** What every constructed transaction satisfies: a digit-string customer,
      an accepted timestamp, and date and clock parts sliced from it. */
  predicate WellFormed(t: Transaction) {
    && MatchesIdFormat(t.customerId)
    && ParseTimestamp(t.datetime).Some?
    && t.date == t.datetime[..10]
    && t.time == t.datetime[11..]
  }

  /** The calendar date of a constructed transaction, as `strptime` reads
      its `transaction_date` text. */
  function DateOf(t: Transaction): (d: Date)
    requires WellFormed(t)
    ensures ValidDate(d) && ParseDateText(t.date) == Some(d)
  {
    TimestampDatePart(t.datetime);
    ParseTimestamp(t.datetime).value.date
  }

  /** `_process_timestamp_field`: date, clock-with-`Z`, and the input itself. */
  function ProcessTimestamp(s: string): (r: Result<(string, string, string), FieldError>)
    ensures r.Success? <==> ParseTimestamp(s).Some?
    ensures r.Failure? ==> r.error == InvalidTimestamp(s)
    ensures r.Success? ==>
      && ParseDateText(r.value.0) == Some(ParseTimestamp(s).value.date)
      && |r.value.1| == 9 && r.value.1[8] == 'Z'
      && r.value.0 + "T" + r.value.1 == s
  {
    if ParseTimestamp(s).None? then Failure(InvalidTimestamp(s))
    else
      TimestampDatePart(s);
      assert s == s[..10] + "T" + s[11..];
      Success((s[..10], s[11..], s))
  }

  /** `_process_amount_field`: only `$` is removed before `float()`, so a
      `USD`-prefixed amount passes the pattern and then fails conversion. */
  function ProcessAmount(s: string): (r: Result<nat, FieldError>)
    ensures r.Success? <==> IsDollarAmount(s)
    ensures !MatchesAmountPattern(s) ==> r == Failure(InvalidAmount(s))
    ensures MatchesAmountPattern(s) && !IsDollarAmount(s) ==> r == Failure(AmountNotNumeric(s))
    ensures r.Success? ==> r.value == DollarCents(s)
  {
    if !MatchesAmountPattern(s) then Failure(InvalidAmount(s))
    else if !IsDollarAmount(s) then Failure(AmountNotNumeric(s))
    else Success(DollarCents(s))
  }

  /** A `USD$` amount passes the pattern and then fails the conversion:
      only the `$` is stripped before `float()`. */
  lemma UsdAmountNotNumeric(s: string)
    requires IsDollarAmount(s)
    ensures ProcessAmount("USD" + s) == Failure(AmountNotNumeric("USD" + s))
  {
    var u := "USD" + s;
    assert u[3..] == s;
    assert u[0] == 'U';
  }

  /** The inputs the constructor accepts. */
  predicate Acceptable(data: map<string, string>) {
    && "id" in data && "customer_id" in data && "time" in data && "load_amount" in data
    && MatchesIdFormat(data["id"])
    && MatchesIdFormat(data["customer_id"])
    && ParseTimestamp(data["time"]).Some?
    && IsDollarAmount(data["load_amount"])
  }

  /** `Transaction.__init__`: presence, then id, customer id, timestamp and
      amount, each failure ending construction with its own error. */
  function New(data: map<string, string>): (r: Result<Transaction, FieldError>)
    ensures r.Success? <==> Acceptable(data)
    ensures r.Success? ==>
      && WellFormed(r.value)
      && r.value.id == ParseNat(data["id"])
      && r.value.customerId == data["customer_id"]
      && r.value.datetime == data["time"]
      && r.value.amount == DollarCents(data["load_amount"])
    // the first failing check decides the error
    ensures ValidateRequiredFields(data).Failure? ==> r == Failure(ValidateRequiredFields(data).error)
    ensures "id" !in data ==> r == Failure(MissingField("id"))
    ensures "id" in data && "customer_id" !in data ==> r == Failure(MissingField("customer_id"))
    ensures "id" in data && "customer_id" in data && "time" !in data ==> r == Failure(MissingField("time"))
    ensures "id" in data && "customer_id" in data && "time" in data && "load_amount" !in data ==>
      r == Failure(MissingField("load_amount"))
    ensures ValidateRequiredFields(data).Success? ==>
      && (!MatchesIdFormat(data["id"]) ==> r == Failure(InvalidTransactionId(data["id"])))
      && (MatchesIdFormat(data["id"]) && !MatchesIdFormat(data["customer_id"]) ==>
            r == Failure(InvalidCustomerId(data["customer_id"])))
      && (MatchesIdFormat(data["id"]) && MatchesIdFormat(data["customer_id"]) &&
          ParseTimestamp(data["time"]).None? ==>
            r == Failure(InvalidTimestamp(data["time"])))
    ensures ValidateRequiredFields(data).Success? && MatchesIdFormat(data["id"]) &&
            MatchesIdFormat(data["customer_id"]) && ParseTimestamp(data["time"]).Some? ==>
      && (!MatchesAmountPattern(data["load_amount"]) ==> r == Failure(InvalidAmount(data["load_amount"])))
      && (MatchesAmountPattern(data["load_amount"]) && !IsDollarAmount(data["load_amount"]) ==>
            r == Failure(AmountNotNumeric(data["load_amount"])))
  {
    var _ :- ValidateRequiredFields(data);
    var id :- ValidateTransactionId(data["id"]);
    var customer :- ValidateCustomerId(data["customer_id"]);
    var parts :- ProcessTimestamp(data["time"]);
    var amount :- ProcessAmount(data["load_amount"]);
    Success(Transaction(ParseNat(id), customer, parts.0, parts.1, parts.2, amount))
  }

  const DictKeys: set<string> :=
    {"id", "customer_id", "transaction_date", "transaction_time", "transaction_datetime", "load_amount"}

  /** `to_dict`. */
  function ToDict(t: Transaction): (r: map<string, Field>)
    ensures r.Keys == DictKeys
    ensures r["id"] == Int(t.id) && r["customer_id"] == Text(t.customerId)
    ensures r["transaction_date"] == Text(t.date) && r["transaction_time"] == Text(t.time)
    ensures r["transaction_datetime"] == Text(t.datetime) && r["load_amount"] == Amount(t.amount)
  {
    map["id" := Int(t.id),
        "customer_id" := Text(t.customerId),
        "transaction_date" := Text(t.date),
        "transaction_time" := Text(t.time),
        "transaction_datetime" := Text(t.datetime),
        "load_amount" := Amount(t.amount)]
  }

  /** `from_dict` as written: the amount goes through `str(float)`. A
      missing dictionary key is reported before any field is checked; a
      success is a constructed transaction carrying the dictionary's
      customer and date-time texts. */
  function FromDict(data: map<string, Field>): (r: Result<Transaction, FieldError>)
    ensures Reassemble(data, FloatText).Failure? ==> r == Failure(Reassemble(data, FloatText).error)
    ensures r.Success? <==> Reassemble(data, FloatText).Success? && Acceptable(Reassemble(data, FloatText).value)
    ensures "id" !in data ==> r == Failure(MissingDictField("id"))
    ensures "id" in data && "customer_id" !in data ==> r == Failure(MissingDictField("customer_id"))
    ensures "id" in data && "customer_id" in data && "transaction_datetime" !in data ==>
      r == Failure(MissingDictField("transaction_datetime"))
    ensures "id" in data && "customer_id" in data && "transaction_datetime" in data && "load_amount" !in data ==>
      r == Failure(MissingDictField("load_amount"))
    ensures r.Success? ==>
      && "id" in data && "customer_id" in data && "transaction_datetime" in data && "load_amount" in data
      && WellFormed(r.value)
      && r.value.customerId == FieldText(data["customer_id"], FloatText)
      && r.value.datetime == FieldText(data["transaction_datetime"], FloatText)
  {
    var raw :- Reassemble(data, FloatText);
    New(raw)
  }

  /** `from_dict` with the amount rendered with two decimals. */
  function FromDictTwoDecimals(data: map<string, Field>): Result<Transaction, FieldError> {
    var raw :- Reassemble(data, CentsText);
    New(raw)
  }

  /** What `from_dict` hands the constructor for a dictionary from `to_dict`. */
  lemma ReassembleToDict(t: Transaction, amountText: nat -> string)
    ensures Reassemble(ToDict(t), amountText)
      == Success(map["id" := NatText(t.id), "customer_id" := t.customerId,
                     "time" := t.datetime, "load_amount" := "$" + amountText(t.amount)])
  {
  }

  /** As written, reading back a dictionary made by `to_dict` succeeds
      exactly when the amount has a non-zero cent digit: `$100.00` becomes
      `"$100.0"` and fails the amount pattern. */
  lemma FromDictAsWritten(t: Transaction)
    requires WellFormed(t)
    ensures FromDict(ToDict(t)).Success? <==> t.amount % 10 != 0
    ensures t.amount % 10 != 0 ==> FromDict(ToDict(t)) == Success(t)
  {
    ReassembleToDict(t, FloatText);
    FloatTextAmount(t.amount);
    ParseNatText(t.id);
    if t.amount % 10 != 0 {
      DollarCentsText(t.amount);
    }
  }

  /** A concrete amount the round trip loses. */
  lemma FromDictLosesWholeDollars()
    ensures FloatText(10000) == "100.0"
    ensures !IsDollarAmount("$" + FloatText(10000))
  {
    FloatTextAmount(10000);
  }

  /** With two-decimal amounts, `to_dict` then `from_dict` gives back the
      same transaction for every constructed transaction. */
  lemma FromDictTwoDecimalsRoundTrip(t: Transaction)
    requires WellFormed(t)
    ensures FromDictTwoDecimals(ToDict(t)) == Success(t)
  {
    ReassembleToDict(t, CentsText);
    DollarCentsText(t.amount);
    ParseNatText(t.id);
  }
}

=== FILE: window_validator.dfy ===
/** The rolling-window validator: the record under evaluation is already in
    the store; its daily window runs from UTC midnight of its day to its own
    instant, its weekly window is the seven days (604800 seconds) before
    that instant, and window totals count a Monday-dated load twice. */
module WindowValidator {
  import opened Calendar
  import opened Arith
  import opened DatedTransactions
  import opened Store
  import opened Limits
  import opened Text
  import opened Primes
  import opened Formats

  datatype Reason =
    | PrimeDailyCount   // prime id: more than one daily transaction
    | PrimeDailyTotal   // prime id: daily total exceeds 9999
    | DailyCount        // normal id: more than three daily transactions
    | DailyTotalLimit   // normal id: daily total exceeds 5000
    | WeeklyTotalLimit  // normal id: weekly total exceeds 20000

  datatype Outcome = Accepted | Rejected(reason: Reason)

  /** `_is_prime` applied to the transaction's numeric id. */
  predicate IsPrimeTransaction(primes: set<string>, t: Transaction)
    requires WellFormed(t)
  {
    IsPrimeId(primes, ParseNat(t.id))
  }

  /** A record's weight in a window total: Monday-dated loads count twice. */
  function Weight(x: Transaction): nat
    requires WellFormed(x)
  {
    if IsMonday(x.stamp.date) then 2 * x.amount else x.amount
  }

  /** `_total_load_amount`. */
  function TotalLoadAmount(rs: seq<Transaction>): nat
    requires AllValid(rs)
  {
    if |rs| == 0 then 0 else TotalLoadAmount(rs[..|rs| - 1]) + Weight(rs[|rs| - 1])
  }

  /** The plain sum of the loads, and the sum of the Monday-dated ones. */
  function PlainTotal(rs: seq<Transaction>): nat {
    if |rs| == 0 then 0 else PlainTotal(rs[..|rs| - 1]) + rs[|rs| - 1].amount
  }

  function MondayTotal(rs: seq<Transaction>): nat
    requires AllValid(rs)
  {
    if |rs| == 0 then 0
    else MondayTotal(rs[..|rs| - 1]) + (if IsMonday(rs[|rs| - 1].stamp.date) then rs[|rs| - 1].amount else 0)
  }

  /** Monday doubling adds the Monday-dated loads a second time. */
  lemma {:induction false} MondayDoubling(rs: seq<Transaction>)
    requires AllValid(rs)
    ensures TotalLoadAmount(rs) == PlainTotal(rs) + MondayTotal(rs)
  {
    if |rs| > 0 {
      MondayDoubling(rs[..|rs| - 1]);
    }
  }

  /** Appending a record adds its weight. */
  lemma TotalSnoc(rs: seq<Transaction>, x: Transaction)
    requires AllValid(rs) && WellFormed(x)
    ensures AllValid(rs + [x])
    ensures TotalLoadAmount(rs + [x]) == TotalLoadAmount(rs) + Weight(x)
  {
    assert (rs + [x])[..|rs|] == rs;
  }

  lemma AllValidRemove(b: seq<Transaction>, k: nat)
    requires AllValid(b) && k < |b|
    ensures AllValid(b[..k] + b[k + 1..])
  {
    var c := b[..k] + b[k + 1..];
    forall i | 0 <= i < |c|
      ensures WellFormed(c[i])
    {
      if i < k {
        assert c[i] == b[i];
      } else {
        assert c[i] == b[i + 1];
      }
    }
  }

  /** Taking one record out of a window takes its weight out of the total. */
  lemma {:induction false} TotalRemove(b: seq<Transaction>, k: nat)
    requires AllValid(b) && k < |b|
    ensures AllValid(b[..k] + b[k + 1..])
    ensures TotalLoadAmount(b) == TotalLoadAmount(b[..k] + b[k + 1..]) + Weight(b[k])
    decreases |b|
  {
    AllValidRemove(b, k);
    var n := |b| - 1;
    var front := b[..n];
    assert TotalLoadAmount(b) == TotalLoadAmount(front) + Weight(b[n]);
    if k == n {
      assert b[..k] + b[k + 1..] == front;
    } else {
      TotalRemove(front, k);
      RemoveBeforeLast(b, k);
      TotalSnoc(front[..k] + front[k + 1..], b[n]);
      assert front[k] == b[k];
    }
  }

  /** Removing a position before the last one commutes with taking the
      last element off. */
  lemma RemoveBeforeLast<T>(b: seq<T>, k: nat)
    requires k + 1 < |b|
    ensures b[..k] + b[k + 1..] == (b[..|b| - 1][..k] + b[..|b| - 1][k + 1..]) + [b[|b| - 1]]
  {
    var n := |b| - 1;
    assert b[..n][..k] == b[..k];
    assert b[..n][k + 1..] + [b[n]] == b[k + 1..];
  }

  lemma MultisetRemove(b: seq<Transaction>, k: nat)
    requires k < |b|
    ensures multiset(b[..k] + b[k + 1..]) == multiset(b) - multiset{b[k]}
  {
    assert b == b[..k] + [b[k]] + b[k + 1..];
  }

  /** The total does not depend on the order the store returns records in. */
  lemma {:induction false} TotalPermutation(a: seq<Transaction>, b: seq<Transaction>)
    requires AllValid(a) && AllValid(b) && multiset(a) == multiset(b)
    ensures TotalLoadAmount(a) == TotalLoadAmount(b)
    decreases |a|
  {
    if |a| > 0 {
      var n := |a| - 1;
      var x := a[n];
      assert x in multiset(b);
      assert x in b;
      var k :| 0 <= k < |b| && b[k] == x;
      var a', b' := a[..n], b[..k] + b[k + 1..];
      MultisetRemove(a, n);
      MultisetRemove(b, k);
      assert a[..n] + a[n + 1..] == a';
      assert multiset(a') == multiset(b');
      TotalRemove(a, n);
      TotalRemove(b, k);
      TotalPermutation(a', b');
    } else {
      assert |b| == |multiset(b)| == 0;
    }
  }

  /** Same customer, same calendar date, and not later in the day. */
  predicate SameDayUpTo(x: Transaction, t: Transaction)
    requires WellFormed(x) && WellFormed(t)
  {
    x.customerId == t.customerId && x.stamp.date == t.stamp.date && SecondsOfDay(x.stamp) <= SecondsOfDay(t.stamp)
  }

  /** The customer's records of `t`'s day up to `t`, in store order. */
  function DayOf(rs: seq<Transaction>, t: Transaction): (r: seq<Transaction>)
    requires AllValid(rs) && WellFormed(t)
    ensures AllValid(r)
  {
    if |rs| == 0 then []
    else
      var rest := DayOf(rs[..|rs| - 1], t);
      if SameDayUpTo(rs[|rs| - 1], t) then rest + [rs[|rs| - 1]] else rest
  }

  /** The closed epoch interval from midnight to `t` selects exactly the
      records of `t`'s calendar day up to `t`. */
  lemma {:induction false} DailyWindowExact(rs: seq<Transaction>, t: Transaction)
    requires AllValid(rs) && WellFormed(t)
    ensures Matching(rs, t.customerId, MidnightEpoch(t.stamp), Epoch(t)) == DayOf(rs, t)
  {
    if |rs| > 0 {
      DailyWindowExact(rs[..|rs| - 1], t);
      SameDayWindow(rs[|rs| - 1].stamp, t.stamp);
    }
  }

  /** `_get_daily_transactions`. */
  function DailyTransactions(rs: seq<Transaction>, t: Transaction): (r: seq<Transaction>)
    requires AllValid(rs) && WellFormed(t)
    ensures AllValid(r) && NewestFirst(r)
    ensures multiset(r) == multiset(DayOf(rs, t))
  {
    DailyWindowExact(rs, t);
    RangeQuery(rs, t.customerId, MidnightEpoch(t.stamp), Epoch(t))
  }

  /** The customer's records in the seven days up to `t`, in store order. */
  function WeekOf(rs: seq<Transaction>, t: Transaction): (r: seq<Transaction>)
    requires AllValid(rs) && WellFormed(t)
    ensures AllValid(r)
  {
    Matching(rs, t.customerId, Epoch(t) - SecondsPerWeek, Epoch(t))
  }

  /** `_get_weekly_transactions`. */
  function WeeklyTransactions(rs: seq<Transaction>, t: Transaction): (r: seq<Transaction>)
    requires AllValid(rs) && WellFormed(t)
    ensures AllValid(r) && NewestFirst(r)
    ensures multiset(r) == multiset(WeekOf(rs, t))
  {
    assert WeekOf(rs, t) == Matching(rs, t.customerId, Epoch(t) - SecondsPerWeek, Epoch(t));
    RangeQuery(rs, t.customerId, Epoch(t) - SecondsPerWeek, Epoch(t))
  }

  /** The rule applied to a daily and a weekly window: the count cap, then
      the daily cap, of the transaction's tier; the weekly cap applies to
      the normal tier only. */
  function Decide(prime: bool, day: seq<Transaction>, week: seq<Transaction>): (r: Outcome)
    requires AllValid(day) && AllValid(week)
    ensures r.Accepted? <==>
      if prime then |day| <= 1 && TotalLoadAmount(day) <= PrimeDailyLimit
      else |day| <= DailyCountLimit && TotalLoadAmount(day) <= DailyLimit && TotalLoadAmount(week) <= WeeklyLimit
    ensures r == Rejected(PrimeDailyCount) <==> prime && |day| > 1
    ensures r == Rejected(PrimeDailyTotal) <==> prime && |day| <= 1 && TotalLoadAmount(day) > PrimeDailyLimit
    ensures r == Rejected(DailyCount) <==> !prime && |day| > DailyCountLimit
    ensures r == Rejected(DailyTotalLimit) <==>
      !prime && |day| <= DailyCountLimit && TotalLoadAmount(day) > DailyLimit
    ensures r == Rejected(WeeklyTotalLimit) <==>
      !prime && |day| <= DailyCountLimit && TotalLoadAmount(day) <= DailyLimit && TotalLoadAmount(week) > WeeklyLimit
  {
    if prime then
      if |day| > 1 then Rejected(PrimeDailyCount)
      else if TotalLoadAmount(day) > PrimeDailyLimit then Rejected(PrimeDailyTotal)
      else Accepted
    else if |day| > DailyCountLimit then Rejected(DailyCount)
    else if TotalLoadAmount(day) > DailyLimit then Rejected(DailyTotalLimit)
    else if TotalLoadAmount(week) > WeeklyLimit then Rejected(WeeklyTotalLimit)
    else Accepted
  }

  /** A decision depends on its windows' contents, not their order. */
  lemma DecidePermutation(prime: bool, d1: seq<Transaction>, d2: seq<Transaction>, w1: seq<Transaction>, w2: seq<Transaction>)
    requires AllValid(d1) && AllValid(d2) && AllValid(w1) && AllValid(w2)
    requires multiset(d1) == multiset(d2) && multiset(w1) == multiset(w2)
    ensures Decide(prime, d1, w1) == Decide(prime, d2, w2)
  {
    TotalPermutation(d1, d2);
    TotalPermutation(w1, w2);
    assert |d1| == |multiset(d1)| == |d2|;
  }

  /** `validate` on the store's newest-first range answers; the outcome is
      the rule applied to the customer's records of `t`'s day up to `t`
      and of the seven days up to `t`. Counts and totals include `t`
      itself when it is stored, as the pipeline arranges. */
  function Validate(primes: set<string>, rs: seq<Transaction>, t: Transaction): (r: Outcome)
    requires AllValid(rs) && WellFormed(t)
    ensures r == Decide(IsPrimeTransaction(primes, t), DayOf(rs, t), WeekOf(rs, t))
  {
    var daily := DailyTransactions(rs, t);
    var weekly := WeeklyTransactions(rs, t);
    DecidePermutation(IsPrimeTransaction(primes, t), daily, DayOf(rs, t), weekly, WeekOf(rs, t));
    Decide(IsPrimeTransaction(primes, t), daily, weekly)
  }

  /** The Monday share of a window never exceeds the whole, so a window
      total lies between the plain sum and twice it, reaching either end
      when no record, or every record, is Monday-dated. */
  lemma {:induction false} MondayTotalRange(rs: seq<Transaction>)
    requires AllValid(rs)
    ensures MondayTotal(rs) <= PlainTotal(rs)
    ensures (forall k :: 0 <= k < |rs| ==> IsMonday(rs[k].stamp.date)) ==> MondayTotal(rs) == PlainTotal(rs)
    ensures (forall k :: 0 <= k < |rs| ==> !IsMonday(rs[k].stamp.date)) ==> MondayTotal(rs) == 0
  {
    if |rs| > 0 {
      MondayTotalRange(rs[..|rs| - 1]);
    }
  }

  lemma TotalLoadBounds(rs: seq<Transaction>)
    requires AllValid(rs)
    ensures PlainTotal(rs) <= TotalLoadAmount(rs) <= 2 * PlainTotal(rs)
    ensures (forall k :: 0 <= k < |rs| ==> IsMonday(rs[k].stamp.date)) ==> TotalLoadAmount(rs) == 2 * PlainTotal(rs)
    ensures (forall k :: 0 <= k < |rs| ==> !IsMonday(rs[k].stamp.date)) ==> TotalLoadAmount(rs) == PlainTotal(rs)
  {
    MondayDoubling(rs);
    MondayTotalRange(rs);
  }

  /** A stored record of another customer, or one outside the closed
      interval from a week before `t` to `t`, changes no verdict: in
      particular a record later than `t` never counts against it. */
  lemma IrrelevantRecord(primes: set<string>, rs: seq<Transaction>, t: Transaction, x: Transaction)
    requires AllValid(rs) && WellFormed(t) && WellFormed(x)
    requires x.customerId != t.customerId || Epoch(x) > Epoch(t) || Epoch(x) < Epoch(t) - SecondsPerWeek
    ensures AllValid(rs + [x])
    ensures Validate(primes, rs + [x], t) == Validate(primes, rs, t)
  {
    SameDayWindow(x.stamp, t.stamp);
    assert (rs + [x])[..|rs|] == rs;
    assert !SameDayUpTo(x, t);
    assert DayOf(rs + [x], t) == DayOf(rs, t);
    assert !InRange(x, t.customerId, Epoch(t) - SecondsPerWeek, Epoch(t));
    assert WeekOf(rs + [x], t) == WeekOf(rs, t);
  }

  /** The prime tier looks at the current day only: a record of any other
      day, however large, changes nothing. */
  lemma PrimeIgnoresOtherDays(primes: set<string>, rs: seq<Transaction>, t: Transaction, x: Transaction)
    requires AllValid(rs) && WellFormed(t) && WellFormed(x)
    requires IsPrimeTransaction(primes, t) && x.stamp.date != t.stamp.date
    ensures AllValid(rs + [x])
    ensures Validate(primes, rs + [x], t) == Validate(primes, rs, t)
  {
    assert (rs + [x])[..|rs|] == rs;
    assert DayOf(rs + [x], t) == DayOf(rs, t);
  }

  /** A transaction alone in the store passes exactly when its weighted
      amount fits its tier's daily cap; on a Monday the amount counts
      twice, so the effective cap halves. */
  lemma SingleRecord(primes: set<string>, t: Transaction)
    requires WellFormed(t)
    ensures AllValid([t])
    ensures Validate(primes, [t], t).Accepted? <==>
      (if IsMonday(t.stamp.date) then 2 * t.amount else t.amount)
        <= (if IsPrimeTransaction(primes, t) then PrimeDailyLimit else DailyLimit)
  {
    assert [t][..0] == [];
    assert DayOf([t], t) == [t];
    assert InRange(t, t.customerId, Epoch(t) - SecondsPerWeek, Epoch(t));
    assert WeekOf([t], t) == [t] by {
      assert Matching([t], t.customerId, Epoch(t) - SecondsPerWeek, Epoch(t)) == [t];
    }
    DecideSingle(IsPrimeTransaction(primes, t), t);
  }

  /** The decision on windows that hold one record only. */
  lemma DecideSingle(prime: bool, t: Transaction)
    requires WellFormed(t)
    ensures AllValid([t])
    ensures Decide(prime, [t], [t]).Accepted? <==> Weight(t) <= (if prime then PrimeDailyLimit else DailyLimit)
  {
    assert [t][..0] == [];
    assert TotalLoadAmount([t]) == Weight(t);
  }

  // ---- the validator's test scenarios, amounts in cents ----

  function Load(id: string, customer: string, d: Date, hour: int): Transaction {
    Transaction(id, customer, DateTime(d, hour, 0, 0), 10000)
  }

  /** One step of the daily filter over a store that grows by one record. */
  lemma DayOfSnoc(rs: seq<Transaction>, x: Transaction, t: Transaction)
    requires AllValid(rs) && WellFormed(x) && WellFormed(t)
    ensures AllValid(rs + [x])
    ensures DayOf(rs + [x], t) == DayOf(rs, t) + (if SameDayUpTo(x, t) then [x] else [])
  {
    assert (rs + [x])[..|rs|] == rs;
  }

  /** Two earlier records of the customer on the same day, one of another
      customer, and the new record: the daily window holds three. */
  lemma ThreeInDay(a: Transaction, b: Transaction, c: Transaction, n: Transaction)
    requires WellFormed(a) && WellFormed(b) && WellFormed(c) && WellFormed(n)
    requires SameDayUpTo(a, n) && SameDayUpTo(b, n) && c.customerId != n.customerId
    ensures AllValid([a, b, c, n])
    ensures |DailyTransactions([a, b, c, n], n)| == 3
  {
    ThreeInDayOf(a, b, c, n);
    var d := DailyTransactions([a, b, c, n], n);
    assert |d| == |multiset(d)| == |multiset(DayOf([a, b, c, n], n))|;
  }

  lemma ThreeInDayOf(a: Transaction, b: Transaction, c: Transaction, n: Transaction)
    requires WellFormed(a) && WellFormed(b) && WellFormed(c) && WellFormed(n)
    requires SameDayUpTo(a, n) && SameDayUpTo(b, n) && c.customerId != n.customerId
    ensures AllValid([a, b, c, n])
    ensures DayOf([a, b, c, n], n) == [a, b, n]
  {
    DayOfSnoc([], a, n);
    assert [] + [a] == [a];
    assert DayOf([a], n) == [a];
    DayOfSnoc([a], b, n);
    assert DayOf([a, b], n) == [a, b];
    DayOfSnoc([a, b], c, n);
    assert [a, b] + [c] == [a, b, c];
    assert DayOf([a, b, c], n) == [a, b];
    DayOfSnoc([a, b, c], n, n);
    assert [a, b, c] + [n] == [a, b, c, n];
  }

  /** A test load is well formed when its ids are digit strings and its
      date-time is valid. */
  lemma LoadWellFormed(id: string, customer: string, d: Date, hour: int)
    requires MatchesIdFormat(id) && MatchesIdFormat(customer) && ValidDate(d) && 0 <= hour < 24
    ensures WellFormed(Load(id, customer, d, hour))
  {
  }

  /** Two earlier records of customer 1 on 2000-01-01, one of customer 2,
      and the new one at 11:00: the daily window holds three. */
  lemma DailyWindowExample(rs: seq<Transaction>, n: Transaction)
    requires n == Load("4", "1", Date(2000, 1, 1), 11)
    requires rs == [Load("1", "1", Date(2000, 1, 1), 0), Load("2", "1", Date(2000, 1, 1), 10),
                    Load("3", "2", Date(2000, 1, 1), 0), n]
    ensures AllValid(rs) && WellFormed(n)
    ensures |DailyTransactions(rs, n)| == 3
  {
    var day := Date(2000, 1, 1);
    assert ValidDate(day);
    assert MatchesIdFormat("1") && MatchesIdFormat("2") && MatchesIdFormat("3") && MatchesIdFormat("4");
    LoadWellFormed("1", "1", day, 0);
    LoadWellFormed("2", "1", day, 10);
    LoadWellFormed("3", "2", day, 0);
    LoadWellFormed("4", "1", day, 11);
    assert "2" != "1" by { assert "2"[0] != "1"[0]; }
    ThreeInDay(rs[0], rs[1], rs[2], n);
  }

  /** One step of a range match over a store that grows by one record. */
  lemma MatchingSnoc(rs: seq<Transaction>, x: Transaction, customer: string, lo: int, hi: int)
    requires AllValid(rs) && WellFormed(x)
    ensures AllValid(rs + [x])
    ensures Matching(rs + [x], customer, lo, hi)
      == Matching(rs, customer, lo, hi) + (if InRange(x, customer, lo, hi) then [x] else [])
  {
    assert (rs + [x])[..|rs|] == rs;
  }

  /** A test record dated in January 2000, at a whole hour. */
  lemma January2000Load(x: Transaction, day: int, hour: int)
    requires MatchesIdFormat(x.id) && MatchesIdFormat(x.customerId)
    requires x.stamp == DateTime(Date(2000, 1, day), hour, 0, 0)
    requires 1 <= day <= 31 && 0 <= hour < 24
    ensures WellFormed(x) && Epoch(x) == 946684800 + (day - 1) * SecondsPerDay + hour * 3600
  {
    January2000(x.stamp.date);
  }

  /** The Monday-to-Sunday week number of a day of January 2000. */
  lemma January2000Week(d: Date)
    requires d.year == 2000 && d.month == 1 && 1 <= d.day <= 31
    ensures WeekIndex(d) == 104302 + (d.day + 4) / 7
  {
    January2000(d);
    DivModUnique(7, Ordinal(d) - 1, 104302 + (d.day + 4) / 7, (d.day + 4) % 7);
  }

  /** A store of five records, four of one customer spread over the week up
      to the last: the weekly window holds those four. */
  lemma FourInWeek(a: Transaction, b: Transaction, c: Transaction, d: Transaction, n: Transaction)
    requires WellFormed(a) && WellFormed(b) && WellFormed(c) && WellFormed(d) && WellFormed(n)
    requires a.customerId == b.customerId == d.customerId == n.customerId != c.customerId
    requires Epoch(n) - SecondsPerWeek <= Epoch(a) <= Epoch(b) <= Epoch(d) <= Epoch(n)
    ensures AllValid([a, b, c, d, n])
    ensures |WeekOf([a, b, c, d, n], n)| == 4
  {
    var customer, lo, hi := n.customerId, Epoch(n) - SecondsPerWeek, Epoch(n);
    MatchingSnoc([], a, customer, lo, hi);
    assert [] + [a] == [a];
    MatchingSnoc([a], b, customer, lo, hi);
    MatchingSnoc([a, b], c, customer, lo, hi);
    assert [a, b] + [c] == [a, b, c];
    assert |Matching([a, b, c], customer, lo, hi)| == 2;
    MatchingSnoc([a, b, c], d, customer, lo, hi);
    assert [a, b, c] + [d] == [a, b, c, d];
    assert |Matching([a, b, c, d], customer, lo, hi)| == 3;
    MatchingSnoc([a, b, c, d], n, customer, lo, hi);
    assert [a, b, c, d] + [n] == [a, b, c, d, n];
  }

  /** The weekly window is rolling, not calendar: for a record at
      2000-01-06 11:00 (a Thursday) it still holds the customer's record of
      2000-01-01 00:00, which lies in the previous Monday-to-Sunday week. */
  lemma RollingWeekExample(a: Transaction, n: Transaction)
    requires a == Load("1", "1", Date(2000, 1, 1), 0) && n == Load("5", "1", Date(2000, 1, 6), 11)
    ensures WellFormed(a) && WellFormed(n)
    ensures InRange(a, n.customerId, Epoch(n) - SecondsPerWeek, Epoch(n))
    ensures WeekIndex(a.stamp.date) != WeekIndex(n.stamp.date)
  {
    assert MatchesIdFormat("1") && MatchesIdFormat("5");
    January2000Load(a, 1, 0);
    January2000Load(n, 6, 11);
    January2000Week(a.stamp.date);
    January2000Week(n.stamp.date);
  }
}
